=== FILE: README.md ===
# java-kanban task engine in Dafny

A model of the task engine of java-kanban, a kanban tracker written in Java.
It has three kinds of object. A task is a unit of work. An epic groups
subtasks. A subtask belongs to exactly one epic.

The model covers these parts:

- **The entity classes.** `Task`, `Epic` and `Subtask` are the datatypes of
  module `Model`. The module also holds their constructors, setters, derived
  end time and `equals`.
- **The in-memory manager.** This is `InMemoryTaskManager`, split by
  operation across the modules below.
  - `ManagerState` holds the state and its invariant.
  - `CreateOps`, `ReadOps`, `UpdateOps` and `DeleteOps` hold the operations.
  - `RollUp` holds the two epic status roll-ups, `updateEpicStatus` and
    `recalculateEpicStatus`.
  - `Priority` holds the prioritized `TreeSet` and the schedule-overlap check.
- **The browsing history.** This is `LinkedListCustom` behind
  `InMemoryHistoryManager`, in module `History`. It is an arena of nodes
  keyed by task id, whose `prev`/`next` fields are ids. A plain field `order`
  lists the ids head to tail, and `Valid` ties the links to it.
- **The CSV line format of `FileBackedTaskManager`.** This lives in module
  `Csv`. It covers:
  - `toString` and `fromString`;
  - the lines `save` writes;
  - the lines `loadFromFile` reads.
- **The file text.** Module `FileText` covers the text `save` writes, each
  line ended by U+000A, and the lines `BufferedReader.readLine` splits it
  back into.
- **The legacy manager and capped history.** These are `src/TaskManager.java`
  and `src/InMemoryHistoryManager.java`, in module `Legacy`.

Time is counted in whole minutes. `Option<int>` stands for a nullable start
time. Objects are values: an operation returns the new manager. A thrown
exception becomes an error outcome, as follows:

- `Clash` for an overlap in the engine;
- `None` for a line the loader cannot parse;
- `Thrown` for a `NullPointerException` or `IndexOutOfBoundsException` in
  the legacy manager.

A `HashMap` is walked in ascending key order. The file-backed manager's
`save` after every change is not modelled: it writes the text
`FileText.Text` of the lines `Csv.SaveLines` produces.

The id counters are unbounded integers. `Model.JavaIncrement` is Java's
wrapping `++` on an `int`, and the counters agree with it below
`Integer.MAX_VALUE`.

## Model

| member | source | states |
|---|---|---|
| Model.TaskEndTime | src/model/Task.java:104-109 | The end time is null exactly when the start is. Otherwise the end minus the start equals the duration. |
| Model.TaskConstructorDefaults | src/model/Task.java:13-51 | Each shorter `Task` constructor equals the full one with the omitted fields at their defaults: id 0, status NEW, no start, zero duration. |
| Model.SubtaskConstructorsDropArguments | src/model/Subtask.java:11-33 | Three `Subtask` constructors ignore arguments. The (title, description, epicId, start, duration) one keeps no schedule. The (…, id, status, epicId) one leaves the id 0. The (title, description, start, duration) one leaves the epic id 0. |
| Model.EpicConstructorSwapsArguments | src/model/Epic.java:29-31 | The `Epic(name, description, status, id)` constructor uses the description as the title and the name as the description, and leaves the id 0. |
| Model.SettersAreLocal | src/model/Task.java:57-124 | Each setter's value is read back by its getter, and undoing that one field gives back the original object. |
| Model.TypeMatchesClass | src/model/Task.java:85-87 | `getType()` answers the class of the object: `TASK` for a task and, through the overrides in `Epic` and `Subtask`, `EPIC` and `SUBTASK` for those. |
| Model.JavaIncrement | src/service/InMemoryTaskManager.java:28-30 | `++id` on an `int` gives the one `int` congruent to the old value plus one modulo 2^32. |
| Model.JavaIncrementWraps | src/service/InMemoryTaskManager.java:28-30 | `++` adds one exactly below `Integer.MAX_VALUE`. It gives a negative value exactly from `Integer.MAX_VALUE` or from below -1. |
| Model.EpicEndTimeIsStored | src/model/Epic.java:41-47 | An epic's end time is its stored field. Changing the epic's start or duration does not move it. |
| Model.AddSubtaskId | src/model/Epic.java:91-93 | The id is appended after the old list, which is kept as a prefix. Nothing else in the epic changes. |
| Model.DeleteSubtaskId | src/model/Epic.java:83-85 | The first element equal to the id is removed, not the element at that index. A missing id leaves the epic unchanged. |
| Model.ClearSubtaskIds | src/model/Epic.java:87-89 | The list becomes empty. Nothing else in the epic changes. |
| Model.DeleteUndoesAdd | src/model/Epic.java:83-93 | Deleting an id just appended to a list that lacked it gives back the original epic. |
| Model.ItemEqualsIsEquivalence | src/model/Task.java:130-137 | `equals` is reflexive, symmetric and transitive. Objects of different classes are never equal. |
| Model.EqualityIgnoresSchedule | src/model/Epic.java:49-56 | Start, duration and an epic's stored end time never affect task, epic or subtask equality. |
| Model.TaskEqualsExactly | src/model/Task.java:135-136 | Two tasks are equal exactly when they differ at most in start and duration. |
| RollUp.Count | src/service/InMemoryTaskManager.java:298-304 | The count of a status is at most the list length. It equals the length exactly when every subtask has that status, and it is 0 exactly when none has it. |
| RollUp.MixedRollUp | src/service/InMemoryTaskManager.java:302-312 | All NEW, or no subtasks, gives NEW. All DONE with at least one subtask gives DONE. Any other mix gives IN_PROGRESS. Each case holds in both directions. |
| RollUp.StrictRollUp | src/service/InMemoryTaskManager.java:326-337 | All IN_PROGRESS gives IN_PROGRESS and all DONE gives DONE, each with at least one subtask. No subtasks, or any other mix, gives NEW. Each case holds in both directions. |
| RollUp.RollUpsAgreeIffUniform | src/service/InMemoryTaskManager.java:306-337 | The two roll-ups agree exactly when all subtasks share one status. On a mix the first gives IN_PROGRESS and the second NEW. |
| RollUp.RollUpsDivergeOnMix | src/service/InMemoryTaskManager.java:331-337 | One NEW and one DONE subtask roll up to IN_PROGRESS on creation and to NEW on recalculation. |
| RollUp.MinStart | src/service/InMemoryTaskManager.java:339-343 | It is null exactly when no subtask has a start. Otherwise it is one subtask's start and no later than any other start. |
| RollUp.MaxEnd | src/service/InMemoryTaskManager.java:344-348 | It is null exactly when no subtask has a start. Otherwise it is one subtask's end and no earlier than any other end. |
| RollUp.TotalDurationAppend | src/service/InMemoryTaskManager.java:349-351 | The summed duration splits over concatenation. |
| RollUp.TotalDurationBounds | src/service/InMemoryTaskManager.java:349-351 | Non-negative durations sum to a non-negative total that is at least each duration. |
| RollUp.UpdateEpicStatus | src/service/InMemoryTaskManager.java:289-313 | The status is the first roll-up. An empty list clears the start and end and sets a zero duration. A non-empty list keeps the schedule. Id, title, description and list are kept. |
| RollUp.RecalculateEpicStatus | src/service/InMemoryTaskManager.java:318-355 | The status is the second roll-up. The start is the earliest subtask start, the end the latest subtask end, and the duration the sum of the subtask durations. Id, title, description and list are kept. |
| RollUp.RecalculatedSpanCovers | src/service/InMemoryTaskManager.java:339-355 | After recalculation the epic has a start exactly when some subtask has one, and an end exactly when it has a start. Every scheduled subtask lies within that span. |
| RollUp.SpanIsNotDuration | src/service/InMemoryTaskManager.java:349-355 | Two 10-minute subtasks an hour apart give the epic a 70-minute span but a 20-minute duration. |
| Priority.BeforeIsStrictTotalOrder | src/service/InMemoryTaskManager.java:24-25 | The comparator is irreflexive, asymmetric and transitive. It is total up to equal keys, where a key is the (start, id) pair. |
| Priority.NullsLast | src/service/InMemoryTaskManager.java:24-25 | A scheduled element sorts before an unscheduled one. |
| Priority.Insert | src/service/InMemoryTaskManager.java:26 | `TreeSet.add` keeps the set sorted. If the key is already present the set is unchanged. Otherwise the set grows by exactly the new element. |
| Priority.InsertKeyed | src/service/InMemoryTaskManager.java:275-276 | After the add, the key is present and elements with other keys are unaffected. |
| Priority.RemoveKey | src/service/InMemoryTaskManager.java:155 | `TreeSet.remove` keeps the set sorted. It drops exactly the elements with the removed object's key. |
| Priority.RemoveId | src/service/InMemoryTaskManager.java:248 | `removeIf` by id keeps the set sorted and drops exactly the elements with that id. |
| Priority.OverlapFacts | src/service/InMemoryTaskManager.java:358-365 | Overlap is symmetric. Back-to-back items do not overlap. An unscheduled item overlaps nothing. |
| Priority.OverlapMeansSharedMinute | src/service/InMemoryTaskManager.java:358-365 | For positive durations, two items overlap exactly when some minute lies in both half-open intervals. |
| Priority.ZeroDurationOverlap | src/service/InMemoryTaskManager.java:358-365 | A zero-length item strictly inside another overlaps it, although its interval holds no minute. |
| Priority.FirstClash | src/service/InMemoryTaskManager.java:367-373 | The result is empty exactly when no element clashes, where a clash means both are scheduled, the ids differ and the items overlap. Otherwise it is the first clashing element in set order. |
| Priority.UnscheduledNeverClashes | src/service/InMemoryTaskManager.java:369 | An item without a start never clashes with anything. |
| History.Empty | src/service/LinkedListCustom.java:12-15 | A new list is well formed and empty. |
| History.LinkLast | src/service/LinkedListCustom.java:17-27 | The new node becomes the tail, and also the head when the list was empty. It is appended to the order, and every old node keeps its item. |
| History.LinkLastValid | src/service/LinkedListCustom.java:17-27 | Re-pointing the old tail and adding the new node keeps every link consistent with the order. |
| History.RemoveNode | src/service/LinkedListCustom.java:39-64 | Unlinking a node leaves a well-formed list whose order is the old one without that id. The remaining nodes keep their items. |
| History.RemoveNodeValid | src/service/LinkedListCustom.java:39-64 | The head, tail and neighbour fix-ups of `removeNode` make the remaining links spell out the remaining order. |
| History.Add | src/service/LinkedListCustom.java:66-73 | Adding removes any old entry with the same id, then appends the item. A known id keeps the length the same; a new id grows it by one. |
| History.Remove | src/service/LinkedListCustom.java:75-80 | Removing drops that id's entry, and the id is no longer indexed. An unknown id changes nothing. |
| History.GetTasks | src/service/LinkedListCustom.java:29-37 | The loop from the head collects the items head to tail, which is the list's order. |
| History.ItemsDistinct | src/service/LinkedListCustom.java:69-78 | No id appears twice in the history. The index holds exactly the ids in the history. |
| History.WithoutIds | src/service/LinkedListCustom.java:39-64 | Exactly the entries whose ids are not dropped stay. |
| History.WithoutIdsThenId | src/service/LinkedListCustom.java:39-64 | Removing one more id after a set of ids, as a further `removeNode` does, leaves what dropping the whole set at once leaves, in the same order. |
| History.AddInHistory | src/service/InMemoryHistoryManager.java:13-16 | Delegates to `add`: the history loses the item's old entry and gains the item at the end. |
| History.RemoveFromHistory | src/service/InMemoryHistoryManager.java:23-26 | Delegates to `remove`: the history loses the entry with that id. |
| History.GetHistory | src/service/InMemoryHistoryManager.java:18-21 | Returns the items head to tail, in the list's order. |
| History.FreshHistoryIsEmpty | test/InMemoryHistoryManagerTest.java:72-78 | A fresh history is empty. |
| History.AddTwiceKeepsOne | test/InMemoryHistoryManagerTest.java:58-70 | Adding the same task twice leaves a history that holds just that task. |
| History.AddTwoRemoveFirst | test/InMemoryHistoryManagerTest.java:39-56 | After adding task1 and task2 and removing task1, the history is exactly task2. |
| ManagerState.NewManager | src/service/InMemoryTaskManager.java:16-26 | A new manager has empty maps, an empty history, an empty prioritized set and counter 0, and satisfies the invariant. |
| ManagerState.Present | src/service/InMemoryTaskManager.java:146-149 | The listed ids are looked up in list order and missing ids are skipped. The result holds exactly the stored subtasks the list names. |
| ManagerState.SubtasksByEpic | src/service/InMemoryTaskManager.java:139-150 | An unknown epic gives an empty list. Otherwise every subtask returned is a stored one. |
| ManagerState.SubtasksByEpicComplete | src/service/InMemoryTaskManager.java:139-150 | Under the invariant the result follows the epic's list in order. It contains every stored subtask naming the epic and only such subtasks. |
| ManagerState.RefreshEpic | src/service/InMemoryTaskManager.java:282-313 | `updateEpicStatus(id)`: an unknown id changes nothing. Otherwise only that epic changes: its status becomes the first roll-up of its subtasks, and its schedule is cleared when the list is empty. |
| ManagerState.RecalculateEpic | src/service/InMemoryTaskManager.java:315-356 | `recalculateEpicStatus`: only that epic changes, and it keeps its id, title, description and list. It takes the second roll-up, the earliest start and latest end of its subtasks, and the sum of their durations. |
| ManagerState.Prioritized | src/service/InMemoryTaskManager.java:380-382 | `getPrioritizedTasks` lists the set sorted, without two elements of the same key. |
| ManagerState.TaskList | src/service/InMemoryTaskManager.java:94-97 | `getTasks` lists every stored task exactly once and nothing else, in ascending id order. |
| ManagerState.EpicList | src/service/InMemoryTaskManager.java:99-102 | `getEpics` lists every stored epic exactly once and nothing else, in ascending id order. |
| ManagerState.SubtaskList | src/service/InMemoryTaskManager.java:104-107 | `getSubtasks` lists every stored subtask exactly once and nothing else, in ascending id order. |
| CreateOps.FreshId | src/service/InMemoryTaskManager.java:28-30 | Under the invariant the next counter value is used by no task, epic, subtask or prioritized element. |
| CreateOps.CreateTask | src/service/InMemoryTaskManager.java:32-42 | A clash leaves the manager unchanged and names an overlapping element. Otherwise the task gets the next id and is stored and indexed, even when unscheduled. The invariant is kept. |
| CreateOps.CreateEpic | src/service/InMemoryTaskManager.java:44-48 | The epic gets the next id and is stored. Nothing else changes. |
| CreateOps.CreateSubtask | src/service/InMemoryTaskManager.java:50-66 | An unknown epic changes nothing, counter included. Otherwise the id is taken before the overlap check, so a clash still advances the counter. On success the id is appended to the epic's list, the subtask is stored and indexed, and the epic gets the first roll-up. The epic keeps its id, title, description, schedule and end time, and every other epic is unchanged. |
| CreateOps.Attach | src/service/InMemoryTaskManager.java:59-61 | The id is appended to its epic's list, the subtask is stored and indexed, and the invariant is kept. The epic is otherwise unchanged. |
| CreateOps.CreateTaskIdsIncrease | src/service/InMemoryTaskManager.java:28-42 | Two creations in a row take consecutive ids and store each task under its own id. |
| CreateOps.CreateIdIsJavaIncrement | src/service/InMemoryTaskManager.java:28-30 | Below `Integer.MAX_VALUE`, each create that takes an id leaves the counter where Java's `++id` leaves it. |
| CreateOps.UnscheduledTaskAlwaysCreated | src/service/InMemoryTaskManager.java:33-41 | A task without a start is always created. |
| CreateOps.UnscheduledSubtaskAlwaysCreated | src/service/InMemoryTaskManager.java:51-62 | A subtask without a start never throws. |
| ReadOps.GetTaskById | src/service/InMemoryTaskManager.java:109-117 | A hit returns the stored task and moves it to the end of the history. A miss returns null and changes nothing. |
| ReadOps.GetEpicById | src/service/InMemoryTaskManager.java:119-127 | A hit returns the stored epic and moves it to the end of the history. A miss returns null and changes nothing. |
| ReadOps.GetSubtaskById | src/service/InMemoryTaskManager.java:129-137 | A hit returns the stored subtask and moves it to the end of the history. A miss returns null and changes nothing. |
| ReadOps.GetHistory | src/service/InMemoryTaskManager.java:375-378 | Returns the history in order, with no id twice. |
| ReadOps.CreatedTaskIsFound | src/service/InMemoryTaskManager.java:110-116 | A task just created is found under the new id and becomes the last history entry. |
| ReadOps.RepeatedViewKeepsOneEntry | src/service/InMemoryTaskManager.java:110-116 | Viewing a task twice leaves one history entry for it, at the end. |
| UpdateOps.UpdateTask | src/service/InMemoryTaskManager.java:238-252 | An unknown id changes nothing. A clash is refused before any change. Otherwise the task is stored. The prioritized set changes only when the new start is non-null: the entries with that id leave and the new one enters. |
| UpdateOps.UpdateEpic | src/service/InMemoryTaskManager.java:254-264 | An unknown id changes nothing. Otherwise only title and description are copied. The epic keeps its list and gets the first roll-up; its schedule is kept unless the list is empty. |
| UpdateOps.UpdateSubtask | src/service/InMemoryTaskManager.java:266-280 | Nothing changes for an unknown id, a clash or a different epic id. Otherwise the stored key leaves the set, the new one enters it, and the subtask is stored. Its epic is then recalculated, and its duration becomes the sum of its subtasks' durations. |
| UpdateOps.Replace | src/service/InMemoryTaskManager.java:274-277 | The old key leaves the prioritized set, the new one enters it, the subtask is stored, and the invariant is kept. |
| UpdateOps.UpdateEpicIdempotent | src/service/InMemoryTaskManager.java:254-264 | Applying the same epic update twice gives the same manager as once. |
| UpdateOps.UpdateTaskTwice | src/service/InMemoryTaskManager.java:239-250 | Repeating an accepted task update is accepted again and changes neither the tasks nor the set. |
| UpdateOps.UnscheduledUpdateLeavesStaleEntry | src/service/InMemoryTaskManager.java:246-250 | A task updated to have no start keeps its old scheduled entry in the set. Deleting the task afterwards leaves that entry behind. |
| DeleteOps.DeleteTaskById | src/service/InMemoryTaskManager.java:152-161 | An unknown id changes nothing. Otherwise the task leaves the map, the history and its key's slot in the set. The invariant is kept. |
| DeleteOps.DropSubtasks | src/service/InMemoryTaskManager.java:166-171 | Each listed subtask leaves the map, the history and the set. The remaining history entries keep their order. Nothing else is touched. |
| DeleteOps.DeleteEpicById | src/service/InMemoryTaskManager.java:163-177 | An unknown id changes nothing. Otherwise the epic and exactly the subtasks naming it leave the maps, the history and the set. The history is the old one without those ids, in the old order. The invariant is kept. |
| DeleteOps.DeleteSubtaskById | src/service/InMemoryTaskManager.java:179-191 | An unknown id changes nothing. Otherwise the subtask leaves the map, and the invariant is kept. |
| DeleteOps.DeleteSubtaskByIdLists | src/service/InMemoryTaskManager.java:182-183 | The subtask's id leaves its epic's list. The set of epics stays the same. |
| DeleteOps.DeleteSubtaskByIdOthers | src/service/InMemoryTaskManager.java:180-191 | No epic other than the subtask's own changes. |
| DeleteOps.DeleteSubtaskByIdRollUp | src/service/InMemoryTaskManager.java:187 | The epic keeps its id, title and description. It is recalculated from the subtasks it still lists: the second roll-up, the earliest start and latest end, and the sum of their durations. |
| DeleteOps.DeleteSubtaskByIdForgets | src/service/InMemoryTaskManager.java:184-185 | The subtask leaves the history, and its key leaves the set. |
| DeleteOps.Unlist | src/service/InMemoryTaskManager.java:182-186 | Before the recalculation: the id leaves the epic's list, and the subtask leaves the set, the history and the map. |
| DeleteOps.UnlistKeepsInv | src/service/InMemoryTaskManager.java:182-186 | Those steps keep the invariant. |
| DeleteOps.DropTasks | src/service/InMemoryTaskManager.java:196-199 | Each listed task leaves the history and its key leaves the set. The remaining history entries keep their order. The maps stay. |
| DeleteOps.DeleteAllTasks | src/service/InMemoryTaskManager.java:193-204 | The task map is emptied, every task leaves the history and the set, and epics and subtasks stay. The history is the old one without the task ids, in the old order. |
| DeleteOps.DropEpics | src/service/InMemoryTaskManager.java:209-217 | For each walked epic, it and exactly its subtasks leave the history, and those subtasks also leave the map and the set. The remaining history entries keep their order. |
| DeleteOps.DeleteAllEpics | src/service/InMemoryTaskManager.java:206-222 | With epics present, both the epic and subtask maps are emptied, each of those ids leaves the history, and every subtask key leaves the set. The history is the old one without the epic and subtask ids, in the old order. With no epics nothing changes. |
| DeleteOps.DeleteAllEpicsKeepsInv | src/service/InMemoryTaskManager.java:206-222 | Deleting all epics keeps the invariant. |
| DeleteOps.ClearedEpics | src/service/InMemoryTaskManager.java:226-229 | Every epic's list is cleared and it rolls up to NEW with no schedule. Id, title and description are kept. |
| DeleteOps.DeleteAllSubtasks | src/service/InMemoryTaskManager.java:224-236 | The subtask map is emptied and each subtask leaves the history and the set. The history is the old one without the subtask ids, in the old order. Every epic keeps its id, title and description, with an empty list, status NEW and no schedule. |
| DeleteOps.DeleteAllSubtasksKeepsInv | src/service/InMemoryTaskManager.java:224-236 | Deleting all subtasks keeps the invariant. |
| DeleteOps.CreateThenDeleteTask | src/service/InMemoryTaskManager.java:152-161 | Deleting a task just created gives back the old task map, and a history without that id. |
| Csv.IntToString | src/service/FileBackedTaskManager.java:20 | The written id is non-empty and comma-free. It is all digits exactly when the id is not negative. |
| Csv.ParseInt | src/service/FileBackedTaskManager.java:57 | `Integer.parseInt` only yields values in the 32-bit range. |
| Csv.ParseIntToString | src/service/FileBackedTaskManager.java:57 | Parsing a written integer gives it back exactly when it is in the 32-bit range. |
| Csv.DropTrailingEmpty | src/service/FileBackedTaskManager.java:56 | `String.split` drops trailing empty fields, and only those. |
| Csv.FieldsJoin | src/service/FileBackedTaskManager.java:56 | Splitting comma-free fields joined by commas gives the fields back, before trailing empties are dropped. |
| Csv.SplitJoin | src/service/FileBackedTaskManager.java:56 | `split(",")` of joined comma-free fields gives them back without trailing empty fields. |
| Csv.ParseType | src/service/FileBackedTaskManager.java:58 | `TaskType.valueOf` accepts exactly the three type names. |
| Csv.ParseStatus | src/service/FileBackedTaskManager.java:60 | `TaskStatus.valueOf` accepts exactly the three status names. |
| Csv.Split | src/service/FileBackedTaskManager.java:56 | `split(",")` gives comma-free pieces, a prefix of the fields between commas. Only trailing empty pieces are dropped, and a line without a comma is one piece. |
| Csv.FromLine | src/service/FileBackedTaskManager.java:55-72 | A parsed line has at least five pieces, with title and description from pieces 2 and 4. A line with no comma never parses. |
| Csv.Blank | src/service/FileBackedTaskManager.java:81 | `trim().isEmpty()` holds exactly when every character is at most U+0020. |
| Csv.TaskLine | src/service/FileBackedTaskManager.java:19-22 | With a comma-free title and description, the line's fields are id, type, title, status and description. |
| Csv.EpicLine | src/service/FileBackedTaskManager.java:24-27 | With a comma-free title and description, the line's fields are id, `EPIC`, title, status and description. |
| Csv.SubtaskLine | src/service/FileBackedTaskManager.java:29-32 | With a comma-free title and description, the line's fields are the common five followed by the epic id. |
| Csv.FromFields | src/service/FileBackedTaskManager.java:55-72 | A parsed object has at least five fields behind it, with title and description from fields 2 and 4. It has no schedule; an epic has an empty list; a subtask has id 0. |
| Csv.TaskLineRoundTrip | src/service/FileBackedTaskManager.java:19-65 | For a comma-free title and description, a task line parses back exactly when the description is non-empty. It then gives the same id, title, status and description, with no schedule. |
| Csv.EpicLineRoundTrip | src/service/FileBackedTaskManager.java:24-67 | For a comma-free title and description, an epic line parses back exactly when the description is non-empty. It then gives the same fields with an empty list and no schedule. |
| Csv.SubtaskLineRoundTrip | src/service/FileBackedTaskManager.java:29-69 | A subtask line parses back to the same title, status, description and epic id, with id 0 and no schedule. |
| Csv.CommaInTitleBreaksLine | src/service/FileBackedTaskManager.java:19-22 | A comma in a title shifts the fields, and the line no longer parses. |
| Csv.TaskLines | src/service/FileBackedTaskManager.java:40-43 | One line per task, in order. |
| Csv.SubtaskLines | src/service/FileBackedTaskManager.java:46-48 | One line per subtask, in order. |
| Csv.EpicBlocksComplete | src/service/FileBackedTaskManager.java:44-49 | Every walked epic's line, and the line of each subtask found for it, appears in the output. |
| Csv.SaveLines | src/service/FileBackedTaskManager.java:34-49 | The first line is the header. The rest are the task lines followed by each epic's block. |
| Csv.SaveLinesComplete | src/service/FileBackedTaskManager.java:40-49 | Every stored task, epic and subtask has its line in the output. |
| Csv.SaveLinesSound | src/service/FileBackedTaskManager.java:40-49 | Every line after the header is the line of a stored object. |
| Csv.CreateItem | src/service/FileBackedTaskManager.java:87-97 | A parsed object goes to the `create*` of its type. The step fails exactly when that create clashes. |
| Csv.UnscheduledItemCreated | src/service/FileBackedTaskManager.java:87-97 | A parsed object is never scheduled, so its creation never fails. |
| Csv.LoadLines | src/service/FileBackedTaskManager.java:80-98 | The loop fails exactly when some non-blank line does not parse. Otherwise the result keeps the invariant. |
| Csv.Load | src/service/FileBackedTaskManager.java:74-105 | The first line is skipped. The load fails exactly when a later non-blank line does not parse. |
| Csv.LoadSkipsBlankLines | src/service/FileBackedTaskManager.java:81-83 | Blank lines have no effect on the load. |
| Csv.LoadOneLine | src/service/FileBackedTaskManager.java:85-97 | Loading one parsable line is the create of its object. |
| Csv.LoadReassignsTaskId | src/service/FileBackedTaskManager.java:87-90 | A loaded task gets id 1 from the counter, whatever id its line carries. |
| Csv.LoadTwoLines | src/service/FileBackedTaskManager.java:80-97 | Two readable lines after the first create their objects in file order. |
| Csv.LoadEpicThenSubtask | src/service/FileBackedTaskManager.java:91-96 | Loading an epic line then a subtask line is `createEpic` followed by `createSubtask` of the parsed objects. |
| Csv.LoadLinksByNewIds | src/service/FileBackedTaskManager.java:91-96 | The reloaded epic is 1. Its subtask is attached as 2 only when the line's epic id happens to be 1; otherwise no subtask is stored. |
| FileText.Text | src/service/FileBackedTaskManager.java:36-48 | `save` writes every line followed by U+000A, so the text is empty exactly when there are no lines, and otherwise it ends with U+000A. |
| FileText.LineEnd | src/service/FileBackedTaskManager.java:80 | `readLine` reads up to the first U+000A or U+000D, or to the end of the text. |
| FileText.ReadLines | src/service/FileBackedTaskManager.java:77-80 | `readLine` repeated until `null`: no line it gives holds a terminator. |
| FileText.ReadCons | src/service/FileBackedTaskManager.java:80 | A break-free line followed by U+000A is read as that line, and reading carries on after it. |
| FileText.ReadText | src/service/FileBackedTaskManager.java:36-80 | Reading the written text of break-free lines gives the lines back. |
| FileText.ReadTextIff | src/service/FileBackedTaskManager.java:36-80 | Lines come back from their text exactly when none holds a line terminator. |
| FileText.LinesNoBreak | src/service/FileBackedTaskManager.java:19-32 | A line `toString` writes has no terminator when its title and description have none. |
| FileText.SavedTextReadsBack | src/service/FileBackedTaskManager.java:34-80 | When no stored title or description holds a line break, the text `save` writes reads back as exactly the lines it wrote. |
| FileText.SavedTaskFileLoads | src/service/FileBackedTaskManager.java:34-97 | A file holding one saved task loads from its text, with the task under id 1 and no schedule. |
| FileText.TitleBreakLine | src/service/FileBackedTaskManager.java:19-22 | `toString` of a task titled "a", line break, "b" holds that line break. |
| FileText.ThreeFieldsBad | src/service/FileBackedTaskManager.java:55-60 | A non-blank line with three fields does not parse, because `part[3]` is out of range. |
| FileText.TitleBreakBreaksFile | src/service/FileBackedTaskManager.java:19-97 | A task whose title holds a line break is read back as two lines. The first has three fields, so the saved file does not load. |
| Csv.NonBlankLine | src/service/FileBackedTaskManager.java:81 | A written line is never blank. |
| Legacy.GenerateId | src/TaskManager.java:12-14 | The counter is pre-incremented and its new value, one more than the old, is returned. Below `Integer.MAX_VALUE` this is Java's `++id`. |
| Legacy.GenerateIdSequence | src/TaskManager.java:10-14 | The first ids are 1 and 2. Under the invariant a new id is unused. |
| Legacy.LegacyRollUp | src/TaskManager.java:155-161 | An empty list or all DONE gives DONE. All NEW with at least one subtask gives NEW. Otherwise IN_PROGRESS. Each case holds in both directions. |
| Legacy.LegacyRollUpDiffersOnlyWhenEmpty | src/TaskManager.java:155-161 | The legacy roll-up and `updateEpicStatus` differ exactly on an empty list: DONE against NEW. |
| Legacy.UpdateStatusLoop | src/TaskManager.java:145-154 | The counting loop fails on a missing subtask. Otherwise it gives the legacy roll-up. |
| Legacy.UpdateStatus | src/TaskManager.java:144-162 | It succeeds exactly when the epic exists and all its listed subtasks are stored. It then sets only that epic's status. On failure nothing changes. |
| Legacy.UpdateStatusKeepsInv | src/TaskManager.java:144-162 | Under the invariant the update succeeds and keeps it. |
| Legacy.CreateTask | src/TaskManager.java:16-19 | The task gets the next id and is stored. The invariant is kept. |
| Legacy.CreateEpic | src/TaskManager.java:21-24 | The epic gets the next id and is stored. |
| Legacy.CreateSubtask | src/TaskManager.java:26-31 | The counter always advances. An unknown epic throws. Otherwise the id is appended, the subtask is stored, and the epic gets the legacy roll-up. The epic's other fields are kept, and every other epic is unchanged. |
| Legacy.CreateSubtaskKeepsInv | src/TaskManager.java:26-31 | It succeeds exactly when the epic exists, and it keeps the invariant. |
| Legacy.GetById | src/TaskManager.java:45-64 | A lookup returns the stored object or null, and touches nothing. |
| Legacy.GetSubtasksByEpicId | src/TaskManager.java:66-73 | An unknown epic throws. Otherwise the result has one entry per listed id, null where the subtask is missing. |
| Legacy.GetSubtasksByEpicIdComplete | src/TaskManager.java:66-73 | Under the invariant no entry is null, and the entries are the listed subtasks in order. |
| Legacy.UpdateTask | src/TaskManager.java:129-131 | An unconditional put. |
| Legacy.UpdateEpic | src/TaskManager.java:133-137 | An unknown id throws. Otherwise the new epic replaces the stored one but takes over the stored list and status. |
| Legacy.UpdateSubtask | src/TaskManager.java:139-142 | A put, then the legacy roll-up of the named epic. It fails when that epic or one of its subtasks is missing, and then the epics are unchanged. Only the named epic's status can change. |
| Legacy.DeleteTaskById | src/TaskManager.java:75-81 | The task leaves the map, and nothing else changes. |
| Legacy.DeleteEpicById | src/TaskManager.java:83-93 | An unknown id changes nothing. Otherwise the epic and the subtasks it lists go. |
| Legacy.DeleteEpicByIdKeepsInv | src/TaskManager.java:83-93 | The subtasks left are exactly those of other epics, and the invariant is kept. |
| Legacy.DeleteSubtaskByIdAsWritten | src/TaskManager.java:95-100 | As written, `remove(id)` removes the list element at index `id`. An id outside the list throws before any change. |
| Legacy.DeleteSubtaskById | src/TaskManager.java:95-100 | Corrected: the element equal to the id leaves the list. Then the subtask leaves the map and the epic is rolled up again. |
| Legacy.DeleteSubtaskByIdKeepsInv | src/TaskManager.java:95-100 | The corrected delete succeeds exactly for a stored subtask. It keeps the invariant and leaves the list without the id. |
| Legacy.AsWrittenThrowsOnShortList | src/TaskManager.java:97 | Deleting subtask 2 of an epic that lists [2, 3] throws as written, but succeeds when corrected. |
| Legacy.AsWrittenUnlistsWrongSubtask | src/TaskManager.java:97-99 | Deleting subtask 2 of an epic that lists [2, 3, 4] as written unlists 4, removes 2 from the map, throws, and leaves an epic listing a missing subtask. |
| Legacy.IntendedUnlistsRightSubtask | src/TaskManager.java:95-100 | Corrected, the same delete leaves the list [3, 4]. |
| Legacy.DeleteAllTasks | src/TaskManager.java:102-108 | The task map is emptied. |
| Legacy.DeleteAllEpics | src/TaskManager.java:110-117 | With epics present, both the epic and subtask maps are emptied. The invariant is kept. |
| Legacy.DeleteAllSubtasks | src/TaskManager.java:119-127 | Subtasks are cleared. Every epic has an empty list and, by the legacy rule, status DONE. |
| Legacy.DeleteAllSubtasksKeepsInv | src/TaskManager.java:119-127 | Deleting all subtasks keeps the invariant. |
| Legacy.AddTask | src/InMemoryHistoryManager.java:11-16 | When full, the oldest entry is dropped first. The item is appended at the end. The length never passes 10. |
| Legacy.AddAllKeepsLastTen | src/InMemoryHistoryManager.java:6-16 | Adding a sequence to an empty history keeps its last ten items in order. |
| Legacy.AddAllSuffix | src/InMemoryHistoryManager.java:11-16 | From any history of at most ten, adding a sequence leaves the last ten of the whole. |
| Legacy.RepeatsAreKept | src/InMemoryHistoryManager.java:11-16 | There is no deduplication: adding the same item twice leaves it as the last two entries. |

## Left out

- The HTTP layer, `src/Main.java` and console messages are not part of this model. A "not found" message is a no-op.
- File I/O (`FileReader`/`FileWriter`, `IOException`) is left out. The file's content is `FileText.Text` of the lines `Csv.SaveLines` produces, and `loadFromFile` is `Csv.Load` over `FileText.ReadLines` of the text. The `save` call after each change in the file-backed manager is not repeated per operation.
- FileText.Text: `newLine()` writes the platform line separator. It is taken as U+000A, which the epic and subtask lines use anyway.
- Csv.Load: reads every line of the original text. In `loadFromFile`, each `createTask`, `createEpic` and `createSubtask` (src/service/FileBackedTaskManager.java:89-95) is the overriding one that calls `save()` (:108-123). That `save()` truncates and rewrites the file the `BufferedReader` opened at :77 is still reading. Text the reader had not yet buffered when the first object was created then comes from the rewritten file. This is anything past its first buffer fill, and anything the last save wrote past the old end. The model does not follow this. It matches the source for a file that one fill reads whole.
- Csv.LoadReassignsTaskId: a task line loads back under id 1 for any title and description without a comma. A title or description with a line break survives as a line but not as a file; FileText.TitleBreakBreaksFile shows the split, and FileText.SavedTaskFileLoads states the file-level round trip for one-line text.
- Legacy.GenerateId: the counter is an unbounded integer. After 2^31 - 1 ids, Java's `++id` wraps from `Integer.MAX_VALUE` to `Integer.MIN_VALUE` and hands out negative ids, and the model does not. Below that point the two agree (`Model.JavaIncrement`). The legacy invariant's positive ids hold only there.
- CreateOps.CreateTaskIdsIncrease: holds for the unbounded counter. In Java the increase holds only while fewer than 2^31 - 1 ids have been handed out; then `++id` wraps to `Integer.MIN_VALUE`. CreateOps.CreateIdIsJavaIncrement states the agreement below that bound. The invariant's positive stored ids (`ManagerState.KeysOk`) likewise assume that the counter never wraps.
- Date-time formatting, `toString` for display, and `hashCode` are left out. Equality is modelled directly.
- `LinkedListCustom.taskNodeMap` is static in the source, so it is shared by all lists. The model gives each list its own index. Interference between two lists is not modelled.
- Java aliasing is not modelled. Tests that mutate stored objects, and `TreeSet` removal by the key of a mutated object, have no counterpart. Objects are values.
- `HashMap` iteration order is taken as ascending id. `getTasks`/`getEpics`/`getSubtasks` list each stored object exactly once; only their order is abstracted.
- `addTask`, `addEpic`, `addSubtask` and `updateIdAfterLoad` (src/service/InMemoryTaskManager.java:68-92) are left out, because the loader never calls them.
- The manager operations require the manager's invariant. It rules out states where the source would throw `NullPointerException`. Public operations reach none of them except through `createEpic` given an epic that already lists subtasks (see CreateOps.CreateEpic below).
- CreateOps.CreateTask: takes a plain `Task`. Passing an `Epic` or `Subtask` object to `createTask` is not modelled.
- CreateOps.CreateEpic: states the invariant only for an epic with an empty subtask list. The callers within the core pass one: the loader builds its epics with the four-argument constructor (src/service/FileBackedTaskManager.java:66, 92), and `main` with the two-argument one (src/service/FileBackedTaskManager.java:203, 213). The public eight-argument constructor (src/model/Epic.java:22-27) and the HTTP handler's JSON body (src/http/Handlers/EpicsHandler.java:28-31, 83) can hand `createEpic` an epic that already lists ids. The stored epic then names subtasks that are not stored, the invariant no longer holds, and the model says nothing about the operations that follow.
- The legacy `getTasks`/`getEpics`/`getSubtasks` (src/TaskManager.java:33-43) are left out. They copy map values, as the newer manager's listings do.
- The legacy `getHistory` (src/InMemoryHistoryManager.java:19-21) is left out. It returns a copy, which under value semantics is the history itself.
- The legacy `src/Task.java` and `src/Subtask.java` are not part of this model. The legacy manager reuses the newer entity types. The legacy `src/Epic.java` hands out its own list from `getSubtaskIds`, so a change to that list is a change to the stored epic.
- Durations are whole minutes, so `Duration.toMinutes` truncation of seconds has no counterpart.
- ManagerState.TaskList: states every stored task exactly once and nothing else, but in ascending id order rather than the `HashMap`'s unspecified order. The same holds for ManagerState.EpicList and ManagerState.SubtaskList.
- Csv.ParseInt: accepts ASCII digits only. `Integer.parseInt` also accepts the other Unicode decimal digits (`Character.digit`, such as U+0661 or the fullwidth digits). Csv.LoadLines and Csv.Load fail exactly when a line is bad for this ASCII-only parser, so a line with such digits fails here but loads in Java.

## Findings

| source | as written | input that shows it | evidently intended | confidence | as-written member | corrected member |
|---|---|---|---|---|---|---|
| src/TaskManager.java:97 | `getSubtaskIds().remove(id)` with an `int` argument calls `List.remove(int index)` and removes the element at position `id` | an epic listing [2, 3, 4] and `deleteSubtaskById(2)`: element 4 is unlisted, subtask 2 leaves the map, and `updateStatus` then meets the missing subtask 2 and throws | remove the element equal to `id`, as `Epic.deleteSubtaskId` does with `Integer.valueOf` in the newer model | high, not executed | Legacy.DeleteSubtaskByIdAsWritten (with Legacy.AsWrittenThrowsOnShortList, Legacy.AsWrittenUnlistsWrongSubtask) | Legacy.DeleteSubtaskById (with Legacy.DeleteSubtaskByIdKeepsInv, Legacy.IntendedUnlistsRightSubtask) |

=== FILE: create.dfy ===
/** `createTask`, `createEpic` and `createSubtask`: ids come from the
    counter, and scheduled objects are checked against the prioritized set
    before they are stored. */
module CreateOps {
  import opened Optional
  import opened Seqs
  import opened Model
  import opened Priority
  import opened History
  import opened RollUp
  import opened ManagerState

  /** A counter value one past `lastId` is used by nothing stored. */
  lemma FreshId(m: Manager)
    requires Inv(m)
    ensures m.lastId + 1 !in m.tasks && m.lastId + 1 !in m.epics && m.lastId + 1 !in m.subtasks
    ensures forall i :: 0 <= i < |m.prioritized| ==> m.prioritized[i].Id() != m.lastId + 1
  {
  }

  /** Adding an element whose id the set has never seen grows the set by it. */
  lemma InsertFresh(m: Manager, x: Item)
    requires Inv(m) && Schedulable(x) && x.Id() == m.lastId + 1
    ensures PriorityOk(Insert(m.prioritized, x), x.Id())
    ensures forall y :: y in Insert(m.prioritized, x) <==> y in m.prioritized || y == x
  {
    assert !HasKey(m.prioritized, x);
    var r := Insert(m.prioritized, x);
    forall i | 0 <= i < |r| ensures Schedulable(r[i]) && 0 < r[i].Id() <= x.Id() {
      assert r[i] in r;
      if r[i] != x {
        assert r[i] in m.prioritized;
        var j :| 0 <= j < |m.prioritized| && m.prioritized[j] == r[i];
      }
    }
  }

  /** `createTask`: the overlap check runs with the task's incoming id; only
      then is the next id assigned, the task stored and added to the
      prioritized set (scheduled or not). */
  function CreateTask(m: Manager, t: Task): (r: Outcome)
    requires Inv(m)
    ensures Inv(r.state)
    ensures r.Clash? <==> FirstClash(m.prioritized, PlainItem(t)).Some?
    ensures r.Clash? ==> r.state == m && r.other in m.prioritized && Clashes(PlainItem(t), r.other)
    ensures r.Done? ==>
      var id := m.lastId + 1;
      var stored := t.(id := id);
      && id !in m.tasks && id !in m.epics && id !in m.subtasks
      && r.state.lastId == id
      && r.state.tasks == m.tasks[id := stored]
      && r.state.epics == m.epics && r.state.subtasks == m.subtasks && r.state.history == m.history
      && forall y :: y in r.state.prioritized <==> y in m.prioritized || y == PlainItem(stored)
  {
    match FirstClash(m.prioritized, PlainItem(t))
    case Some(other) =>
      assert other in m.prioritized;
      Clash(m, other)
    case None =>
      var id := m.lastId + 1;
      var stored := t.(id := id);
      FreshId(m);
      InsertFresh(m, PlainItem(stored));
      Done(m.(lastId := id, tasks := m.tasks[id := stored], prioritized := Insert(m.prioritized, PlainItem(stored))))
  }

  /** `createEpic`: the next id is assigned and the epic stored as given, its
      status and schedule untouched. The manager stays consistent when the
      epic arrives with an empty subtask list, as the loader's and `main`'s
      do; an epic that arrives listing subtasks (the public eight-argument
      constructor, or a JSON body) leaves the invariant. */
  function CreateEpic(m: Manager, e: Epic): (r: Manager)
    requires Inv(m)
    ensures |e.subtaskIds| == 0 ==> Inv(r)
    ensures var id := m.lastId + 1;
      && id !in m.tasks && id !in m.epics && id !in m.subtasks
      && r.lastId == id
      && r.epics == m.epics[id := e.(base := e.base.(id := id))]
      && r.tasks == m.tasks && r.subtasks == m.subtasks
      && r.history == m.history && r.prioritized == m.prioritized
  {
    var id := m.lastId + 1;
    FreshId(m);
    var r := m.(lastId := id, epics := m.epics[id := e.(base := e.base.(id := id))]);
    assert |e.subtaskIds| == 0 ==> Linked(r.epics, r.subtasks) by {
      if |e.subtaskIds| == 0 {
        forall k | k in r.subtasks
          ensures r.subtasks[k].epicId in r.epics && k in r.epics[r.subtasks[k].epicId].subtaskIds
        {
          assert r.subtasks[k].epicId in m.epics;
        }
      }
    }
    r
  }

  /** The epic with one more subtask id listed, the subtask stored and in the
      prioritized set: the middle of `createSubtask`. */
  function Attach(m: Manager, s: Subtask): (r: Manager)
    requires Inv(m) && s.epicId in m.epics && s.base.id == m.lastId + 1
    requires FirstClash(m.prioritized, SubtaskItem(s)).None?
    ensures Inv(r)
    ensures r.lastId == s.base.id
    ensures r.subtasks == m.subtasks[s.base.id := s]
    ensures r.epics.Keys == m.epics.Keys
    ensures r.epics[s.epicId].subtaskIds == m.epics[s.epicId].subtaskIds + [s.base.id]
    ensures r.epics[s.epicId].base == m.epics[s.epicId].base && r.epics[s.epicId].endTime == m.epics[s.epicId].endTime
    ensures forall k :: k in m.epics && k != s.epicId ==> r.epics[k] == m.epics[k]
    ensures r.tasks == m.tasks && r.history == m.history
    ensures forall y :: y in r.prioritized <==> y in m.prioritized || y == SubtaskItem(s)
  {
    var id := s.base.id;
    FreshId(m);
    InsertFresh(m, SubtaskItem(s));
    var epics := m.epics[s.epicId := AddSubtaskId(m.epics[s.epicId], id)];
    var subtasks := m.subtasks[id := s];
    AttachLinked(m.epics, m.subtasks, s);
    m.(lastId := id, epics := epics, subtasks := subtasks, prioritized := Insert(m.prioritized, SubtaskItem(s)))
  }

  lemma AttachLinked(epics: map<int, Epic>, subtasks: map<int, Subtask>, s: Subtask)
    requires Linked(epics, subtasks)
    requires s.epicId in epics && s.base.id !in subtasks
    requires forall k :: k in epics ==> s.base.id !in epics[k].subtaskIds
    ensures Linked(epics[s.epicId := AddSubtaskId(epics[s.epicId], s.base.id)], subtasks[s.base.id := s])
  {
    var id := s.base.id;
    var epics' := epics[s.epicId := AddSubtaskId(epics[s.epicId], id)];
    var subtasks' := subtasks[id := s];
    forall k | k in epics' ensures NoDup(epics'[k].subtaskIds) {
      if k == s.epicId {
        var ids := epics[k].subtaskIds;
        assert epics'[k].subtaskIds == ids + [id];
        assert forall i :: 0 <= i < |ids| ==> ids[i] != id by {
          assert id !in ids;
        }
      }
    }
    forall k, i | k in epics' && 0 <= i < |epics'[k].subtaskIds|
      ensures epics'[k].subtaskIds[i] in subtasks' && subtasks'[epics'[k].subtaskIds[i]].epicId == k
    {
      var ids := epics[k].subtaskIds;
      if k == s.epicId && i == |ids| {
        assert epics'[k].subtaskIds[i] == id;
      } else {
        assert epics'[k].subtaskIds[i] == ids[i];
        assert ids[i] in subtasks && ids[i] != id;
      }
    }
    forall k | k in subtasks'
      ensures subtasks'[k].epicId in epics' && k in epics'[subtasks'[k].epicId].subtaskIds
    {
      if k == id {
        assert epics'[s.epicId].subtaskIds[|epics[s.epicId].subtaskIds|] == id;
      } else {
        var p := subtasks[k].epicId;
        assert k in epics[p].subtaskIds;
        if p == s.epicId {
          assert epics'[p].subtaskIds == epics[p].subtaskIds + [id];
        }
      }
    }
  }

  /** `createSubtask`. An unknown epic changes nothing. Otherwise the next id
      is taken BEFORE the overlap check, so a clash leaves the counter
      advanced and nothing else changed; without one the subtask is stored,
      listed by its epic, added to the prioritized set, and the epic's status
      is rolled up. */
  function CreateSubtask(m: Manager, s: Subtask): (r: Outcome)
    requires Inv(m)
    ensures Inv(r.state)
    ensures s.epicId !in m.epics ==> r == Done(m)
    ensures s.epicId in m.epics ==>
      var id := m.lastId + 1;
      var stored := s.(base := s.base.(id := id));
      && (r.Clash? <==> FirstClash(m.prioritized, SubtaskItem(stored)).Some?)
      && (r.Clash? ==> r.state == m.(lastId := id) && r.other in m.prioritized
                       && Clashes(SubtaskItem(stored), r.other))
      && (r.Done? ==>
            && r.state.lastId == id
            && r.state.subtasks == m.subtasks[id := stored]
            && r.state.epics.Keys == m.epics.Keys
            && r.state.epics[s.epicId].subtaskIds == m.epics[s.epicId].subtaskIds + [id]
            && r.state.epics[s.epicId].base.status == MixedRollUp(SubtasksByEpic(r.state, s.epicId))
            && r.state.epics[s.epicId].base == m.epics[s.epicId].base.(status := r.state.epics[s.epicId].base.status)
            && r.state.epics[s.epicId].endTime == m.epics[s.epicId].endTime
            && (forall k :: k in m.epics && k != s.epicId ==> r.state.epics[k] == m.epics[k])
            && r.state.tasks == m.tasks && r.state.history == m.history
            && forall y :: y in r.state.prioritized <==> y in m.prioritized || y == SubtaskItem(stored))
  {
    if s.epicId !in m.epics then Done(m)
    else
      var id := m.lastId + 1;
      var stored := s.(base := s.base.(id := id));
      match FirstClash(m.prioritized, SubtaskItem(stored))
      case Some(other) =>
        assert other in m.prioritized;
        var r := m.(lastId := id);
        assert Inv(r) by {
          FreshId(m);
        }
        Clash(r, other)
      case None =>
        var m2 := Attach(m, stored);
        var r := RefreshEpic(m2, s.epicId);
        Done(r)
  }

  /** Two creations in a row hand out consecutive, different ids. */
  lemma CreateTaskIdsIncrease(m: Manager, a: Task, b: Task)
    requires Inv(m)
    requires CreateTask(m, a).Done?
    requires CreateTask(CreateTask(m, a).state, b).Done?
    ensures var m1 := CreateTask(m, a).state;
            var m2 := CreateTask(m1, b).state;
            m1.lastId == m.lastId + 1 && m2.lastId == m.lastId + 2
            && m2.tasks[m.lastId + 1] == a.(id := m.lastId + 1)
            && m2.tasks[m.lastId + 2] == b.(id := m.lastId + 2)
  {
  }

  /** The counter is an unbounded integer. Every create that takes an id
      agrees with Java's `++id` on an `int` as long as the old value is below
      `Integer.MAX_VALUE`. */
  lemma CreateIdIsJavaIncrement(m: Manager, t: Task, e: Epic, s: Subtask)
    requires Inv(m) && m.lastId < IntMax
    ensures CreateTask(m, t).Done? ==> CreateTask(m, t).state.lastId == JavaIncrement(m.lastId)
    ensures CreateEpic(m, e).lastId == JavaIncrement(m.lastId)
    ensures s.epicId in m.epics ==> CreateSubtask(m, s).state.lastId == JavaIncrement(m.lastId)
  {
  }

  /** An unscheduled task is never refused. */
  lemma UnscheduledTaskAlwaysCreated(m: Manager, t: Task)
    requires Inv(m) && t.start.None?
    ensures CreateTask(m, t).Done?
  {
    UnscheduledNeverClashes(m.prioritized, PlainItem(t));
  }

  /** An unscheduled subtask is never refused either. */
  lemma UnscheduledSubtaskAlwaysCreated(m: Manager, s: Subtask)
    requires Inv(m) && s.base.start.None?
    ensures CreateSubtask(m, s).Done?
  {
    UnscheduledNeverClashes(m.prioritized, SubtaskItem(s.(base := s.base.(id := m.lastId + 1))));
  }
}

=== FILE: csv.dfy ===
/** The line format of the file-backed manager: one comma-separated line
    per object, written by `toString`, read back by `fromString`, and the
    line sequences `save` produces and `loadFromFile` consumes. */
module Csv {
  import opened Optional
  import opened Model
  import opened ManagerState
  import CreateOps

  /** The first line `save` writes. */
  const Header: string := "id,type,name,status,description,epic_id"

  // ---------------------------------------------------------------------
  // Integers: `Integer.toString` and `Integer.parseInt`.

  predicate IsDigit(c: char) { '0' <= c <= '9' }

  predicate AllDigits(s: string)
  {
    forall i :: 0 <= i < |s| ==> IsDigit(s[i])
  }

  function DigitChar(d: int): (c: char)
    requires 0 <= d <= 9
    ensures IsDigit(c) && c as int - '0' as int == d
  {
    ('0' as int + d) as char
  }

  /** The decimal digits of `n`, without leading zeros. */
  function NatToString(n: nat): (r: string)
    ensures |r| > 0 && AllDigits(r)
  {
    if n < 10 then [DigitChar(n)] else NatToString(n / 10) + [DigitChar(n % 10)]
  }

  /** The value of a digit string, read most significant digit first. */
  function DigitsValue(s: string): nat
    requires AllDigits(s)
  {
    if |s| == 0 then 0 else DigitsValue(s[..|s| - 1]) * 10 + (s[|s| - 1] as int - '0' as int)
  }

  lemma {:induction false} NatToStringValue(n: nat)
    ensures DigitsValue(NatToString(n)) == n
  {
    if n >= 10 {
      NatToStringValue(n / 10);
      var s := NatToString(n);
      assert s[..|s| - 1] == NatToString(n / 10);
    }
  }

  /** `Integer.toString`: a minus sign for negative values, then the digits. */
  function IntToString(i: int): (r: string)
    ensures |r| > 0 && ',' !in r
    ensures i >= 0 <==> AllDigits(r)
  {
    if i < 0 then
      var r := "-" + NatToString(-i);
      assert !IsDigit(r[0]);
      r
    else NatToString(i)
  }

  function InRange(v: int): (r: Option<int>)
    ensures r.Some? <==> InInt(v)
    ensures r.Some? ==> r.value == v
  {
    if InInt(v) then Some(v) else None
  }

  /** `Integer.parseInt` restricted to ASCII digits: an optional `-` or `+`,
      then at least one digit `0`-`9`, the whole value within the 32-bit
      range; anything else is `None`, for `NumberFormatException`. The
      other Unicode decimal digits that `Character.digit` also accepts (such
      as U+0661 or the fullwidth digits) are rejected here. */
  function ParseInt(s: string): (r: Option<int>)
    ensures r.Some? ==> InInt(r.value)
  {
    if |s| > 0 && (s[0] == '-' || s[0] == '+') then
      var digits := s[1..];
      if |digits| > 0 && AllDigits(digits) then
        var v: int := DigitsValue(digits);
        InRange(if s[0] == '-' then -v else v)
      else None
    else if |s| > 0 && AllDigits(s) then InRange(DigitsValue(s))
    else None
  }

  /** Reading back a rendered int gives it again exactly when it fits in
      32 bits. */
  lemma ParseIntToString(i: int)
    ensures ParseInt(IntToString(i)).Some? <==> InInt(i)
    ensures InInt(i) ==> ParseInt(IntToString(i)) == Some(i)
  {
    var s := IntToString(i);
    if i < 0 {
      NatToStringValue(-i);
      assert s[1..] == NatToString(-i);
      assert !IsDigit(s[0]);
    } else {
      NatToStringValue(i);
    }
  }

  // ---------------------------------------------------------------------
  // `String.split(",")`.

  /** Every comma-separated field of `s`, empty ones included. */
  function Fields(s: string): (r: seq<string>)
    ensures |r| > 0
    ensures forall i :: 0 <= i < |r| ==> ',' !in r[i]
  {
    if |s| == 0 then [""]
    else
      var rest := Fields(s[1..]);
      if s[0] == ',' then [""] + rest
      else [[s[0]] + rest[0]] + rest[1..]
  }

  /** The fields joined back with commas. */
  function Join(f: seq<string>): string
    requires |f| > 0
  {
    if |f| == 1 then f[0] else f[0] + "," + Join(f[1..])
  }

  function DropTrailingEmpty(p: seq<string>): (r: seq<string>)
    ensures |r| <= |p| && r == p[..|r|]
    ensures |r| > 0 ==> r[|r| - 1] != ""
    ensures forall i :: |r| <= i < |p| ==> p[i] == ""
  {
    if |p| > 0 && p[|p| - 1] == "" then DropTrailingEmpty(p[..|p| - 1]) else p
  }

  /** `String.split(",")`: without a comma the string itself; otherwise its
      fields with the trailing empty ones removed. */
  function Split(s: string): (r: seq<string>)
    ensures forall i :: 0 <= i < |r| ==> ',' !in r[i]
    ensures r <= Fields(s)
    ensures ',' !in s ==> r == [s]
    ensures ',' in s ==> (|r| == 0 || r[|r| - 1] != "")
                         && forall i :: |r| <= i < |Fields(s)| ==> Fields(s)[i] == ""
  {
    if ',' !in s then FieldsNoComma(s); [s] else DropTrailingEmpty(Fields(s))
  }

  /** A comma-free prefix is the first field. */
  lemma {:induction false} FieldsCons(a: string, b: string)
    requires ',' !in a
    ensures Fields(a + "," + b) == [a] + Fields(b)
  {
    if |a| > 0 {
      FieldsCons(a[1..], b);
      assert (a + "," + b)[1..] == a[1..] + "," + b;
      assert [a[0]] + a[1..] == a;
    } else {
      assert a + "," + b == "," + b;
      assert ("," + b)[1..] == b;
    }
  }

  lemma {:induction false} FieldsNoComma(a: string)
    requires ',' !in a
    ensures Fields(a) == [a]
  {
    if |a| > 0 {
      FieldsNoComma(a[1..]);
      assert [a[0]] + a[1..] == a;
    }
  }

  /** Splitting undoes joining comma-free fields. */
  lemma {:induction false} FieldsJoin(f: seq<string>)
    requires |f| > 0 && forall i :: 0 <= i < |f| ==> ',' !in f[i]
    ensures Fields(Join(f)) == f
  {
    if |f| == 1 {
      FieldsNoComma(f[0]);
    } else {
      FieldsJoin(f[1..]);
      FieldsCons(f[0], Join(f[1..]));
      assert f == [f[0]] + f[1..];
    }
  }

  lemma {:induction false} JoinHasComma(f: seq<string>)
    requires |f| > 1
    ensures ',' in Join(f)
  {
    assert Join(f) == f[0] + "," + Join(f[1..]);
    assert Join(f)[|f[0]|] == ',';
  }

  /** `split` of a joined line gives back its fields up to the last
      non-empty one. */
  lemma SplitJoin(f: seq<string>)
    requires |f| > 1 && CommaFree(f)
    ensures Split(Join(f)) == DropTrailingEmpty(f)
  {
    JoinHasComma(f);
    FieldsJoin(f);
  }

  // ---------------------------------------------------------------------
  // `toString(Task)`, `toString(Epic)`, `toString(Subtask)` and `fromString`.

  function TypeName(t: TaskType): string
  {
    match t
    case TASK => "TASK"
    case EPIC => "EPIC"
    case SUBTASK => "SUBTASK"
  }

  function StatusName(s: Status): string
  {
    match s
    case NEW => "NEW"
    case IN_PROGRESS => "IN_PROGRESS"
    case DONE => "DONE"
  }

  /** `TaskType.valueOf`: the constant of exactly this name, if any. */
  function ParseType(s: string): (r: Option<TaskType>)
    ensures forall t :: r == Some(t) <==> s == TypeName(t)
  {
    if s == "TASK" then Some(TASK)
    else if s == "EPIC" then Some(EPIC)
    else if s == "SUBTASK" then Some(SUBTASK)
    else None
  }

  /** `TaskStatus.valueOf`. */
  function ParseStatus(s: string): (r: Option<Status>)
    ensures forall t :: r == Some(t) <==> s == StatusName(t)
  {
    if s == "NEW" then Some(NEW)
    else if s == "IN_PROGRESS" then Some(IN_PROGRESS)
    else if s == "DONE" then Some(DONE)
    else None
  }

  /** The five fields every line starts with; start and duration are never
      written. */
  function CommonFields(t: Task, kind: TaskType): seq<string>
  {
    [IntToString(t.id), TypeName(kind), t.title, StatusName(t.status), t.description]
  }

  /** `toString(Task)`: with a comma-free title and description, the
      line's comma-separated fields are exactly the id, `TASK`, the title,
      the status and the description. */
  function TaskLine(t: Task): (r: string)
    ensures ',' !in t.title && ',' !in t.description ==> Fields(r) == CommonFields(t, TASK)
  {
    if ',' !in t.title && ',' !in t.description then
      CommonFieldsCommaFree(t, TASK);
      FieldsJoin(CommonFields(t, TASK));
      Join(CommonFields(t, TASK))
    else Join(CommonFields(t, TASK))
  }

  /** `toString(Epic)`: the same five fields, with `EPIC` as the type; the
      list of subtask ids is not written. */
  function EpicLine(e: Epic): (r: string)
    ensures ',' !in e.base.title && ',' !in e.base.description ==> Fields(r) == CommonFields(e.base, EPIC)
  {
    if ',' !in e.base.title && ',' !in e.base.description then
      CommonFieldsCommaFree(e.base, EPIC);
      FieldsJoin(CommonFields(e.base, EPIC));
      Join(CommonFields(e.base, EPIC))
    else Join(CommonFields(e.base, EPIC))
  }

  /** `toString(Subtask)`: a subtask line carries its epic id as a sixth
      field. */
  function SubtaskLine(s: Subtask): (r: string)
    ensures ',' !in s.base.title && ',' !in s.base.description ==>
              Fields(r) == CommonFields(s.base, SUBTASK) + [IntToString(s.epicId)]
  {
    var f := CommonFields(s.base, SUBTASK) + [IntToString(s.epicId)];
    if ',' !in s.base.title && ',' !in s.base.description then
      CommonFieldsCommaFree(s.base, SUBTASK);
      assert forall i :: 0 <= i < |f| ==> ',' !in f[i] by {
        forall i | 0 <= i < |f| ensures ',' !in f[i] {
          if i < 5 { assert f[i] == CommonFields(s.base, SUBTASK)[i]; }
        }
      }
      FieldsJoin(f);
      Join(f)
    else Join(f)
  }

  /** `fromString` on split fields: a missing field, an unparsable number
      or an unknown name raises an exception, here `None`. Task and epic
      lines go through the `(title, description, id, status)` constructors;
      a subtask line goes through the constructor that drops its id. */
  function FromFields(part: seq<string>): (r: Option<Item>)
    ensures r.Some? ==> r.value.Start().None? && r.value.Base().duration == 0
    ensures r.Some? && r.value.EpicItem? ==> r.value.epic.subtaskIds == [] && r.value.epic.endTime.None?
    ensures r.Some? && r.value.SubtaskItem? ==> r.value.subtask.base.id == 0
    ensures r.Some? ==> |part| >= 5 && r.value.Base().title == part[2] && r.value.Base().description == part[4]
  {
    if |part| < 5 then None
    else
      match (ParseInt(part[0]), ParseType(part[1]), ParseStatus(part[3]))
      case (Some(id), Some(TASK), Some(status)) =>
        Some(PlainItem(NewTaskWithId(part[2], part[4], id, status)))
      case (Some(id), Some(EPIC), Some(status)) =>
        Some(EpicItem(NewEpicWithId(part[2], part[4], id, status)))
      case (Some(id), Some(SUBTASK), Some(status)) =>
        if |part| < 6 then None
        else
          match ParseInt(part[5]) {
            case Some(epicId) => Some(SubtaskItem(NewSubtaskDroppingId(part[2], part[4], id, status, epicId)))
            case None => None
          }
      case _ => None
  }

  function FromLine(line: string): (r: Option<Item>)
    ensures r.Some? ==> r.value.Start().None?
    ensures r.Some? && r.value.EpicItem? ==> r.value.epic.subtaskIds == []
    ensures r.Some? ==> |Split(line)| >= 5 && r.value.Base().title == Split(line)[2]
                        && r.value.Base().description == Split(line)[4]
    ensures ',' !in line ==> r.None?
  {
    FromFields(Split(line))
  }

  lemma NamesCommaFree(kind: TaskType, status: Status)
    ensures ',' !in TypeName(kind) && ',' !in StatusName(status)
  {
    match kind
    case TASK => assert TypeName(kind) == ['T', 'A', 'S', 'K'];
    case EPIC => assert TypeName(kind) == ['E', 'P', 'I', 'C'];
    case SUBTASK => assert TypeName(kind) == ['S', 'U', 'B', 'T', 'A', 'S', 'K'];
    match status
    case NEW => assert StatusName(status) == ['N', 'E', 'W'];
    case IN_PROGRESS => assert StatusName(status) == ['I', 'N', '_', 'P', 'R', 'O', 'G', 'R', 'E', 'S', 'S'];
    case DONE => assert StatusName(status) == ['D', 'O', 'N', 'E'];
  }

  /** What every line's fields need to survive `split`. */
  predicate Writable(t: Task)
  {
    InInt(t.id) && ',' !in t.title && ',' !in t.description
  }

  predicate CommaFree(f: seq<string>)
  {
    forall i :: 0 <= i < |f| ==> ',' !in f[i]
  }

  lemma CommonFieldsCommaFree(t: Task, kind: TaskType)
    requires ',' !in t.title && ',' !in t.description
    ensures CommaFree(CommonFields(t, kind))
  {
    var a, b, d := IntToString(t.id), TypeName(kind), StatusName(t.status);
    NamesCommaFree(kind, t.status);
    var c := [a, b, t.title, d, t.description];
    assert c == CommonFields(t, kind);
    forall i | 0 <= i < 5 ensures ',' !in c[i] {
    }
  }

  lemma CommonFieldsSplit(t: Task, kind: TaskType, extra: seq<string>)
    requires Writable(t) && |extra| <= 1 && CommaFree(extra)
    ensures Split(Join(CommonFields(t, kind) + extra)) == DropTrailingEmpty(CommonFields(t, kind) + extra)
    ensures ParseInt(IntToString(t.id)) == Some(t.id)
  {
    var c := CommonFields(t, kind);
    CommonFieldsCommaFree(t, kind);
    var f := c + extra;
    assert CommaFree(f) by {
      forall i | 0 <= i < |f| ensures ',' !in f[i] {
        if i < |c| { assert f[i] == c[i]; } else { assert f[i] == extra[i - |c|]; }
      }
    }
    SplitJoin(f);
    ParseIntToString(t.id);
  }

  /** A task line reads back exactly when its description is non-empty (an
      empty last field is dropped by `split`), and then gives the task's id,
      title, status and description, without its schedule. */
  lemma TaskLineRoundTrip(t: Task)
    requires Writable(t)
    ensures FromLine(TaskLine(t)).Some? <==> t.description != ""
    ensures t.description != "" ==> FromLine(TaskLine(t)) == Some(PlainItem(t.(start := None, duration := 0)))
  {
    CommonFieldsSplit(t, TASK, []);
    assert CommonFields(t, TASK) + [] == CommonFields(t, TASK);
  }

  /** The same for an epic line; the epic comes back with an empty subtask
      list and no end time. */
  lemma EpicLineRoundTrip(e: Epic)
    requires Writable(e.base)
    ensures FromLine(EpicLine(e)).Some? <==> e.base.description != ""
    ensures e.base.description != "" ==>
      FromLine(EpicLine(e)) == Some(EpicItem(Epic(e.base.(start := None, duration := 0), [], None)))
  {
    CommonFieldsSplit(e.base, EPIC, []);
    assert CommonFields(e.base, EPIC) + [] == CommonFields(e.base, EPIC);
  }

  /** A subtask line always reads back (its epic id is a non-empty last
      field), with title, description, status and epic id, but with id 0. */
  lemma SubtaskLineRoundTrip(s: Subtask)
    requires Writable(s.base) && InInt(s.epicId)
    ensures FromLine(SubtaskLine(s)) == Some(SubtaskItem(Subtask(s.base.(id := 0, start := None, duration := 0), s.epicId)))
  {
    CommonFieldsSplit(s.base, SUBTASK, [IntToString(s.epicId)]);
    ParseIntToString(s.epicId);
  }

  /** The line of a task titled `a,b` has six fields. */
  lemma CommaTitleLine()
    ensures TaskLine(Task(1, "a,b", "d", NEW, None, 0)) == Join(["1", "TASK", "a", "b", "NEW", "d"])
  {
    var t := Task(1, "a,b", "d", NEW, None, 0);
    var f := ["1", "TASK", "a", "b", "NEW", "d"];
    var g := ["1", "TASK", "a,b", "NEW", "d"];
    assert IntToString(1) == "1";
    assert CommonFields(t, TASK) == g;
    assert Join(f[4..]) == "NEW,d" && Join(g[3..]) == "NEW,d";
    assert Join(f[2..]) == "a,b,NEW,d";
    assert Join(g[2..]) == "a,b,NEW,d";
  }

  lemma CommaTitleFields()
    ensures Split(TaskLine(Task(1, "a,b", "d", NEW, None, 0))) == ["1", "TASK", "a", "b", "NEW", "d"]
  {
    var f := ["1", "TASK", "a", "b", "NEW", "d"];
    CommaTitleLine();
    assert CommaFree(f);
    SplitJoin(f);
  }

  /** A comma inside a title shifts every later field, so the line no
      longer reads back. */
  lemma CommaInTitleBreaksLine()
    ensures FromLine(TaskLine(Task(1, "a,b", "d", NEW, None, 0))).None?
  {
    CommaTitleFields();
    assert ParseStatus("b") == None;
  }

  // ---------------------------------------------------------------------
  // `save` and `loadFromFile`, on lines; their text is module `FileText`.

  predicate TaskLineOf(m: Manager, line: string)
  {
    exists k :: k in m.tasks && line == TaskLine(m.tasks[k])
  }

  predicate EpicLineOf(m: Manager, line: string)
  {
    exists k :: k in m.epics && line == EpicLine(m.epics[k])
  }

  predicate SubtaskLineOf(m: Manager, line: string)
  {
    exists k :: k in m.subtasks && line == SubtaskLine(m.subtasks[k])
  }

  /** `line` is the line of some stored object. */
  predicate LineOfStored(m: Manager, line: string)
  {
    TaskLineOf(m, line) || EpicLineOf(m, line) || SubtaskLineOf(m, line)
  }

  predicate AllLinesOfStored(m: Manager, lines: seq<string>)
  {
    forall i :: 0 <= i < |lines| ==> LineOfStored(m, lines[i])
  }

  lemma AllLinesOfStoredConcat(m: Manager, a: seq<string>, b: seq<string>)
    requires AllLinesOfStored(m, a) && AllLinesOfStored(m, b)
    ensures AllLinesOfStored(m, a + b)
  {
    forall i | 0 <= i < |a + b| ensures LineOfStored(m, (a + b)[i]) {
      if i < |a| {
        assert (a + b)[i] == a[i];
      } else {
        assert (a + b)[i] == b[i - |a|];
      }
    }
  }

  function TaskLines(ts: seq<Task>): (r: seq<string>)
    ensures |r| == |ts|
    ensures forall i :: 0 <= i < |ts| ==> r[i] == TaskLine(ts[i])
  {
    if |ts| == 0 then [] else [TaskLine(ts[0])] + TaskLines(ts[1..])
  }

  function SubtaskLines(ss: seq<Subtask>): (r: seq<string>)
    ensures |r| == |ss|
    ensures forall i :: 0 <= i < |ss| ==> r[i] == SubtaskLine(ss[i])
  {
    if |ss| == 0 then [] else [SubtaskLine(ss[0])] + SubtaskLines(ss[1..])
  }

  /** An epic's line, then the lines of the subtasks `getSubtasksByEpicId`
      gives for it, in the epic's list order. */
  function EpicBlock(m: Manager, e: Epic): seq<string>
  {
    [EpicLine(e)] + SubtaskLines(SubtasksByEpic(m, e.base.id))
  }

  function EpicBlocks(m: Manager, es: seq<Epic>): seq<string>
  {
    if |es| == 0 then [] else EpicBlock(m, es[0]) + EpicBlocks(m, es[1..])
  }

  /** Every line of one epic's block is the line of a stored epic or subtask. */
  lemma EpicBlockSound(m: Manager, e: Epic)
    requires e.base.id in m.epics && m.epics[e.base.id] == e
    ensures AllLinesOfStored(m, EpicBlock(m, e))
  {
    var b := EpicBlock(m, e);
    var k := e.base.id;
    assert EpicLineOf(m, b[0]) by {
      assert k in m.epics && b[0] == EpicLine(m.epics[k]);
    }
    var ss := SubtasksByEpic(m, k);
    forall j | 1 <= j < |b| ensures SubtaskLineOf(m, b[j]) {
      assert b[j] == SubtaskLine(ss[j - 1]);
      assert StoredIn(m.subtasks, ss[j - 1]);
      var sid :| sid in m.subtasks && m.subtasks[sid] == ss[j - 1];
    }
  }

  /** Every line of the epic blocks is the line of a stored epic or subtask. */
  lemma {:induction false} EpicBlocksSound(m: Manager, es: seq<Epic>)
    requires forall i :: 0 <= i < |es| ==> es[i].base.id in m.epics && m.epics[es[i].base.id] == es[i]
    ensures AllLinesOfStored(m, EpicBlocks(m, es))
  {
    if |es| > 0 {
      EpicBlocksSound(m, es[1..]);
      EpicBlockSound(m, es[0]);
      AllLinesOfStoredConcat(m, EpicBlock(m, es[0]), EpicBlocks(m, es[1..]));
    }
  }

  /** Each epic of the walk has its line, and each of its subtasks theirs. */
  lemma {:induction false} EpicBlocksComplete(m: Manager, es: seq<Epic>)
    ensures forall e :: e in es ==> EpicLine(e) in EpicBlocks(m, es)
    ensures forall e, s :: e in es && s in SubtasksByEpic(m, e.base.id) ==> SubtaskLine(s) in EpicBlocks(m, es)
  {
    if |es| > 0 {
      EpicBlocksComplete(m, es[1..]);
      var b := EpicBlock(m, es[0]);
      assert EpicBlocks(m, es) == b + EpicBlocks(m, es[1..]);
      forall s | s in SubtasksByEpic(m, es[0].base.id) ensures SubtaskLine(s) in b {
        var ss := SubtasksByEpic(m, es[0].base.id);
        var j :| 0 <= j < |ss| && ss[j] == s;
        assert b[j + 1] == SubtaskLine(s);
      }
    }
  }

  /** `save`: the header, then the body. */
  function SaveLines(m: Manager): (r: seq<string>)
    requires Inv(m)
    ensures |r| > 0 && r[0] == Header && r[1..] == SaveBody(m)
  {
    [Header] + SaveBody(m)
  }

  /** Every task, then every epic followed by its subtasks. */
  function SaveBody(m: Manager): seq<string>
    requires Inv(m)
  {
    TaskLines(TaskList(m)) + EpicBlocks(m, EpicList(m))
  }

  /** Every stored object has its line in the saved file. */
  lemma SaveLinesComplete(m: Manager)
    requires Inv(m)
    ensures forall k :: k in m.tasks ==> TaskLine(m.tasks[k]) in SaveLines(m)
    ensures forall k :: k in m.epics ==> EpicLine(m.epics[k]) in SaveLines(m)
    ensures forall k :: k in m.subtasks ==> SubtaskLine(m.subtasks[k]) in SaveLines(m)
  {
    TaskLinesSaved(m, TaskList(m));
    EpicBlocksSaved(m);
    assert SaveLines(m) == [Header] + (TaskLines(TaskList(m)) + EpicBlocks(m, EpicList(m)));
  }

  /** Every saved line after the header is the line of a stored object. */
  lemma SaveLinesSound(m: Manager)
    requires Inv(m)
    ensures AllLinesOfStored(m, SaveBody(m))
  {
    LinesSound(m, TaskList(m), EpicList(m));
  }

  lemma LinesSound(m: Manager, ts: seq<Task>, es: seq<Epic>)
    requires forall i :: 0 <= i < |ts| ==> ts[i].id in m.tasks && m.tasks[ts[i].id] == ts[i]
    requires forall i :: 0 <= i < |es| ==> es[i].base.id in m.epics && m.epics[es[i].base.id] == es[i]
    ensures AllLinesOfStored(m, TaskLines(ts) + EpicBlocks(m, es))
  {
    TaskLinesSound(m, ts);
    EpicBlocksSound(m, es);
    AllLinesOfStoredConcat(m, TaskLines(ts), EpicBlocks(m, es));
  }

  lemma TaskLinesSaved(m: Manager, ts: seq<Task>)
    requires forall k :: k in m.tasks ==> m.tasks[k] in ts
    ensures forall k :: k in m.tasks ==> TaskLine(m.tasks[k]) in TaskLines(ts)
  {
    var tl := TaskLines(ts);
    forall k | k in m.tasks ensures TaskLine(m.tasks[k]) in tl {
      var i :| 0 <= i < |ts| && ts[i] == m.tasks[k];
      assert tl[i] == TaskLine(m.tasks[k]);
    }
  }

  lemma TaskLinesSound(m: Manager, ts: seq<Task>)
    requires forall i :: 0 <= i < |ts| ==> ts[i].id in m.tasks && m.tasks[ts[i].id] == ts[i]
    ensures AllLinesOfStored(m, TaskLines(ts))
  {
    var tl := TaskLines(ts);
    forall i | 0 <= i < |tl| ensures TaskLineOf(m, tl[i]) {
      var k := ts[i].id;
      assert k in m.tasks && tl[i] == TaskLine(m.tasks[k]);
    }
  }

  lemma EpicBlocksSaved(m: Manager)
    requires Inv(m)
    ensures forall k :: k in m.epics ==> EpicLine(m.epics[k]) in EpicBlocks(m, EpicList(m))
    ensures forall k :: k in m.subtasks ==> SubtaskLine(m.subtasks[k]) in EpicBlocks(m, EpicList(m))
  {
    var es := EpicList(m);
    EpicBlocksComplete(m, es);
    forall k | k in m.subtasks ensures SubtaskLine(m.subtasks[k]) in EpicBlocks(m, es) {
      var p := m.subtasks[k].epicId;
      SubtasksByEpicComplete(m, p);
      assert m.epics[p] in es && m.epics[p].base.id == p;
    }
  }

  /** `String.trim` without its trailing part: leading characters up to
      U+0020 removed. */
  function TrimStart(s: string): (r: string)
    ensures |r| <= |s| && r == s[|s| - |r|..]
    ensures |r| == 0 <==> forall i :: 0 <= i < |s| ==> s[i] <= ' '
    ensures |r| > 0 ==> r[0] > ' '
  {
    if |s| > 0 && s[0] <= ' ' then TrimStart(s[1..]) else s
  }

  /** Trailing characters up to U+0020 removed. */
  function TrimEnd(s: string): (r: string)
    ensures |r| <= |s| && r == s[..|r|]
    ensures |s| > 0 && s[0] > ' ' ==> |r| > 0
    ensures |r| > 0 ==> r[|r| - 1] > ' '
  {
    if |s| > 0 && s[|s| - 1] <= ' ' then TrimEnd(s[..|s| - 1]) else s
  }

  /** `String.trim`: every leading and trailing character up to U+0020
      removed. */
  function Trim(s: string): string
  {
    TrimEnd(TrimStart(s))
  }

  /** `line.trim().isEmpty()`: the line holds nothing but characters up to
      U+0020. */
  function Blank(line: string): (r: bool)
    ensures r <==> forall i :: 0 <= i < |line| ==> line[i] <= ' '
  {
    |Trim(line)| == 0
  }

  /** The `create*` call `loadFromFile` makes for a parsed object; a clash
      raises `ManagerSaveException`, here `None`. */
  function CreateItem(m: Manager, item: Item): (r: Option<Manager>)
    requires Inv(m)
    requires item.EpicItem? ==> item.epic.subtaskIds == []
    ensures r.Some? ==> Inv(r.value) && r.value.lastId >= m.lastId
    ensures r.Some? <==> match item
                         case PlainItem(t) => CreateOps.CreateTask(m, t).Done?
                         case EpicItem(_) => true
                         case SubtaskItem(s) => CreateOps.CreateSubtask(m, s).Done?
  {
    match item
    case PlainItem(t) =>
      var o := CreateOps.CreateTask(m, t);
      if o.Clash? then None else Some(o.state)
    case EpicItem(e) => Some(CreateOps.CreateEpic(m, e))
    case SubtaskItem(s) =>
      var o := CreateOps.CreateSubtask(m, s);
      if o.Clash? then None else Some(o.state)
  }

  /** A parsed object has no start, so its creation never clashes. */
  lemma UnscheduledItemCreated(m: Manager, item: Item)
    requires Inv(m) && item.Start().None?
    requires item.EpicItem? ==> item.epic.subtaskIds == []
    ensures CreateItem(m, item).Some?
  {
    match item
    case PlainItem(t) => CreateOps.UnscheduledTaskAlwaysCreated(m, t);
    case EpicItem(_) =>
    case SubtaskItem(s) => CreateOps.UnscheduledSubtaskAlwaysCreated(m, s);
  }

  /** A line `loadFromFile` cannot read. */
  predicate BadLine(line: string)
  {
    !Blank(line) && FromLine(line).None?
  }

  /** The loop of `loadFromFile` over the lines after the first: blank lines
      are skipped, every other line is parsed and created, so ids are handed
      out afresh by the counter. A line that does not parse raises an
      exception (`None`). */
  function LoadLines(m: Manager, lines: seq<string>): (r: Option<Manager>)
    requires Inv(m)
    ensures r.Some? ==> Inv(r.value) && r.value.lastId >= m.lastId
    ensures r.None? <==> exists i :: 0 <= i < |lines| && BadLine(lines[i])
    decreases |lines|
  {
    if |lines| == 0 then Some(m)
    else
      var rest := lines[1..];
      BadLineShift(lines);
      if Blank(lines[0]) then LoadLines(m, rest)
      else
        match FromLine(lines[0])
        case None => None
        case Some(item) =>
          UnscheduledItemCreated(m, item);
          var m1 := CreateItem(m, item).value;
          LoadLines(m1, rest)
  }

  /** A bad line is the first one or a bad line among the rest. */
  lemma BadLineShift(lines: seq<string>)
    requires |lines| > 0
    ensures (exists i :: 0 <= i < |lines| && BadLine(lines[i]))
            <==> BadLine(lines[0]) || exists i :: 0 <= i < |lines[1..]| && BadLine(lines[1..][i])
  {
    var rest := lines[1..];
    if exists i :: 0 <= i < |lines| && BadLine(lines[i]) {
      var i :| 0 <= i < |lines| && BadLine(lines[i]);
      if i > 0 {
        assert rest[i - 1] == lines[i];
      }
    }
    if exists i :: 0 <= i < |rest| && BadLine(rest[i]) {
      var i :| 0 <= i < |rest| && BadLine(rest[i]);
      assert lines[i + 1] == rest[i];
    }
  }

  /** `loadFromFile`: the first line is skipped unread. */
  function Load(lines: seq<string>): (r: Option<Manager>)
    ensures r.Some? ==> Inv(r.value)
    ensures r.None? <==> exists i :: 1 <= i < |lines| && BadLine(lines[i])
  {
    if |lines| == 0 then Some(NewManager())
    else
      assert forall i :: 1 <= i < |lines| ==> lines[i] == lines[1..][i - 1];
      LoadLines(NewManager(), lines[1..])
  }

  function NonBlank(lines: seq<string>): (r: seq<string>)
    ensures forall i :: 0 <= i < |r| ==> !Blank(r[i])
  {
    if |lines| == 0 then []
    else if Blank(lines[0]) then NonBlank(lines[1..])
    else [lines[0]] + NonBlank(lines[1..])
  }

  /** Blank lines may be added or removed anywhere after the first without
      changing what is loaded. */
  lemma {:induction false} LoadSkipsBlankLines(m: Manager, lines: seq<string>)
    requires Inv(m)
    ensures LoadLines(m, lines) == LoadLines(m, NonBlank(lines))
    decreases |lines|
  {
    if |lines| > 0 {
      var rest := lines[1..];
      if Blank(lines[0]) {
        LoadSkipsBlankLines(m, rest);
      } else {
        var nb := NonBlank(lines);
        assert nb[0] == lines[0] && nb[1..] == NonBlank(rest);
        match FromLine(lines[0])
        case None =>
        case Some(item) =>
          UnscheduledItemCreated(m, item);
          var m1 := CreateItem(m, item).value;
          assert Inv(m1);
          LoadSkipsBlankLines(m1, rest);
      }
    }
  }

  /** Loading one readable line after the first: its object is created. */
  lemma LoadOneLine(m: Manager, line: string, item: Item)
    requires Inv(m) && !Blank(line) && FromLine(line) == Some(item)
    ensures LoadLines(m, [line]) == CreateItem(m, item)
  {
    UnscheduledItemCreated(m, item);
    var m1 := CreateItem(m, item).value;
    assert [line][1..] == [];
    assert LoadLines(m1, []) == Some(m1);
  }

  /** A task line loads back under the counter's first value, whatever id
      it carries, and without its schedule. */
  lemma LoadReassignsTaskId(t: Task)
    requires Writable(t) && t.description != ""
    ensures var r := Load([Header, TaskLine(t)]);
            r.Some? && r.value.tasks == map[1 := t.(id := 1, start := None, duration := 0)]
  {
    TaskLineRoundTrip(t);
    var m := NewManager();
    var line := TaskLine(t);
    var loaded := t.(start := None, duration := 0);
    NonBlankLine(t, TASK, []);
    assert CommonFields(t, TASK) + [] == CommonFields(t, TASK);
    LoadOneLine(m, line, PlainItem(loaded));
    assert [Header, line][1..] == [line];
    assert Load([Header, line]) == LoadLines(m, [line]);
    CreateOps.UnscheduledTaskAlwaysCreated(m, loaded);
    assert CreateOps.CreateTask(m, loaded).state.tasks == map[1 := loaded.(id := 1)];
  }

  /** What an epic line and a subtask line are read back as. */
  function LoadedEpic(e: Epic): Epic
  {
    Epic(e.base.(start := None, duration := 0), [], None)
  }

  function LoadedSubtask(s: Subtask): Subtask
  {
    Subtask(s.base.(id := 0, start := None, duration := 0), s.epicId)
  }

  /** Loading an epic line and then a subtask line creates the epic, then
      the subtask. */
  lemma LoadEpicThenSubtask(e: Epic, s: Subtask)
    requires Writable(e.base) && e.base.description != ""
    requires Writable(s.base) && InInt(s.epicId)
    ensures var m1 := CreateOps.CreateEpic(NewManager(), LoadedEpic(e));
            Load([Header, EpicLine(e), SubtaskLine(s)]) == Some(CreateOps.CreateSubtask(m1, LoadedSubtask(s)).state)
  {
    EpicLineRoundTrip(e);
    SubtaskLineRoundTrip(s);
    var el, sl := EpicLine(e), SubtaskLine(s);
    NonBlankLine(e.base, EPIC, []);
    assert CommonFields(e.base, EPIC) + [] == CommonFields(e.base, EPIC);
    NonBlankLine(s.base, SUBTASK, [IntToString(s.epicId)]);
    LoadTwoLines(Header, el, sl, EpicItem(LoadedEpic(e)), SubtaskItem(LoadedSubtask(s)));
    var m1 := CreateOps.CreateEpic(NewManager(), LoadedEpic(e));
    CreateOps.UnscheduledSubtaskAlwaysCreated(m1, LoadedSubtask(s));
  }

  /** Loading two readable lines after the first creates their objects in
      turn. */
  lemma LoadTwoLines(h: string, a: string, b: string, x: Item, y: Item)
    requires !Blank(a) && FromLine(a) == Some(x) && !Blank(b) && FromLine(b) == Some(y)
    ensures CreateItem(NewManager(), x).Some?
    ensures Load([h, a, b]) == CreateItem(CreateItem(NewManager(), x).value, y)
  {
    var m0 := NewManager();
    UnscheduledItemCreated(m0, x);
    var m1 := CreateItem(m0, x).value;
    LoadOneLine(m1, b, y);
    assert [h, a, b][1..] == [a, b];
    assert [a, b][1..] == [b];
    assert LoadLines(m0, [a, b]) == LoadLines(m1, [b]);
  }

  /** A subtask line names its epic by the OLD id; after loading an epic
      line and then a subtask line, the subtask is attached only when that
      old id happens to be the epic's new one, 1, and is silently dropped
      otherwise. */
  lemma LoadLinksByNewIds(e: Epic, s: Subtask)
    requires Writable(e.base) && e.base.description != ""
    requires Writable(s.base) && InInt(s.epicId)
    ensures var r := Load([Header, EpicLine(e), SubtaskLine(s)]);
            r.Some? && 1 in r.value.epics && (2 in r.value.subtasks <==> s.epicId == 1)
            && (s.epicId == 1 ==> r.value.epics[1].subtaskIds == [2])
            && (s.epicId != 1 ==> r.value.subtasks == map[])
  {
    LoadEpicThenSubtask(e, s);
    FirstEpicThenSubtask(LoadedEpic(e), LoadedSubtask(s));
  }

  /** In a fresh manager the first epic gets id 1 and the next unscheduled
      subtask id 2, attached only when it names epic 1. */
  lemma FirstEpicThenSubtask(ep: Epic, sub: Subtask)
    requires ep.subtaskIds == [] && sub.base.start.None?
    ensures var m1 := CreateOps.CreateEpic(NewManager(), ep);
            var r := CreateOps.CreateSubtask(m1, sub);
            r.Done? && 1 in r.state.epics && (2 in r.state.subtasks <==> sub.epicId == 1)
            && (sub.epicId == 1 ==> r.state.epics[1].subtaskIds == [2])
            && (sub.epicId != 1 ==> r.state.subtasks == map[])
  {
    var m1 := CreateOps.CreateEpic(NewManager(), ep);
    assert m1.epics.Keys == {1};
    SubtaskAfterOneEpic(m1, sub);
  }

  /** With only epic 1 stored, an unscheduled subtask gets id 2 and is kept
      only when it names epic 1. */
  lemma SubtaskAfterOneEpic(m1: Manager, sub: Subtask)
    requires Inv(m1) && m1.epics.Keys == {1} && m1.subtasks == map[] && m1.lastId == 1
    requires m1.epics[1].subtaskIds == [] && sub.base.start.None?
    ensures var r := CreateOps.CreateSubtask(m1, sub);
            r.Done? && 1 in r.state.epics && (2 in r.state.subtasks <==> sub.epicId == 1)
            && (sub.epicId == 1 ==> r.state.epics[1].subtaskIds == [2])
            && (sub.epicId != 1 ==> r.state.subtasks == map[])
  {
    CreateOps.UnscheduledSubtaskAlwaysCreated(m1, sub);
    if sub.epicId == 1 {
      var m2 := CreateOps.CreateSubtask(m1, sub).state;
      assert m2.subtasks == map[2 := sub.(base := sub.base.(id := 2))];
    } else {
      assert sub.epicId !in m1.epics;
    }
  }

  /** Every written line holds a comma, so none is blank. */
  lemma NonBlankLine(t: Task, kind: TaskType, extra: seq<string>)
    requires ',' !in t.title && ',' !in t.description
    ensures !Blank(Join(CommonFields(t, kind) + extra))
  {
    var f := CommonFields(t, kind) + extra;
    JoinHasComma(f);
    var line := Join(f);
    var i :| 0 <= i < |line| && line[i] == ',';
  }
}

=== FILE: delete.dfy ===
/** The delete operations. Each removes the object from its map, forgets it
    in the history and drops its key from the prioritized set; deleting an
    epic takes its subtasks with it, deleting a subtask re-derives its
    epic. */
module DeleteOps {
  import opened Optional
  import opened Seqs
  import opened Model
  import opened Priority
  import opened History
  import opened RollUp
  import opened ManagerState
  import CreateOps

  /** `y` carries the key of the stored subtask whose id it has. */
  predicate KeyedSubtask(y: Item, subtasks: map<int, Subtask>)
  {
    y.Id() in subtasks && y.Start() == subtasks[y.Id()].base.start
  }

  /** `TreeSet.remove` of a subtask is the removal of its id's key. */
  lemma SameKeyAsSubtask(y: Item, subtasks: map<int, Subtask>, id: int)
    requires id in subtasks && subtasks[id].base.id == id
    ensures SameKey(y, SubtaskItem(subtasks[id])) <==> y.Id() == id && KeyedSubtask(y, subtasks)
  {
  }

  /** Drops the subtasks `ids` one after another, as the loops of
      `deleteEpicById` and `deleteAllEpics` do: each leaves the prioritized
      set, the history and the subtask map. */
  function DropSubtasks(m: Manager, ids: seq<int>): (r: Manager)
    requires Valid(m.history) && PriorityOk(m.prioritized, m.lastId)
    requires NoDup(ids)
    requires forall k :: k in ids ==> k in m.subtasks
    requires forall k :: k in m.subtasks ==> m.subtasks[k].base.id == k
    ensures Valid(r.history) && PriorityOk(r.prioritized, r.lastId)
    ensures forall k :: k in r.subtasks <==> k in m.subtasks && k !in ids
    ensures forall k :: k in r.subtasks ==> r.subtasks[k] == m.subtasks[k]
    ensures forall x :: x in Items(r.history) <==> x in Items(m.history) && x.Id() !in ids
    ensures Items(r.history) == WithoutIds(Items(m.history), set k | k in ids)
    ensures forall y :: y in r.prioritized <==>
              y in m.prioritized && !(y.Id() in ids && KeyedSubtask(y, m.subtasks))
    ensures r.tasks == m.tasks && r.epics == m.epics && r.lastId == m.lastId
    decreases |ids|
  {
    if |ids| == 0 then
      NoIdsDropped(Items(m.history), ids);
      m
    else
      var id := ids[0];
      var prioritized := RemoveKey(m.prioritized, SubtaskItem(m.subtasks[id]));
      PriorityOkSubset(m.prioritized, prioritized, m.lastId);
      var m1 := m.(prioritized := prioritized, history := RemoveFromHistory(m.history, id),
                   subtasks := m.subtasks - {id});
      HeadTail(ids);
      var r := DropSubtasks(m1, ids[1..]);
      DropStep(m.prioritized, m1.prioritized, r.prioritized, m.subtasks, id, ids);
      DropHistoryStep(Items(m.history), id, ids);
      r
  }

  /** With no ids nothing leaves the history. */
  lemma NoIdsDropped(h: seq<Item>, ids: seq<int>)
    requires |ids| == 0
    ensures WithoutIds(h, set k | k in ids) == h
  {
    WithoutNoIds(h);
    assert (set k | k in ids) == {};
  }

  /** One step of `DropSubtasks` or `DropTasks` on the history: forgetting
      the first id and then the rest forgets them all, in order. */
  lemma DropHistoryStep(h: seq<Item>, id: int, ids: seq<int>)
    requires |ids| > 0 && ids[0] == id
    ensures WithoutIds(WithoutId(h, id), set k | k in ids[1..]) == WithoutIds(h, set k | k in ids)
  {
    HeadTail(ids);
    WithoutIdThenIds(h, id, set k | k in ids[1..]);
    assert (set k | k in ids[1..]) + {id} == set k | k in ids;
  }

  /** One step of `DropSubtasks` on the prioritized set: removing the first
      id's key and then the keys of the rest removes the keys of all. */
  lemma DropStep(p0: seq<Item>, p1: seq<Item>, p2: seq<Item>, subtasks: map<int, Subtask>, id: int, ids: seq<int>)
    requires |ids| > 0 && ids[0] == id && id !in ids[1..]
    requires id in subtasks && subtasks[id].base.id == id
    requires forall y :: y in p1 <==> y in p0 && !SameKey(y, SubtaskItem(subtasks[id]))
    requires forall y :: y in p2 <==> y in p1 && !(y.Id() in ids[1..] && KeyedSubtask(y, subtasks - {id}))
    ensures forall y :: y in p2 <==> y in p0 && !(y.Id() in ids && KeyedSubtask(y, subtasks))
  {
    HeadTail(ids);
    forall y ensures y in p2 <==> y in p0 && !(y.Id() in ids && KeyedSubtask(y, subtasks)) {
      SameKeyAsSubtask(y, subtasks, id);
      if y.Id() in ids[1..] {
        assert KeyedSubtask(y, subtasks - {id}) == KeyedSubtask(y, subtasks);
      }
    }
  }

  /** The ids `KeysUpTo` lists are all the keys when none exceeds the bound. */
  lemma KeysUpToAll(keys: set<int>, n: int)
    requires forall k :: k in keys ==> 1 <= k <= n
    ensures (set k | k in KeysUpTo(keys, n)) == keys
  {
  }

  /** `deleteTaskById`. */
  function DeleteTaskById(m: Manager, id: int): (r: Manager)
    requires Inv(m)
    ensures Inv(r)
    ensures id !in m.tasks ==> r == m
    ensures id in m.tasks ==>
      && r.tasks == m.tasks - {id}
      && Items(r.history) == WithoutId(Items(m.history), id)
      && (forall y :: y in r.prioritized <==> y in m.prioritized && !SameKey(y, PlainItem(m.tasks[id])))
      && r.epics == m.epics && r.subtasks == m.subtasks && r.lastId == m.lastId
  {
    if id in m.tasks then
      var prioritized := RemoveKey(m.prioritized, PlainItem(m.tasks[id]));
      PriorityOkSubset(m.prioritized, prioritized, m.lastId);
      var r := m.(prioritized := prioritized, history := RemoveFromHistory(m.history, id), tasks := m.tasks - {id});
      assert KeysOk(r);
      r
    else m
  }

  /** The links left when epic `id` and the subtasks it lists are gone. */
  lemma LinkedWithoutEpic(m: Manager, id: int, subtasks: map<int, Subtask>)
    requires Inv(m) && id in m.epics
    requires forall k :: k in subtasks <==> k in m.subtasks && k !in m.epics[id].subtaskIds
    requires forall k :: k in subtasks ==> subtasks[k] == m.subtasks[k]
    ensures Linked(m.epics - {id}, subtasks)
    ensures forall k :: k in subtasks ==> subtasks[k].epicId != id
  {
    var epics := m.epics - {id};
    var listed := m.epics[id].subtaskIds;
    forall k | k in subtasks ensures subtasks[k].epicId != id {
      var p := m.subtasks[k].epicId;
      assert k in m.epics[p].subtaskIds;
    }
    forall k, i | k in epics && 0 <= i < |epics[k].subtaskIds|
      ensures epics[k].subtaskIds[i] in subtasks && subtasks[epics[k].subtaskIds[i]].epicId == k
    {
      var sid := epics[k].subtaskIds[i];
      assert sid in m.subtasks && m.subtasks[sid].epicId == k;
      forall j | 0 <= j < |listed| ensures listed[j] != sid {
        assert m.subtasks[listed[j]].epicId == id;
      }
    }
  }

  /** `deleteEpicById`: the epic's subtasks go first, each from the
      prioritized set, the history and the map; then the epic itself. */
  function DeleteEpicById(m: Manager, id: int): (r: Manager)
    requires Inv(m)
    ensures Inv(r)
    ensures id !in m.epics ==> r == m
    ensures id in m.epics ==>
      var listed := m.epics[id].subtaskIds;
      && r.epics == m.epics - {id}
      && (forall k :: k in r.subtasks <==> k in m.subtasks && m.subtasks[k].epicId != id)
      && (forall k :: k in r.subtasks ==> r.subtasks[k] == m.subtasks[k])
      && (forall x :: x in Items(r.history) <==> x in Items(m.history) && x.Id() != id && x.Id() !in listed)
      && Items(r.history) == WithoutIds(Items(m.history), (set k | k in listed) + {id})
      && (forall y :: y in r.prioritized <==>
            y in m.prioritized && !(y.Id() in listed && KeyedSubtask(y, m.subtasks)))
      && r.tasks == m.tasks && r.lastId == m.lastId
  {
    if id in m.epics then
      var listed := m.epics[id].subtaskIds;
      var m1 := DropSubtasks(m, listed);
      var r := m1.(history := RemoveFromHistory(m1.history, id), epics := m1.epics - {id});
      WithoutIdsThenId(Items(m.history), (set k | k in listed), id);
      LinkedWithoutEpic(m, id, m1.subtasks);
      forall k | k in m.subtasks ensures k in listed <==> m.subtasks[k].epicId == id {
        if m.subtasks[k].epicId == id {
          assert k in m.epics[id].subtaskIds;
        }
        if k in listed {
          var j := IndexOf(listed, k);
          assert m.subtasks[listed[j]].epicId == id;
        }
      }
      assert KeysOk(r);
      r
    else m
  }

  /** `deleteSubtaskById`: the subtask leaves its epic's list, the
      prioritized set, the history and the map, and the epic is then
      recalculated from what it still lists. */
  function DeleteSubtaskById(m: Manager, id: int): (r: Manager)
    requires Inv(m)
    ensures Inv(r)
    ensures id !in m.subtasks ==> r == m
    ensures id in m.subtasks ==> r.subtasks == m.subtasks - {id} && r.tasks == m.tasks && r.lastId == m.lastId
  {
    if id in m.subtasks then
      UnlistKeepsInv(m, id);
      RecalculateEpic(Unlist(m, id), m.subtasks[id].epicId)
    else m
  }

  /** Deleting a stored subtask takes it out of its epic's list. */
  lemma DeleteSubtaskByIdLists(m: Manager, id: int)
    requires Inv(m) && id in m.subtasks
    ensures var r := DeleteSubtaskById(m, id);
      var e := m.subtasks[id].epicId;
      && r.epics.Keys == m.epics.Keys
      && e in r.epics && e in m.epics
      && r.epics[e].subtaskIds == Without(m.epics[e].subtaskIds, id)
  {
    var e := m.subtasks[id].epicId;
    UnlistKeepsInv(m, id);
    var m1 := Unlist(m, id);
    var r := RecalculateEpic(m1, e);
    assert r.epics[e].subtaskIds == m1.epics[e].subtaskIds;
  }

  /** Deleting a subtask changes no epic other than its own. */
  lemma DeleteSubtaskByIdOthers(m: Manager, id: int)
    requires Inv(m) && id in m.subtasks
    ensures var r := DeleteSubtaskById(m, id);
      var e := m.subtasks[id].epicId;
      e in r.epics && r.epics == m.epics[e := r.epics[e]]
  {
    var e := m.subtasks[id].epicId;
    UnlistKeepsInv(m, id);
    var m1 := Unlist(m, id);
    var r := RecalculateEpic(m1, e);
    assert DeleteSubtaskById(m, id) == r;
    UpdateTwice(m.epics, e, DeleteSubtaskId(m.epics[e], id), r.epics[e]);
  }

  /** After a subtask is deleted its epic is re-derived from the subtasks
      the epic still lists. */
  lemma DeleteSubtaskByIdRollUp(m: Manager, id: int)
    requires Inv(m) && id in m.subtasks
    ensures var r := DeleteSubtaskById(m, id);
      var e := m.subtasks[id].epicId;
      && e in r.epics && e in m.epics
      && r.epics[e].base.id == m.epics[e].base.id
      && r.epics[e].base.title == m.epics[e].base.title
      && r.epics[e].base.description == m.epics[e].base.description
      && r.epics[e].base.status == StrictRollUp(SubtasksByEpic(r, e))
      && r.epics[e].base.start == MinStart(SubtasksByEpic(r, e))
      && r.epics[e].endTime == MaxEnd(SubtasksByEpic(r, e))
      && r.epics[e].base.duration == TotalDuration(SubtasksByEpic(r, e))
  {
    var e := m.subtasks[id].epicId;
    UnlistKeepsInv(m, id);
    var m1 := Unlist(m, id);
    var r := RecalculateEpic(m1, e);
    assert SubtasksByEpic(r, e) == SubtasksByEpic(m1, e);
  }

  /** Deleting a stored subtask forgets it in the history and drops its key
      from the prioritized set. */
  lemma DeleteSubtaskByIdForgets(m: Manager, id: int)
    requires Inv(m) && id in m.subtasks
    ensures var r := DeleteSubtaskById(m, id);
      && Items(r.history) == WithoutId(Items(m.history), id)
      && (forall y :: y in r.prioritized <==> y in m.prioritized && !SameKey(y, SubtaskItem(m.subtasks[id])))
  {
    UnlistKeepsInv(m, id);
  }

  /** The part of `deleteSubtaskById` before the epic is recalculated: the
      subtask leaves its epic's list, the prioritized set, the history and
      the map. */
  function Unlist(m: Manager, id: int): (r: Manager)
    requires Inv(m) && id in m.subtasks
    ensures Valid(r.history)
    ensures var e := m.subtasks[id].epicId;
      && r.subtasks == m.subtasks - {id}
      && r.epics == m.epics[e := DeleteSubtaskId(m.epics[e], id)]
      && r.epics.Keys == m.epics.Keys
      && r.epics[e].subtaskIds == Without(m.epics[e].subtaskIds, id)
      && Items(r.history) == WithoutId(Items(m.history), id)
      && (forall y :: y in r.prioritized <==> y in m.prioritized && !SameKey(y, SubtaskItem(m.subtasks[id])))
      && r.tasks == m.tasks && r.lastId == m.lastId
  {
    var e := m.subtasks[id].epicId;
    RemoveFirstNoDup(m.epics[e].subtaskIds, id);
    m.(epics := m.epics[e := DeleteSubtaskId(m.epics[e], id)],
       prioritized := RemoveKey(m.prioritized, SubtaskItem(m.subtasks[id])),
       history := RemoveFromHistory(m.history, id), subtasks := m.subtasks - {id})
  }

  /** Unlisting a stored subtask keeps the manager's invariant. */
  lemma UnlistKeepsInv(m: Manager, id: int)
    requires Inv(m) && id in m.subtasks
    ensures Inv(Unlist(m, id))
  {
    var r := Unlist(m, id);
    PriorityOkSubset(m.prioritized, r.prioritized, m.lastId);
    LinkedWithoutSubtask(m.epics, m.subtasks, id);
    assert KeysOk(r);
  }

  /** Forgets the tasks `ids` in the history and the prioritized set, as the
      loop of `deleteAllTasks` does before the map is cleared. */
  function DropTasks(m: Manager, ids: seq<int>): (r: Manager)
    requires Valid(m.history) && PriorityOk(m.prioritized, m.lastId)
    requires forall k :: k in ids ==> k in m.tasks
    requires forall k :: k in m.tasks ==> m.tasks[k].id == k
    ensures Valid(r.history) && PriorityOk(r.prioritized, r.lastId)
    ensures forall x :: x in Items(r.history) <==> x in Items(m.history) && x.Id() !in ids
    ensures Items(r.history) == WithoutIds(Items(m.history), set k | k in ids)
    ensures forall y :: y in r.prioritized <==>
              y in m.prioritized && !(y.Id() in ids && y.Start() == m.tasks[y.Id()].start)
    ensures r.tasks == m.tasks && r.epics == m.epics && r.subtasks == m.subtasks && r.lastId == m.lastId
    decreases |ids|
  {
    if |ids| == 0 then
      NoIdsDropped(Items(m.history), ids);
      m
    else
      var id := ids[0];
      var prioritized := RemoveKey(m.prioritized, PlainItem(m.tasks[id]));
      PriorityOkSubset(m.prioritized, prioritized, m.lastId);
      var m1 := m.(history := RemoveFromHistory(m.history, id), prioritized := prioritized);
      HeadTail(ids);
      var r := DropTasks(m1, ids[1..]);
      DropTaskStep(m.prioritized, m1.prioritized, r.prioritized, m.tasks, id, ids);
      DropHistoryStep(Items(m.history), id, ids);
      r
  }

  /** One step of `DropTasks` on the prioritized set. */
  lemma DropTaskStep(p0: seq<Item>, p1: seq<Item>, p2: seq<Item>, tasks: map<int, Task>, id: int, ids: seq<int>)
    requires |ids| > 0 && ids[0] == id
    requires forall k :: k in ids ==> k in tasks
    requires id in tasks && tasks[id].id == id
    requires forall y :: y in p1 <==> y in p0 && !SameKey(y, PlainItem(tasks[id]))
    requires forall y :: y in p2 <==> y in p1 && !(y.Id() in ids[1..] && y.Start() == tasks[y.Id()].start)
    ensures forall y :: y in p2 <==> y in p0 && !(y.Id() in ids && y.Start() == tasks[y.Id()].start)
  {
    HeadTail(ids);
  }

  /** `deleteAllTasks`: every task forgotten and the map cleared; nothing
      happens when there are none. */
  function DeleteAllTasks(m: Manager): (r: Manager)
    requires Inv(m)
    ensures Inv(r)
    ensures r.tasks == map[]
    ensures forall x :: x in Items(r.history) <==> x in Items(m.history) && x.Id() !in m.tasks
    ensures Items(r.history) == WithoutIds(Items(m.history), m.tasks.Keys)
    ensures forall y :: y in r.prioritized <==>
              y in m.prioritized && !(y.Id() in m.tasks && y.Start() == m.tasks[y.Id()].start)
    ensures r.epics == m.epics && r.subtasks == m.subtasks && r.lastId == m.lastId
  {
    if m.tasks == map[] then
      WithoutNoIds(Items(m.history));
      assert m.tasks.Keys == {};
      m
    else
      var ids := KeysUpTo(m.tasks.Keys, m.lastId);
      var m1 := DropTasks(m, ids);
      KeysUpToAll(m.tasks.Keys, m.lastId);
      var r := m1.(tasks := map[]);
      assert KeysOk(r);
      r
  }

  /** The subtask-side links `deleteAllEpics` relies on while it walks the
      epics `eids`: each listed subtask is still stored and points back. */
  ghost predicate ListsHeld(m: Manager, eids: seq<int>)
  {
    && (forall j :: 0 <= j < |eids| ==> eids[j] in m.epics && NoDup(m.epics[eids[j]].subtaskIds))
    && (forall j, i :: 0 <= j < |eids| && eids[j] in m.epics && 0 <= i < |m.epics[eids[j]].subtaskIds| ==>
          m.epics[eids[j]].subtaskIds[i] in m.subtasks
          && m.subtasks[m.epics[eids[j]].subtaskIds[i]].epicId == eids[j])
    && (forall k :: k in m.subtasks ==>
          && m.subtasks[k].epicId in m.epics
          && k in m.epics[m.subtasks[k].epicId].subtaskIds
          && m.subtasks[k].base.id == k)
  }

  /** The loop of `deleteAllEpics`: for each epic its subtasks are dropped
      and the epic is forgotten in the history. */
  function DropEpics(m: Manager, eids: seq<int>): (r: Manager)
    requires Valid(m.history) && PriorityOk(m.prioritized, m.lastId)
    requires NoDup(eids) && ListsHeld(m, eids)
    ensures Valid(r.history) && PriorityOk(r.prioritized, r.lastId)
    ensures forall k :: k in r.subtasks <==> k in m.subtasks && m.subtasks[k].epicId !in eids
    ensures forall k :: k in r.subtasks ==> r.subtasks[k] == m.subtasks[k]
    ensures forall x :: x in Items(r.history) <==>
              x in Items(m.history) && x.Id() !in eids
              && !(x.Id() in m.subtasks && m.subtasks[x.Id()].epicId in eids)
    ensures Items(r.history) == WithoutIds(Items(m.history), WithChildren(m.subtasks, eids))
    ensures forall y :: y in r.prioritized <==>
              y in m.prioritized && !(KeyedSubtask(y, m.subtasks) && m.subtasks[y.Id()].epicId in eids)
    ensures r.tasks == m.tasks && r.epics == m.epics && r.lastId == m.lastId
    decreases |eids|
  {
    if |eids| == 0 then
      WithoutNoIds(Items(m.history));
      assert WithChildren(m.subtasks, eids) == {};
      m
    else
      var e := eids[0];
      var listed := m.epics[e].subtaskIds;
      var m1 := DropSubtasks(m, listed);
      var m2 := m1.(history := RemoveFromHistory(m1.history, e));
      HeadTail(eids);
      ListedAreChildren(m, eids);
      ListsHeldAfterDrop(m, m2, eids);
      var r := DropEpics(m2, eids[1..]);
      DropEpicsStep(m, m2, r, eids);
      DropEpicsHistory(Items(m.history), Items(m1.history), Items(m2.history), Items(r.history), m, m2, eids);
      r
  }

  /** The epics `eids` together with the stored subtasks that name one of
      them as their epic. */
  function WithChildren(subtasks: map<int, Subtask>, eids: seq<int>): (r: set<int>)
    ensures forall k :: k in r <==> k in eids || (k in subtasks && subtasks[k].epicId in eids)
  {
    (set k | k in eids) + (set k | k in subtasks && subtasks[k].epicId in eids)
  }

  /** One step of `DropEpics` on the history: forgetting the first epic's
      subtasks, then the epic, then the rest's families forgets the family
      of all the epics, in order. */
  lemma DropEpicsHistory(h: seq<Item>, h1: seq<Item>, h2: seq<Item>, hr: seq<Item>, m: Manager, m2: Manager, eids: seq<int>)
    requires |eids| > 0 && ListsHeld(m, eids)
    requires forall k :: k in m.subtasks ==> (k in m.epics[eids[0]].subtaskIds <==> m.subtasks[k].epicId == eids[0])
    requires forall k :: k in m2.subtasks <==> k in m.subtasks && k !in m.epics[eids[0]].subtaskIds
    requires forall k :: k in m2.subtasks ==> m2.subtasks[k] == m.subtasks[k]
    requires h1 == WithoutIds(h, set k | k in m.epics[eids[0]].subtaskIds)
    requires h2 == WithoutId(h1, eids[0])
    requires hr == WithoutIds(h2, WithChildren(m2.subtasks, eids[1..]))
    ensures hr == WithoutIds(h, WithChildren(m.subtasks, eids))
  {
    var listed := m.epics[eids[0]].subtaskIds;
    WithoutIdsThenId(h, (set k | k in listed), eids[0]);
    WithoutIdsTwice(h, (set k | k in listed) + {eids[0]}, WithChildren(m2.subtasks, eids[1..]));
    FamilyStep(m, m2, eids);
  }

  /** The first epic, its listed subtasks and the rest's families make up
      the family of all the epics. */
  lemma FamilyStep(m: Manager, m2: Manager, eids: seq<int>)
    requires |eids| > 0 && ListsHeld(m, eids)
    requires forall k :: k in m.subtasks ==> (k in m.epics[eids[0]].subtaskIds <==> m.subtasks[k].epicId == eids[0])
    requires forall k :: k in m2.subtasks <==> k in m.subtasks && k !in m.epics[eids[0]].subtaskIds
    requires forall k :: k in m2.subtasks ==> m2.subtasks[k] == m.subtasks[k]
    ensures (set k | k in m.epics[eids[0]].subtaskIds) + {eids[0]} + WithChildren(m2.subtasks, eids[1..])
            == WithChildren(m.subtasks, eids)
  {
    HeadTail(eids);
    var listed := m.epics[eids[0]].subtaskIds;
    var a := (set k | k in listed) + {eids[0]} + WithChildren(m2.subtasks, eids[1..]);
    var b := WithChildren(m.subtasks, eids);
    forall k ensures k in a <==> k in b {
      if k in listed {
        var i := IndexOf(listed, k);
        assert listed[i] == k;
        assert m.subtasks[k].epicId == eids[0];
      }
    }
  }

  /** Under `ListsHeld` the first epic's list names exactly the stored
      subtasks whose epic it is. */
  lemma ListedAreChildren(m: Manager, eids: seq<int>)
    requires |eids| > 0 && ListsHeld(m, eids)
    ensures forall k :: k in m.subtasks ==> (k in m.epics[eids[0]].subtaskIds <==> m.subtasks[k].epicId == eids[0])
  {
    var e := eids[0];
    var listed := m.epics[e].subtaskIds;
    forall k | k in m.subtasks ensures k in listed <==> m.subtasks[k].epicId == e {
      if k in listed {
        var j := IndexOf(listed, k);
        assert m.subtasks[listed[j]].epicId == e;
      }
    }
  }

  /** Dropping the first epic's subtasks leaves the others' lists held. */
  lemma ListsHeldAfterDrop(m: Manager, m2: Manager, eids: seq<int>)
    requires |eids| > 0 && NoDup(eids) && ListsHeld(m, eids)
    requires m2.epics == m.epics
    requires forall k :: k in m2.subtasks <==> k in m.subtasks && k !in m.epics[eids[0]].subtaskIds
    requires forall k :: k in m2.subtasks ==> m2.subtasks[k] == m.subtasks[k]
    ensures ListsHeld(m2, eids[1..])
  {
    var e := eids[0];
    HeadTail(eids);
    ListedAreChildren(m, eids);
    forall j, i | 0 <= j < |eids[1..]| && eids[1..][j] in m2.epics && 0 <= i < |m2.epics[eids[1..][j]].subtaskIds|
      ensures m2.epics[eids[1..][j]].subtaskIds[i] in m2.subtasks
              && m2.subtasks[m2.epics[eids[1..][j]].subtaskIds[i]].epicId == eids[1..][j]
    {
      assert eids[1..][j] == eids[j + 1] && eids[j + 1] != e;
      var sid := m.epics[eids[j + 1]].subtaskIds[i];
      assert sid in m.subtasks && m.subtasks[sid].epicId == eids[j + 1];
    }
    assert forall j :: 0 <= j < |eids[1..]| ==> eids[1..][j] == eids[j + 1];
  }

  /** The first epic's drop followed by the rest's is the drop of all. */
  lemma DropEpicsStep(m: Manager, m2: Manager, r: Manager, eids: seq<int>)
    requires |eids| > 0 && NoDup(eids) && ListsHeld(m, eids)
    requires Valid(m.history) && Valid(m2.history) && Valid(r.history)
    requires forall k :: k in m.subtasks ==> (k in m.epics[eids[0]].subtaskIds <==> m.subtasks[k].epicId == eids[0])
    requires forall k :: k in m2.subtasks <==> k in m.subtasks && k !in m.epics[eids[0]].subtaskIds
    requires forall k :: k in m2.subtasks ==> m2.subtasks[k] == m.subtasks[k]
    requires forall x :: x in Items(m2.history) <==>
               x in Items(m.history) && x.Id() !in m.epics[eids[0]].subtaskIds && x.Id() != eids[0]
    requires forall y :: y in m2.prioritized <==>
               y in m.prioritized && !(y.Id() in m.epics[eids[0]].subtaskIds && KeyedSubtask(y, m.subtasks))
    requires forall k :: k in r.subtasks <==> k in m2.subtasks && m2.subtasks[k].epicId !in eids[1..]
    requires forall k :: k in r.subtasks ==> r.subtasks[k] == m2.subtasks[k]
    requires forall x :: x in Items(r.history) <==>
               x in Items(m2.history) && x.Id() !in eids[1..]
               && !(x.Id() in m2.subtasks && m2.subtasks[x.Id()].epicId in eids[1..])
    requires forall y :: y in r.prioritized <==>
               y in m2.prioritized && !(KeyedSubtask(y, m2.subtasks) && m2.subtasks[y.Id()].epicId in eids[1..])
    ensures forall k :: k in r.subtasks <==> k in m.subtasks && m.subtasks[k].epicId !in eids
    ensures forall k :: k in r.subtasks ==> r.subtasks[k] == m.subtasks[k]
    ensures forall x :: x in Items(r.history) <==>
              x in Items(m.history) && x.Id() !in eids
              && !(x.Id() in m.subtasks && m.subtasks[x.Id()].epicId in eids)
    ensures forall y :: y in r.prioritized <==>
              y in m.prioritized && !(KeyedSubtask(y, m.subtasks) && m.subtasks[y.Id()].epicId in eids)
  {
    HeadTail(eids);
    forall y ensures y in r.prioritized <==>
        y in m.prioritized && !(KeyedSubtask(y, m.subtasks) && m.subtasks[y.Id()].epicId in eids)
    {
      if y.Id() in m2.subtasks {
        assert KeyedSubtask(y, m2.subtasks) == KeyedSubtask(y, m.subtasks);
      }
    }
  }

  /** `deleteAllEpics`: every epic and, with them, every subtask goes; the
      tasks stay. Nothing happens when there are no epics. */
  function DeleteAllEpics(m: Manager): (r: Manager)
    requires Inv(m)
    ensures Valid(r.history)
    ensures m.epics != map[] ==> r.epics == map[] && r.subtasks == map[]
    ensures m.epics == map[] ==> r == m
    ensures forall x :: x in Items(r.history) <==>
              x in Items(m.history) && (m.epics == map[] || (x.Id() !in m.epics && x.Id() !in m.subtasks))
    ensures Items(r.history) == WithoutIds(Items(m.history), m.epics.Keys + m.subtasks.Keys)
    ensures forall y :: y in r.prioritized <==>
              y in m.prioritized && (m.epics == map[] || !KeyedSubtask(y, m.subtasks))
    ensures r.tasks == m.tasks && r.lastId == m.lastId
  {
    if m.epics == map[] then
      NoEpicsNoFamily(m);
      m
    else
      var eids := KeysUpTo(m.epics.Keys, m.lastId);
      var m1 := DropEpics(m, eids);
      forall k | k in m.subtasks ensures m.subtasks[k].epicId in eids {
        assert m.subtasks[k].epicId in m.epics;
      }
      KeysUpToAll(m.epics.Keys, m.lastId);
      FamilyOfAllEpics(m, eids);
      m1.(epics := map[])
  }

  /** Every stored subtask has a stored epic. */
  lemma SubtasksNeedEpics(m: Manager)
    requires Linked(m.epics, m.subtasks)
    ensures forall k :: k in m.subtasks ==> m.epics != map[]
  {
    forall k | k in m.subtasks ensures m.epics != map[] {
      assert m.subtasks[k].epicId in m.epics;
    }
  }

  /** With no epics there are no subtasks, so the history keeps every
      entry. */
  lemma NoEpicsNoFamily(m: Manager)
    requires Inv(m) && m.epics == map[]
    ensures WithoutIds(Items(m.history), m.epics.Keys + m.subtasks.Keys) == Items(m.history)
  {
    SubtasksNeedEpics(m);
    assert forall k :: k !in m.subtasks;
    assert m.epics.Keys + m.subtasks.Keys == {};
    WithoutNoIds(Items(m.history));
  }

  /** Walking every epic takes every epic and every subtask. */
  lemma FamilyOfAllEpics(m: Manager, eids: seq<int>)
    requires Linked(m.epics, m.subtasks)
    requires (set k | k in eids) == m.epics.Keys
    ensures WithChildren(m.subtasks, eids) == m.epics.Keys + m.subtasks.Keys
  {
    forall k | k in m.subtasks ensures m.subtasks[k].epicId in eids {
      assert m.subtasks[k].epicId in m.epics;
    }
  }

  /** Deleting all epics keeps the manager's invariant. */
  lemma DeleteAllEpicsKeepsInv(m: Manager)
    requires Inv(m)
    ensures Inv(DeleteAllEpics(m))
  {
    var r := DeleteAllEpics(m);
    assert KeysOk(r);
  }

  /** `deleteAllSubtasks`: every epic's list is cleared and its status rolled
      up (NEW, with no schedule); then every subtask is forgotten and the
      map cleared. */
  function DeleteAllSubtasks(m: Manager): (r: Manager)
    requires Inv(m)
    ensures Valid(r.history)
    ensures r.subtasks == map[]
    ensures r.epics.Keys == m.epics.Keys
    ensures forall k :: k in r.epics ==>
              && r.epics[k].subtaskIds == [] && r.epics[k].base.status == NEW
              && r.epics[k].base.start.None? && r.epics[k].endTime.None? && r.epics[k].base.duration == 0
              && r.epics[k].base.title == m.epics[k].base.title && r.epics[k].base.id == k
              && r.epics[k].base.description == m.epics[k].base.description
    ensures forall x :: x in Items(r.history) <==> x in Items(m.history) && x.Id() !in m.subtasks
    ensures Items(r.history) == WithoutIds(Items(m.history), m.subtasks.Keys)
    ensures forall y :: y in r.prioritized <==> y in m.prioritized && !KeyedSubtask(y, m.subtasks)
    ensures r.tasks == m.tasks && r.lastId == m.lastId
  {
    var epics := ClearedEpics(m.epics);
    var ids := KeysUpTo(m.subtasks.Keys, m.lastId);
    var m1 := DropSubtasks(m.(epics := epics), ids);
    KeysUpToAll(m.subtasks.Keys, m.lastId);
    m1.(subtasks := map[])
  }

  /** Deleting all subtasks keeps the manager's invariant. */
  lemma DeleteAllSubtasksKeepsInv(m: Manager)
    requires Inv(m)
    ensures Inv(DeleteAllSubtasks(m))
  {
    var r := DeleteAllSubtasks(m);
    assert KeysOk(r);
  }

  /** The first loop of `deleteAllSubtasks`: every epic's list cleared and
      its status re-derived from the now empty list. */
  function ClearedEpics(epics: map<int, Epic>): (r: map<int, Epic>)
    ensures r.Keys == epics.Keys
    ensures forall k :: k in r ==>
              && r[k].subtaskIds == [] && r[k].base.status == NEW
              && r[k].base.start.None? && r[k].endTime.None? && r[k].base.duration == 0
              && r[k].base.title == epics[k].base.title && r[k].base.id == epics[k].base.id
              && r[k].base.description == epics[k].base.description
    ensures Linked(r, map[])
  {
    map k | k in epics :: UpdateEpicStatus(ClearSubtaskIds(epics[k]), [])
  }

  /** Deleting a task just created gives back the tasks the manager had,
      and a history without that id. */
  lemma CreateThenDeleteTask(m: Manager, t: Task)
    requires Inv(m) && CreateOps.CreateTask(m, t).Done?
    ensures var m1 := CreateOps.CreateTask(m, t).state;
            var m2 := DeleteTaskById(m1, m1.lastId);
            m2.tasks == m.tasks && Items(m2.history) == WithoutId(Items(m.history), m1.lastId)
  {
    var m1 := CreateOps.CreateTask(m, t).state;
    assert m1.tasks == m.tasks[m1.lastId := t.(id := m1.lastId)];
    assert m1.lastId !in m.tasks;
    assert m1.tasks - {m1.lastId} == m.tasks;
  }
}

=== FILE: filetext.dfy ===
/** The file behind the line sequences: `save` ends every line it writes
    with U+000A (`newLine()` or `+ "\n"`), and `loadFromFile` reads it back
    with `BufferedReader.readLine`, which ends a line at U+000A, at U+000D,
    or at the pair U+000D U+000A. */
module FileText {
  import opened Optional
  import opened Model
  import opened ManagerState
  import opened Csv

  /** Neither line terminator occurs in `s`. */
  predicate NoBreak(s: string)
  {
    '\n' !in s && '\r' !in s
  }

  /** The text written for `lines`: each one followed by U+000A. */
  function Text(lines: seq<string>): (r: string)
    ensures |r| == 0 <==> |lines| == 0
    ensures |lines| > 0 ==> r[|r| - 1] == '\n'
  {
    if |lines| == 0 then "" else lines[0] + "\n" + Text(lines[1..])
  }

  /** Where the first line of `text` ends: at its first terminator, or at
      the end of the text. */
  function LineEnd(text: string): (n: nat)
    ensures n <= |text| && NoBreak(text[..n])
    ensures n < |text| ==> text[n] == '\n' || text[n] == '\r'
  {
    if |text| == 0 || text[0] == '\n' || text[0] == '\r' then 0
    else
      var n := 1 + LineEnd(text[1..]);
      assert text[..n] == [text[0]] + text[1..][..n - 1];
      n
  }

  /** `readLine` called until it answers `null`: every terminator ends a
      line, `"\r\n"` counts as one, and a last line without a terminator is
      still read. */
  function ReadLines(text: string): (r: seq<string>)
    ensures forall i :: 0 <= i < |r| ==> NoBreak(r[i])
    decreases |text|
  {
    if |text| == 0 then []
    else
      var n := LineEnd(text);
      if n == |text| then
        assert text[..n] == text;
        [text]
      else
        var next := if text[n] == '\r' && n + 1 < |text| && text[n + 1] == '\n' then n + 2 else n + 1;
        [text[..n]] + ReadLines(text[next..])
  }

  lemma {:induction false} LineEndAt(a: string, rest: string)
    requires NoBreak(a)
    ensures LineEnd(a + "\n" + rest) == |a|
  {
    var t := a + "\n" + rest;
    if |a| > 0 {
      LineEndAt(a[1..], rest);
      assert t[1..] == a[1..] + "\n" + rest;
      assert t[0] == a[0];
    } else {
      assert t[0] == '\n';
    }
  }

  /** A break-free line followed by U+000A is read as that line. */
  lemma ReadCons(a: string, rest: string)
    requires NoBreak(a)
    ensures ReadLines(a + "\n" + rest) == [a] + ReadLines(rest)
  {
    LineEndAt(a, rest);
    var t := a + "\n" + rest;
    assert t[..|a|] == a;
    assert t[|a|] == '\n';
    assert t[|a| + 1..] == rest;
  }

  /** Reading back the text of break-free lines gives the lines. */
  lemma {:induction false} ReadText(lines: seq<string>)
    requires forall i :: 0 <= i < |lines| ==> NoBreak(lines[i])
    ensures ReadLines(Text(lines)) == lines
  {
    if |lines| > 0 {
      ReadText(lines[1..]);
      ReadCons(lines[0], Text(lines[1..]));
      assert lines == [lines[0]] + lines[1..];
    }
  }

  /** The lines come back from their text exactly when none of them holds a
      terminator; a line that does is split. */
  lemma ReadTextIff(lines: seq<string>)
    ensures ReadLines(Text(lines)) == lines <==> forall i :: 0 <= i < |lines| ==> NoBreak(lines[i])
  {
    if forall i :: 0 <= i < |lines| ==> NoBreak(lines[i]) {
      ReadText(lines);
    }
  }

  // ---------------------------------------------------------------------
  // The lines `save` writes.

  lemma IntNoBreak(i: int)
    ensures NoBreak(IntToString(i))
  {
    if i < 0 {
      var d := NatToString(-i);
      assert IntToString(i) == "-" + d;
      assert forall j :: 0 <= j < |d| ==> IsDigit(d[j]);
    }
  }

  lemma NamesNoBreak(kind: TaskType, status: Status)
    ensures NoBreak(TypeName(kind)) && NoBreak(StatusName(status))
  {
    match kind
    case TASK => assert TypeName(kind) == ['T', 'A', 'S', 'K'];
    case EPIC => assert TypeName(kind) == ['E', 'P', 'I', 'C'];
    case SUBTASK => assert TypeName(kind) == ['S', 'U', 'B', 'T', 'A', 'S', 'K'];
    match status
    case NEW => assert StatusName(status) == ['N', 'E', 'W'];
    case IN_PROGRESS => assert StatusName(status) == ['I', 'N', '_', 'P', 'R', 'O', 'G', 'R', 'E', 'S', 'S'];
    case DONE => assert StatusName(status) == ['D', 'O', 'N', 'E'];
  }

  lemma {:induction false} JoinNoBreak(f: seq<string>)
    requires |f| > 0 && forall i :: 0 <= i < |f| ==> NoBreak(f[i])
    ensures NoBreak(Join(f))
  {
    if |f| > 1 {
      JoinNoBreak(f[1..]);
      assert Join(f) == f[0] + "," + Join(f[1..]);
    }
  }

  /** Title and description without a terminator. */
  predicate OneLine(t: Task)
  {
    NoBreak(t.title) && NoBreak(t.description)
  }

  lemma FieldsOneLine(t: Task, kind: TaskType)
    requires OneLine(t)
    ensures |CommonFields(t, kind)| == 5
    ensures forall i :: 0 <= i < 5 ==> NoBreak(CommonFields(t, kind)[i])
  {
    IntNoBreak(t.id);
    NamesNoBreak(kind, t.status);
  }

  lemma CommonFieldsNoBreak(t: Task, kind: TaskType, extra: seq<string>)
    requires OneLine(t) && forall i :: 0 <= i < |extra| ==> NoBreak(extra[i])
    ensures NoBreak(Join(CommonFields(t, kind) + extra))
  {
    var c := CommonFields(t, kind);
    FieldsOneLine(t, kind);
    var f := c + extra;
    forall i | 0 <= i < |f| ensures NoBreak(f[i]) {
      if i >= |c| { assert f[i] == extra[i - |c|]; } else { assert f[i] == c[i]; }
    }
    JoinNoBreak(f);
  }

  /** Every line `toString` writes for a one-line title and description is
      itself one line. */
  lemma LinesNoBreak(t: Task, e: Epic, s: Subtask)
    ensures OneLine(t) ==> NoBreak(TaskLine(t))
    ensures OneLine(e.base) ==> NoBreak(EpicLine(e))
    ensures OneLine(s.base) ==> NoBreak(SubtaskLine(s))
  {
    if OneLine(t) {
      CommonFieldsNoBreak(t, TASK, []);
      assert CommonFields(t, TASK) + [] == CommonFields(t, TASK);
    }
    if OneLine(e.base) {
      CommonFieldsNoBreak(e.base, EPIC, []);
      assert CommonFields(e.base, EPIC) + [] == CommonFields(e.base, EPIC);
    }
    if OneLine(s.base) {
      IntNoBreak(s.epicId);
      CommonFieldsNoBreak(s.base, SUBTASK, [IntToString(s.epicId)]);
    }
  }

  /** No stored title or description holds a terminator. */
  predicate StoredOneLine(m: Manager)
  {
    && (forall k :: k in m.tasks ==> OneLine(m.tasks[k]))
    && (forall k :: k in m.epics ==> OneLine(m.epics[k].base))
    && (forall k :: k in m.subtasks ==> OneLine(m.subtasks[k].base))
  }

  lemma StoredLineNoBreak(m: Manager, line: string)
    requires StoredOneLine(m) && LineOfStored(m, line)
    ensures NoBreak(line)
  {
    if TaskLineOf(m, line) {
      var k :| k in m.tasks && line == TaskLine(m.tasks[k]);
      LinesNoBreak(m.tasks[k], Epic(m.tasks[k], [], None), Subtask(m.tasks[k], 0));
    } else if EpicLineOf(m, line) {
      var k :| k in m.epics && line == EpicLine(m.epics[k]);
      LinesNoBreak(m.epics[k].base, m.epics[k], Subtask(m.epics[k].base, 0));
    } else {
      var k :| k in m.subtasks && line == SubtaskLine(m.subtasks[k]);
      LinesNoBreak(m.subtasks[k].base, Epic(m.subtasks[k].base, [], None), m.subtasks[k]);
    }
  }

  /** The text `save` writes reads back as the lines it wrote, provided no
      stored title or description holds a line break. */
  lemma SavedTextReadsBack(m: Manager)
    requires Inv(m) && StoredOneLine(m)
    ensures ReadLines(Text(SaveLines(m))) == SaveLines(m)
  {
    SaveLinesSound(m);
    StoredLinesNoBreak(m, SaveBody(m));
    HeaderNoBreak();
    ReadHeaderAndBody(Header, SaveBody(m));
  }

  lemma StoredLinesNoBreak(m: Manager, body: seq<string>)
    requires StoredOneLine(m) && AllLinesOfStored(m, body)
    ensures forall i :: 0 <= i < |body| ==> NoBreak(body[i])
  {
    forall i | 0 <= i < |body| ensures NoBreak(body[i]) {
      StoredLineNoBreak(m, body[i]);
    }
  }

  lemma ReadHeaderAndBody(h: string, body: seq<string>)
    requires NoBreak(h) && forall i :: 0 <= i < |body| ==> NoBreak(body[i])
    ensures ReadLines(Text([h] + body)) == [h] + body
  {
    assert ([h] + body)[1..] == body;
    ReadText(body);
    ReadCons(h, Text(body));
  }

  /** A task saved alone in a file is loaded back from the file's text under
      id 1, without its schedule. */
  lemma SavedTaskFileLoads(t: Task)
    requires Writable(t) && OneLine(t) && t.description != ""
    ensures var r := Load(ReadLines(Text([Header, TaskLine(t)])));
            r.Some? && r.value.tasks == map[1 := t.(id := 1, start := None, duration := 0)]
  {
    LinesNoBreak(t, Epic(t, [], None), Subtask(t, 0));
    HeaderNoBreak();
    ReadOneLine(Header, TaskLine(t));
    LoadReassignsTaskId(t);
  }

  /** The header `save` writes is one line. */
  lemma HeaderNoBreak()
    ensures NoBreak(Header)
  {
    assert forall i :: 0 <= i < |Header| ==> Header[i] > ' ';
  }

  lemma JoinFive(a: string, b: string, c: string, d: string, e: string)
    ensures Join([a, b, c, d, e]) == a + "," + b + "," + c + "," + d + "," + e
  {
    assert [d, e][1..] == [e] && Join([d, e]) == d + "," + e;
    assert [c, d, e][1..] == [d, e] && Join([c, d, e]) == c + "," + (d + "," + e);
    assert [b, c, d, e][1..] == [c, d, e] && Join([b, c, d, e]) == b + "," + (c + "," + (d + "," + e));
    assert [a, b, c, d, e][1..] == [b, c, d, e];
  }

  /** `toString` of a task whose title holds a line break. */
  lemma TitleBreakLine()
    ensures TaskLine(Task(1, "a\nb", "d", NEW, None, 0)) == "1,TASK,a" + "\n" + "b,NEW,d"
  {
    var t := Task(1, "a\nb", "d", NEW, None, 0);
    assert IntToString(1) == "1";
    assert CommonFields(t, TASK) == ["1", "TASK", "a\nb", "NEW", "d"];
    JoinFive("1", "TASK", "a\nb", "NEW", "d");
  }

  /** A line with three fields does not parse. */
  lemma ThreeFieldsBad()
    ensures BadLine("1,TASK,a")
  {
    var f := ["1", "TASK", "a"];
    assert Join(f[2..]) == "a";
    assert Join(f[1..]) == "TASK" + "," + "a";
    assert Join(f) == "1,TASK,a";
    assert CommaFree(f) by {
      assert ',' !in f[0] && ',' !in f[1] && ',' !in f[2];
    }
    SplitJoin(f);
    assert |Split("1,TASK,a")| == 3;
    assert "1,TASK,a"[0] > ' ';
  }

  /** A line holding one break is read as two lines. */
  lemma BrokenLineReadsAsTwo(h: string, line: string, a: string, b: string)
    requires NoBreak(h) && NoBreak(a) && NoBreak(b) && line == a + "\n" + b
    ensures ReadLines(Text([h, line])) == [h, a, b]
  {
    ReadCons(b, "");
    ReadCons(a, b + "\n" + "");
    assert [h, line][1..] == [line] && [line][1..] == [];
    assert Text([h, line]) == h + "\n" + (a + "\n" + (b + "\n" + ""));
    ReadCons(h, a + "\n" + (b + "\n" + ""));
  }

  /** The header and one line are read back as they were written. */
  lemma ReadOneLine(h: string, line: string)
    requires NoBreak(h) && NoBreak(line)
    ensures ReadLines(Text([h, line])) == [h, line]
  {
    ReadCons(line, "");
    assert [h, line][1..] == [line] && [line][1..] == [];
    assert Text([h, line]) == h + "\n" + (line + "\n" + "");
    ReadCons(h, line + "\n" + "");
  }

  /** A file whose second line is bad does not load. */
  lemma BadSecondLine(lines: seq<string>)
    requires |lines| > 1 && BadLine(lines[1])
    ensures Load(lines).None?
  {
  }

  /** A line break in a title splits the task's line in two when the file
      is read, and the first half has too few fields, so the load fails. */
  lemma TitleBreakBreaksFile()
    ensures var t := Task(1, "a\nb", "d", NEW, None, 0);
            var read := ReadLines(Text([Header, TaskLine(t)]));
            read == [Header, "1,TASK,a", "b,NEW,d"] && Load(read).None?
  {
    var t := Task(1, "a\nb", "d", NEW, None, 0);
    var a, b := "1,TASK,a", "b,NEW,d";
    TitleBreakLine();
    HeaderNoBreak();
    assert NoBreak(a) && NoBreak(b);
    BrokenLineReadsAsTwo(Header, TaskLine(t), a, b);
    ThreeFieldsBad();
    BadSecondLine([Header, a, b]);
  }
}

=== FILE: history.dfy ===
/** The browsing history: `LinkedListCustom`, a doubly-linked list with an
    id-to-node index, and `InMemoryHistoryManager`, which delegates to it.
    Nodes live in an arena keyed by task id; `prev`/`next` are ids. The field
    `order` is the head-to-tail id sequence the links spell out: the
    operations maintain the links, and `Valid` ties the links to `order`. */
module History {
  import opened Optional
  import opened Seqs
  import opened Model

  datatype Node = Node(item: Item, prev: Option<int>, next: Option<int>)

  datatype LinkedList = LinkedList(
    head: Option<int>,
    tail: Option<int>,
    nodes: map<int, Node>,
    order: seq<int>)

  /** The ids of the list in head-to-tail order are exactly the index keys,
      each once; head, tail and every `prev`/`next` link agree with that
      order; each node is indexed under its own task's id. */
  ghost predicate Valid(l: LinkedList)
  {
    && NoDup(l.order)
    && (forall i :: 0 <= i < |l.order| ==> l.order[i] in l.nodes)
    && (forall k :: k in l.nodes ==> k in l.order)
    && l.head == (if |l.order| == 0 then None else Some(l.order[0]))
    && l.tail == (if |l.order| == 0 then None else Some(l.order[|l.order| - 1]))
    && (forall i :: 0 <= i < |l.order| ==>
          l.nodes[l.order[i]].prev == (if i == 0 then None else Some(l.order[i - 1])))
    && (forall i :: 0 <= i < |l.order| ==>
          l.nodes[l.order[i]].next == (if i == |l.order| - 1 then None else Some(l.order[i + 1])))
    && (forall k :: k in l.nodes ==> l.nodes[k].item.Id() == k)
  }

  /** The items along `ids`. */
  function ItemsOf(nodes: map<int, Node>, ids: seq<int>): (r: seq<Item>)
    requires forall i :: 0 <= i < |ids| ==> ids[i] in nodes
    ensures |r| == |ids|
    ensures forall i :: 0 <= i < |ids| ==> r[i] == nodes[ids[i]].item
  {
    if |ids| == 0 then [] else [nodes[ids[0]].item] + ItemsOf(nodes, ids[1..])
  }

  /** The list's contents head to tail (oldest access first). */
  function Items(l: LinkedList): seq<Item>
    requires Valid(l)
  {
    ItemsOf(l.nodes, l.order)
  }

  /** `items` with every element whose id is `id` dropped. */
  function WithoutId(items: seq<Item>, id: int): (r: seq<Item>)
    ensures forall y :: y in r <==> y in items && y.Id() != id
  {
    if |items| == 0 then []
    else if items[0].Id() == id then WithoutId(items[1..], id)
    else [items[0]] + WithoutId(items[1..], id)
  }

  /** `items` with every element whose id is in `drop` dropped; the rest
      keep their order, as a run of `removeNode` calls leaves them. */
  function WithoutIds(items: seq<Item>, drop: set<int>): (r: seq<Item>)
    ensures forall y :: y in r <==> y in items && y.Id() !in drop
  {
    if |items| == 0 then []
    else if items[0].Id() in drop then WithoutIds(items[1..], drop)
    else [items[0]] + WithoutIds(items[1..], drop)
  }

  /** Dropping nothing keeps every element. */
  lemma {:induction false} WithoutNoIds(items: seq<Item>)
    ensures WithoutIds(items, {}) == items
  {
    if |items| > 0 {
      WithoutNoIds(items[1..]);
      assert items == [items[0]] + items[1..];
    }
  }

  /** Dropping one id, then the ids `drop`, drops them all at once. */
  lemma {:induction false} WithoutIdThenIds(items: seq<Item>, id: int, drop: set<int>)
    ensures WithoutIds(WithoutId(items, id), drop) == WithoutIds(items, drop + {id})
  {
    if |items| > 0 {
      WithoutIdThenIds(items[1..], id, drop);
      if items[0].Id() != id && items[0].Id() !in drop {
        var w := WithoutId(items[1..], id);
        assert WithoutId(items, id) == [items[0]] + w;
        assert ([items[0]] + w)[1..] == w;
      }
    }
  }

  /** Dropping the ids `drop`, then one id, drops them all at once. */
  lemma {:induction false} WithoutIdsThenId(items: seq<Item>, drop: set<int>, id: int)
    ensures WithoutId(WithoutIds(items, drop), id) == WithoutIds(items, drop + {id})
  {
    if |items| > 0 {
      WithoutIdsThenId(items[1..], drop, id);
      if items[0].Id() !in drop {
        var w := WithoutIds(items[1..], drop);
        assert WithoutIds(items, drop) == [items[0]] + w;
        assert ([items[0]] + w)[1..] == w;
      }
    }
  }

  /** Two drops in a row are the drop of both sets. */
  lemma {:induction false} WithoutIdsTwice(items: seq<Item>, a: set<int>, b: set<int>)
    ensures WithoutIds(WithoutIds(items, a), b) == WithoutIds(items, a + b)
  {
    if |items| > 0 {
      WithoutIdsTwice(items[1..], a, b);
      if items[0].Id() !in a {
        var w := WithoutIds(items[1..], a);
        assert WithoutIds(items, a) == [items[0]] + w;
        assert ([items[0]] + w)[1..] == w;
      }
    }
  }

  /** The empty list: no head, no tail, an empty index. */
  function Empty(): (l: LinkedList)
    ensures Valid(l) && Items(l) == []
  {
    LinkedList(None, None, map[], [])
  }

  /** `linkLast`: a new tail node whose `prev` is the old tail; it is also the
      head when the list was empty. The node is indexed under its id, as `add`
      does with the node `linkLast` returns. */
  function LinkLast(l: LinkedList, item: Item): (r: LinkedList)
    requires Valid(l) && item.Id() !in l.nodes
    ensures Valid(r)
    ensures r.order == l.order + [item.Id()]
    ensures r.tail == Some(item.Id())
    ensures l.head.None? ==> r.head == Some(item.Id())
    ensures l.head.Some? ==> r.head == l.head
    ensures r.nodes[item.Id()].item == item
    ensures forall k :: k in l.nodes ==> k in r.nodes && r.nodes[k].item == l.nodes[k].item
  {
    var id := item.Id();
    var node := Node(item, l.tail, None);
    var nodes :=
      if l.tail.None? then l.nodes
      else l.nodes[l.tail.value := l.nodes[l.tail.value].(next := Some(id))];
    var r := LinkedList(if l.tail.None? then Some(id) else l.head, Some(id), nodes[id := node], l.order + [id]);
    LinkLastValid(l, item, r);
    r
  }

  /** The links of a node that was already in the list before `linkLast`. */
  lemma LinkLastOld(l: LinkedList, item: Item, r: LinkedList, i: int)
    requires Valid(l) && item.Id() !in l.nodes && 0 <= i < |l.order|
    requires var id := item.Id();
      var nodes :=
        if l.tail.None? then l.nodes
        else l.nodes[l.tail.value := l.nodes[l.tail.value].(next := Some(id))];
      r == LinkedList(if l.tail.None? then Some(id) else l.head, Some(id),
                      nodes[id := Node(item, l.tail, None)], l.order + [id])
    ensures r.order[i] in r.nodes
    ensures r.nodes[r.order[i]].prev == (if i == 0 then None else Some(r.order[i - 1]))
    ensures r.nodes[r.order[i]].next == (if i == |r.order| - 1 then None else Some(r.order[i + 1]))
  {
    var id := item.Id();
    var n := |l.order|;
    LinksAt(l, i);
    assert r.order[i] == l.order[i] && l.order[i] != id;
    assert r.order[n] == id;
    if i == n - 1 {
      assert r.nodes[l.order[i]] == l.nodes[l.order[i]].(next := Some(id));
    } else {
      assert l.order[i] != l.order[n - 1];
      assert r.nodes[l.order[i]] == l.nodes[l.order[i]];
      assert r.order[i + 1] == l.order[i + 1];
    }
    if i > 0 { assert r.order[i - 1] == l.order[i - 1]; }
  }

  lemma LinkLastValid(l: LinkedList, item: Item, r: LinkedList)
    requires Valid(l) && item.Id() !in l.nodes
    requires var id := item.Id();
      var nodes :=
        if l.tail.None? then l.nodes
        else l.nodes[l.tail.value := l.nodes[l.tail.value].(next := Some(id))];
      r == LinkedList(if l.tail.None? then Some(id) else l.head, Some(id),
                      nodes[id := Node(item, l.tail, None)], l.order + [id])
    ensures Valid(r)
  {
    var id := item.Id();
    var n := |l.order|;
    assert forall i :: 0 <= i < n ==> r.order[i] == l.order[i] && l.order[i] != id;
    assert r.order[n] == id;
    assert NoDup(r.order) by {
      forall i, j | 0 <= i < j < |r.order| ensures r.order[i] != r.order[j] {
        if j < n { assert l.order[i] != l.order[j]; }
      }
    }
    forall i | 0 <= i < |r.order|
      ensures r.order[i] in r.nodes
      ensures r.nodes[r.order[i]].prev == (if i == 0 then None else Some(r.order[i - 1]))
      ensures r.nodes[r.order[i]].next == (if i == |r.order| - 1 then None else Some(r.order[i + 1]))
    {
      if i == n {
        assert r.nodes[id].prev == l.tail;
        if n > 0 { assert r.order[n - 1] == l.order[n - 1]; }
      } else {
        LinkLastOld(l, item, r, i);
      }
    }
    forall k | k in r.nodes ensures k in r.order && r.nodes[k].item.Id() == k {
      if k != id { assert k in l.nodes; }
    }
  }

  /** The links of the node at position `i`. */
  lemma LinksAt(l: LinkedList, i: int)
    requires Valid(l) && 0 <= i < |l.order|
    ensures l.order[i] in l.nodes
    ensures l.nodes[l.order[i]].prev == (if i == 0 then None else Some(l.order[i - 1]))
    ensures l.nodes[l.order[i]].next == (if i == |l.order| - 1 then None else Some(l.order[i + 1]))
  {
  }

  /** Where `id` sits in the order. */
  function PositionOf(l: LinkedList, id: int): (p: nat)
    requires Valid(l) && id in l.nodes
    ensures p < |l.order| && l.order[p] == id
  {
    IndexOf(l.order, id)
  }

  /** The neighbours of an indexed node are the ids beside it in the order. */
  lemma Neighbours(l: LinkedList, id: int)
    requires Valid(l) && id in l.nodes
    ensures var node := l.nodes[id];
      && (node.prev.Some? ==> node.prev.value in l.nodes && node.prev.value != id)
      && (node.next.Some? ==> node.next.value in l.nodes && node.next.value != id)
      && (node.prev.Some? && node.next.Some? ==> node.prev.value != node.next.value)
      && (l.head == Some(id) <==> node.prev.None?)
      && (l.tail == Some(id) <==> node.next.None?)
  {
    var p := PositionOf(l, id);
    var n := |l.order|;
    LinksAt(l, p);
    if p > 0 { LinksAt(l, p - 1); assert l.order[p - 1] != l.order[p]; }
    if p < n - 1 { LinksAt(l, p + 1); assert l.order[p + 1] != l.order[p]; }
    if 0 < p < n - 1 { assert l.order[p - 1] != l.order[p + 1]; }
    if l.head == Some(id) { assert l.order[0] == l.order[p]; }
    if l.tail == Some(id) { assert l.order[n - 1] == l.order[p]; }
  }

  /** How `removeNode` leaves the index once the node is dropped: the
      predecessor points past it, the successor points back past it, every
      other node stays. */
  ghost predicate Unlinked(l: LinkedList, id: int, nodes: map<int, Node>)
    requires Valid(l) && id in l.nodes
  {
    var node := l.nodes[id];
    && (forall k :: k in nodes <==> k in l.nodes && k != id)
    && forall k :: k in nodes ==>
         nodes[k] == (if Some(k) == node.prev then l.nodes[k].(next := node.next)
                      else if Some(k) == node.next then l.nodes[k].(prev := node.prev)
                      else l.nodes[k])
  }

  /** The index after `removeNode`: the head branch or the predecessor's link
      first, then the tail branch or the successor's link; the node itself is
      then dropped from the index. */
  function RelinkedNodes(l: LinkedList, id: int): (nodes: map<int, Node>)
    requires Valid(l) && id in l.nodes
    ensures Unlinked(l, id, nodes)
  {
    Neighbours(l, id);
    var node := l.nodes[id];
    var nodes1 :=
      if l.head == Some(id) then
        (if node.next.Some? then l.nodes[node.next.value := l.nodes[node.next.value].(prev := None)] else l.nodes)
      else
        (if node.prev.Some? then l.nodes[node.prev.value := l.nodes[node.prev.value].(next := node.next)] else l.nodes);
    var nodes2 :=
      if l.tail == Some(id) then
        (if node.prev.Some? then nodes1[node.prev.value := nodes1[node.prev.value].(next := None)] else nodes1)
      else
        (if node.next.Some? then nodes1[node.next.value := nodes1[node.next.value].(prev := node.prev)] else nodes1);
    nodes2 - {id}
  }

  /** `removeNode` followed by dropping the node from the index. */
  function RemoveNode(l: LinkedList, id: int): (r: LinkedList)
    requires Valid(l) && id in l.nodes
    ensures Valid(r)
    ensures r.order == Without(l.order, id)
    ensures forall k :: k in r.nodes ==> k in l.nodes && r.nodes[k].item == l.nodes[k].item
  {
    var node := l.nodes[id];
    var head := if l.head == Some(id) then node.next else l.head;
    var tail := if l.tail == Some(id) then node.prev else l.tail;
    var r := LinkedList(head, tail, RelinkedNodes(l, id), Without(l.order, id));
    RemoveNodeValid(l, id, r);
    r
  }

  /** Dropping one id from a duplicate-free order leaves the ids before it in
      place and shifts the ids after it down by one. */
  lemma WithoutAt(s: seq<int>, p: nat)
    requires NoDup(s) && p < |s|
    ensures Without(s, s[p]) == s[..p] + s[p+1..]
  {
    RemoveFirstNoDup(s, s[p]);
    var i := IndexOf(s, s[p]);
    assert i == p;
  }

  /** The unlinked index spells out the shortened order. */
  lemma RemoveNodeValid(l: LinkedList, id: int, r: LinkedList)
    requires Valid(l) && id in l.nodes
    requires Unlinked(l, id, r.nodes)
    requires r.order == Without(l.order, id)
    requires r.head == (if l.head == Some(id) then l.nodes[id].next else l.head)
    requires r.tail == (if l.tail == Some(id) then l.nodes[id].prev else l.tail)
    ensures Valid(r)
    ensures forall k :: k in r.nodes ==> k in l.nodes && r.nodes[k].item == l.nodes[k].item
  {
    var p := PositionOf(l, id);
    var s := l.order;
    WithoutAt(s, p);
    WithoutNoDup(s, id);
    var o := r.order;
    assert |o| == |s| - 1;
    RemovedLinks(l, id, r, p);
    RemovedEnds(l, id, r, p);
    forall k | k in r.nodes
      ensures k in o && k in l.nodes && r.nodes[k].item == l.nodes[k].item && r.nodes[k].item.Id() == k
    {
      UnlinkedAt(l, id, r.nodes, k);
    }
  }

  lemma RemovedLinks(l: LinkedList, id: int, r: LinkedList, p: nat)
    requires Valid(l) && id in l.nodes && p == PositionOf(l, id)
    requires Unlinked(l, id, r.nodes)
    requires r.order == l.order[..p] + l.order[p+1..]
    ensures forall i :: 0 <= i < |r.order| ==> r.order[i] in r.nodes
    ensures forall i :: 0 <= i < |r.order| ==>
          r.nodes[r.order[i]].prev == (if i == 0 then None else Some(r.order[i - 1]))
    ensures forall i :: 0 <= i < |r.order| ==>
          r.nodes[r.order[i]].next == (if i == |r.order| - 1 then None else Some(r.order[i + 1]))
  {
    forall i | 0 <= i < |r.order| ensures r.order[i] in r.nodes {
      RemovedPrev(l, id, r, p, i);
    }
    forall i | 0 <= i < |r.order|
      ensures r.nodes[r.order[i]].prev == (if i == 0 then None else Some(r.order[i - 1]))
    {
      RemovedPrev(l, id, r, p, i);
    }
    forall i | 0 <= i < |r.order|
      ensures r.nodes[r.order[i]].next == (if i == |r.order| - 1 then None else Some(r.order[i + 1]))
    {
      RemovedNext(l, id, r, p, i);
    }
  }

  /** An unlinked index keeps every other node's item. */
  lemma UnlinkedAt(l: LinkedList, id: int, nodes: map<int, Node>, k: int)
    requires Valid(l) && id in l.nodes
    requires Unlinked(l, id, nodes)
    requires k in nodes
    ensures k in l.nodes && k != id && k in Without(l.order, id)
    ensures nodes[k].item == l.nodes[k].item
  {
  }

  lemma RemovedEnds(l: LinkedList, id: int, r: LinkedList, p: nat)
    requires Valid(l) && id in l.nodes && p == PositionOf(l, id)
    requires r.order == l.order[..p] + l.order[p+1..]
    requires r.head == (if l.head == Some(id) then l.nodes[id].next else l.head)
    requires r.tail == (if l.tail == Some(id) then l.nodes[id].prev else l.tail)
    ensures r.head == (if |r.order| == 0 then None else Some(r.order[0]))
    ensures r.tail == (if |r.order| == 0 then None else Some(r.order[|r.order| - 1]))
  {
    var s := l.order;
    var n := |s|;
    var node := l.nodes[id];
    LinksAt(l, p);
    if p == 0 {
      assert l.head == Some(id);
      if n > 1 { assert r.order[0] == s[1]; }
    } else {
      assert s[0] != s[p];
      assert r.order[0] == s[0];
    }
    if p == n - 1 {
      assert l.tail == Some(id);
      if n > 1 { assert r.order[|r.order| - 1] == s[n - 2]; }
    } else {
      assert s[n - 1] != s[p];
      assert r.order[|r.order| - 1] == s[n - 1];
    }
  }

  /** The unlinked index at one remaining node: the predecessor's `next`
      and the successor's `prev` are rewired, everything else kept. */
  lemma UnlinkedLinks(l: LinkedList, id: int, nodes: map<int, Node>, k: int)
    requires Valid(l) && id in l.nodes
    requires Unlinked(l, id, nodes)
    requires k in nodes
    ensures k in l.nodes
    ensures nodes[k].next == (if Some(k) == l.nodes[id].prev then l.nodes[id].next else l.nodes[k].next)
    ensures nodes[k].prev == (if Some(k) == l.nodes[id].next && Some(k) != l.nodes[id].prev
                              then l.nodes[id].prev else l.nodes[k].prev)
  {
  }

  lemma RemovedPrev(l: LinkedList, id: int, r: LinkedList, p: nat, i: nat)
    requires Valid(l) && id in l.nodes && p == PositionOf(l, id)
    requires Unlinked(l, id, r.nodes)
    requires r.order == l.order[..p] + l.order[p+1..]
    requires i < |r.order|
    ensures r.order[i] in r.nodes
    ensures r.nodes[r.order[i]].prev == (if i == 0 then None else Some(r.order[i - 1]))
  {
    var s := l.order;
    var node := l.nodes[id];
    var j := if i < p then i else i + 1;
    assert r.order[i] == s[j];
    LinksAt(l, p);
    LinksAt(l, j);
    assert s[j] != id && s[j] in r.nodes;
    if i > 0 {
      assert r.order[i - 1] == s[if i - 1 < p then i - 1 else i];
    }
    UnlinkedLinks(l, id, r.nodes, s[j]);
    if j == p + 1 {
      assert Some(s[j]) == node.next;
      assert p > 0 ==> s[j] != s[p - 1];
      assert r.nodes[s[j]].prev == node.prev;
    } else {
      assert node.next != Some(s[j]);
      assert r.nodes[s[j]].prev == l.nodes[s[j]].prev;
      assert l.nodes[s[j]].prev == (if j == 0 then None else Some(s[j - 1]));
      if j > p + 1 {
        assert r.order[i - 1] == s[j - 1];
      }
    }
  }

  lemma RemovedNext(l: LinkedList, id: int, r: LinkedList, p: nat, i: nat)
    requires Valid(l) && id in l.nodes && p == PositionOf(l, id)
    requires Unlinked(l, id, r.nodes)
    requires r.order == l.order[..p] + l.order[p+1..]
    requires i < |r.order|
    ensures r.order[i] in r.nodes
    ensures r.nodes[r.order[i]].next == (if i == |r.order| - 1 then None else Some(r.order[i + 1]))
  {
    var s := l.order;
    var node := l.nodes[id];
    var j := if i < p then i else i + 1;
    assert r.order[i] == s[j];
    LinksAt(l, p);
    LinksAt(l, j);
    assert s[j] != id && s[j] in r.nodes;
    if i < |r.order| - 1 {
      assert r.order[i + 1] == s[if i + 1 < p then i + 1 else i + 2];
    }
    UnlinkedLinks(l, id, r.nodes, s[j]);
    if p > 0 {
      assert Some(s[j]) == node.prev <==> j == p - 1;
    }
  }

  /** `add`: an already indexed id is unlinked first; then the item becomes the
      new tail and is indexed. */
  function Add(l: LinkedList, item: Item): (r: LinkedList)
    requires Valid(l)
    ensures Valid(r)
    ensures r.order == Without(l.order, item.Id()) + [item.Id()]
    ensures Items(r) == WithoutId(Items(l), item.Id()) + [item]
    ensures item.Id() in l.nodes ==> |r.order| == |l.order|
    ensures item.Id() !in l.nodes ==> |r.order| == |l.order| + 1
  {
    var l1 := Remove(l, item.Id());
    var r := LinkLast(l1, item);
    LinkLastItems(l1, item, r);
    RemoveLength(l, item.Id());
    r
  }

  /** Linking at the tail appends the item to the contents. */
  lemma LinkLastItems(l: LinkedList, item: Item, r: LinkedList)
    requires Valid(l) && Valid(r)
    requires r.order == l.order + [item.Id()]
    requires r.nodes[item.Id()].item == item
    requires forall k :: k in l.nodes ==> k in r.nodes && r.nodes[k].item == l.nodes[k].item
    ensures Items(r) == Items(l) + [item]
  {
    assert forall i :: 0 <= i < |l.order| ==> r.order[i] == l.order[i];
  }

  /** Unlinking an indexed id shortens the order by one. */
  lemma RemoveLength(l: LinkedList, id: int)
    requires Valid(l)
    ensures id in l.nodes ==> |Without(l.order, id)| == |l.order| - 1
  {
    if id in l.nodes {
      WithoutAt(l.order, PositionOf(l, id));
    }
  }

  /** `remove`: unlinks and de-indexes the node of `id`; a no-op when absent. */
  function Remove(l: LinkedList, id: int): (r: LinkedList)
    requires Valid(l)
    ensures Valid(r)
    ensures r.order == Without(l.order, id)
    ensures Items(r) == WithoutId(Items(l), id)
    ensures id !in r.nodes
    ensures id !in l.nodes ==> r == l
    ensures forall k :: k in r.nodes ==> k in l.nodes && r.nodes[k].item == l.nodes[k].item
  {
    var r := if id in l.nodes then RemoveNode(l, id) else l;
    ItemsOfWithout(l, r, id);
    r
  }

  /** Removing an id from the order removes exactly its item from the contents. */
  lemma ItemsOfWithout(l: LinkedList, r: LinkedList, id: int)
    requires Valid(l) && Valid(r)
    requires r.order == Without(l.order, id)
    requires forall k :: k in r.nodes ==> k in l.nodes && r.nodes[k].item == l.nodes[k].item
    ensures Items(r) == WithoutId(Items(l), id)
  {
    ItemsOfWithoutRec(l.nodes, r.nodes, l.order, id);
  }

  lemma {:induction false} ItemsOfWithoutRec(nodes: map<int, Node>, nodes': map<int, Node>, ids: seq<int>, id: int)
    requires forall i :: 0 <= i < |ids| ==> ids[i] in nodes
    requires forall k :: k in nodes ==> nodes[k].item.Id() == k
    requires forall k :: k in ids && k != id ==> k in nodes' && k in nodes && nodes'[k].item == nodes[k].item
    ensures forall i :: 0 <= i < |Without(ids, id)| ==> Without(ids, id)[i] in nodes'
    ensures ItemsOf(nodes', Without(ids, id)) == WithoutId(ItemsOf(nodes, ids), id)
  {
    var w := Without(ids, id);
    forall i | 0 <= i < |w| ensures w[i] in nodes' {
      assert w[i] in w;
    }
    if |ids| > 0 {
      var tail := ids[1..];
      assert forall k :: k in tail ==> k in ids;
      ItemsOfWithoutRec(nodes, nodes', tail, id);
      var items := ItemsOf(nodes, ids);
      assert items == [nodes[ids[0]].item] + ItemsOf(nodes, tail);
      assert items[1..] == ItemsOf(nodes, tail);
      assert items[0].Id() == ids[0];
      if ids[0] != id {
        assert w == [ids[0]] + Without(tail, id);
        assert ItemsOf(nodes', w) == [nodes'[ids[0]].item] + ItemsOf(nodes', Without(tail, id));
      } else {
        assert w == Without(tail, id);
      }
    }
  }


  /** `getTasks`: follows `next` links from the head, collecting the items. */
  method GetTasks(l: LinkedList) returns (r: seq<Item>)
    requires Valid(l)
    ensures r == Items(l)
  {
    r := [];
    var cur := l.head;
    var k := 0;
    while cur.Some?
      invariant 0 <= k <= |l.order|
      invariant cur == if k < |l.order| then Some(l.order[k]) else None
      invariant r == Items(l)[..k]
      decreases |l.order| - k
    {
      var node := l.nodes[cur.value];
      r := r + [node.item];
      cur := node.next;
      k := k + 1;
    }
  }

  /** No id appears twice in the contents, and the index keys are exactly the
      ids of the listed items. */
  lemma ItemsDistinct(l: LinkedList)
    requires Valid(l)
    ensures forall i, j :: 0 <= i < j < |Items(l)| ==> Items(l)[i].Id() != Items(l)[j].Id()
    ensures forall k :: k in l.nodes <==> exists i :: 0 <= i < |Items(l)| && Items(l)[i].Id() == k
  {
    var items := Items(l);
    forall k | k in l.nodes ensures exists i :: 0 <= i < |items| && items[i].Id() == k {
      var i := IndexOf(l.order, k);
      assert items[i].Id() == k;
    }
  }

  // ---------------------------------------------------------------------
  // `InMemoryHistoryManager`: a thin delegation layer.

  /** `addInHistory` delegates to `add`: the item moves to the most recent end. */
  function AddInHistory(h: LinkedList, item: Item): (r: LinkedList)
    requires Valid(h)
    ensures Valid(r)
    ensures Items(r) == WithoutId(Items(h), item.Id()) + [item]
  {
    Add(h, item)
  }

  /** `removeFromHistory` delegates to `remove`. */
  function RemoveFromHistory(h: LinkedList, id: int): (r: LinkedList)
    requires Valid(h)
    ensures Valid(r)
    ensures Items(r) == WithoutId(Items(h), id)
  {
    Remove(h, id)
  }

  /** `getHistory` delegates to `getTasks`. */
  method GetHistory(h: LinkedList) returns (r: seq<Item>)
    requires Valid(h)
    ensures r == Items(h)
  {
    r := GetTasks(h);
  }

  /** A fresh history is an empty list, not an absent one. */
  lemma FreshHistoryIsEmpty()
    ensures Items(Empty()) == []
  {
  }

  /** Recording the same task twice leaves one entry holding it. */
  lemma {:induction false} AddTwiceKeepsOne(item: Item)
    ensures Items(AddInHistory(AddInHistory(Empty(), item), item)) == [item]
  {
    var h1 := AddInHistory(Empty(), item);
    assert Items(h1) == [item];
    assert WithoutId([item], item.Id()) == [];
  }

  /** Recording task 1 then task 2 and then forgetting task 1 leaves exactly task 2. */
  lemma {:induction false} AddTwoRemoveFirst(a: Item, b: Item)
    requires a.Id() != b.Id()
    ensures Items(RemoveFromHistory(AddInHistory(AddInHistory(Empty(), a), b), a.Id())) == [b]
  {
    var h1 := AddInHistory(Empty(), a);
    assert Items(h1) == [a];
    assert WithoutId([a], b.Id()) == [a];
    var h2 := AddInHistory(h1, b);
    assert Items(h2) == [a, b];
    assert [a, b][1..] == [b];
    assert WithoutId([b], a.Id()) == [b] + WithoutId([], a.Id());
    assert WithoutId([a, b], a.Id()) == [b];
  }
}

=== FILE: legacy.dfy ===
/** The earlier manager of `src/TaskManager.java` and the capped history of
    `src/InMemoryHistoryManager.java`. The manager has no prioritized set and
    no history, an epic without subtasks rolls up to DONE, and a missing map
    entry surfaces as an exception rather than a message. */
module Legacy {
  import opened Optional
  import opened Seqs
  import opened Model
  import opened RollUp
  import opened ManagerState
  import CreateOps

  datatype LegacyManager = LegacyManager(
    tasks: map<int, Task>,
    epics: map<int, Epic>,
    subtasks: map<int, Subtask>,
    id: int)

  /** A call that returns normally, or one that throws (a
      `NullPointerException` or an `IndexOutOfBoundsException`) and leaves
      the manager as far as it had got. */
  datatype Attempt = Ok(state: LegacyManager) | Thrown(state: LegacyManager)

  function NewLegacy(): LegacyManager
  {
    LegacyManager(map[], map[], map[], 0)
  }

  /** Ids come from the counter and are stored under themselves; epics and
      subtasks point at each other. */
  ghost predicate LegacyInv(m: LegacyManager)
  {
    && m.id >= 0
    && (forall k :: k in m.tasks ==> 0 < k <= m.id && m.tasks[k].id == k)
    && (forall k :: k in m.epics ==> 0 < k <= m.id && m.epics[k].base.id == k)
    && (forall k :: k in m.subtasks ==> 0 < k <= m.id && m.subtasks[k].base.id == k)
    && Linked(m.epics, m.subtasks)
  }

  lemma NewLegacyInv()
    ensures LegacyInv(NewLegacy())
  {
  }

  /** `generateId`: the counter is incremented first, so ids start at 1 and
      the new one is above every id in use. The counter is unbounded: it is
      Java's `++id` only while the old value is below `Integer.MAX_VALUE`. */
  function GenerateId(m: LegacyManager): (r: (LegacyManager, int))
    ensures r.1 == m.id + 1 && r.0.id == r.1
    ensures IntMin <= m.id < IntMax ==> r.1 == JavaIncrement(m.id)
    ensures r.0.tasks == m.tasks && r.0.epics == m.epics && r.0.subtasks == m.subtasks
  {
    var id := m.id + 1;
    (m.(id := id), id)
  }

  /** The first two ids handed out by a new manager are 1 and 2, and under
      the invariant the next id is not in use. */
  lemma GenerateIdSequence(m: LegacyManager)
    requires LegacyInv(m)
    ensures GenerateId(NewLegacy()).1 == 1 && GenerateId(GenerateId(NewLegacy()).0).1 == 2
    ensures var id := GenerateId(m).1;
            id !in m.tasks && id !in m.epics && id !in m.subtasks
  {
  }

  // ---------------------------------------------------------------------
  // `updateStatus`.

  /** The status rule of `updateStatus`: all DONE, or no subtasks at all,
      gives DONE; otherwise all NEW gives NEW; anything else IN_PROGRESS. */
  function LegacyRollUp(subs: seq<Subtask>): (r: Status)
    ensures r == DONE <==> AllHave(subs, DONE)
    ensures r == NEW <==> |subs| > 0 && AllHave(subs, NEW)
    ensures r == IN_PROGRESS <==> !AllHave(subs, DONE) && !AllHave(subs, NEW)
  {
    var total := |subs|;
    if total == Count(subs, DONE) || total == 0 then DONE
    else if total == Count(subs, NEW) then NEW
    else IN_PROGRESS
  }

  /** The earlier rule and `updateEpicStatus` part only on an epic without
      subtasks: DONE there, NEW now. */
  lemma LegacyRollUpDiffersOnlyWhenEmpty(subs: seq<Subtask>)
    ensures LegacyRollUp(subs) == MixedRollUp(subs) <==> |subs| > 0
    ensures |subs| == 0 ==> LegacyRollUp(subs) == DONE && MixedRollUp(subs) == NEW
  {
    if |subs| > 0 && AllHave(subs, NEW) {
      assert subs[0].base.status == NEW;
    }
  }

  predicate AllStored(ids: seq<int>, subtasks: map<int, Subtask>)
  {
    forall i :: 0 <= i < |ids| ==> ids[i] in subtasks
  }

  /** The status `updateStatus` gives an epic listing `ids`: `None` when a
      listed id is not stored, where the loop dereferences `null`. */
  function LegacyStatus(ids: seq<int>, subtasks: map<int, Subtask>): Option<Status>
  {
    if AllStored(ids, subtasks) then Some(LegacyRollUp(SubtasksOf(subtasks, ids))) else None
  }

  /** Counting one more subtask at the end of a prefix. */
  lemma {:induction false} CountSnoc(subs: seq<Subtask>, s: Subtask, st: Status)
    ensures Count(subs + [s], st) == Count(subs, st) + (if s.base.status == st then 1 else 0)
  {
    if |subs| > 0 {
      CountSnoc(subs[1..], s, st);
      assert (subs + [s])[1..] == subs[1..] + [s];
    } else {
      assert ([] + [s])[1..] == [];
    }
  }

  lemma AllStoredSnoc(subtasks: map<int, Subtask>, ids: seq<int>, i: int)
    requires 0 <= i < |ids| && AllStored(ids[..i], subtasks) && ids[i] in subtasks
    ensures AllStored(ids[..i + 1], subtasks)
  {
    var pre, t := ids[..i], ids[..i + 1];
    forall j | 0 <= j < |t| ensures t[j] in subtasks {
      if j < i {
        assert t[j] == pre[j];
      }
    }
  }

  /** One more listed id read: the subtasks seen so far grow by the one
      stored under it. */
  lemma SubtasksOfSnoc(subtasks: map<int, Subtask>, ids: seq<int>, i: int)
    requires 0 <= i < |ids| && AllStored(ids[..i + 1], subtasks)
    ensures AllStored(ids[..i], subtasks) && ids[i] in subtasks
    ensures SubtasksOf(subtasks, ids[..i + 1]) == SubtasksOf(subtasks, ids[..i]) + [subtasks[ids[i]]]
  {
    assert ids[..i + 1][i] == ids[i];
    assert forall j :: 0 <= j < i ==> ids[..i][j] == ids[..i + 1][j];
  }

  /** The counting loop of `updateStatus`, over the listed ids in order. */
  method UpdateStatusLoop(ids: seq<int>, subtasks: map<int, Subtask>) returns (r: Option<Status>)
    ensures r == LegacyStatus(ids, subtasks)
  {
    var statusNew, statusDone := 0, 0;
    var i := 0;
    ghost var seen: seq<Subtask> := [];
    while i < |ids|
      invariant 0 <= i <= |ids|
      invariant AllStored(ids[..i], subtasks)
      invariant seen == SubtasksOf(subtasks, ids[..i])
      invariant statusDone == Count(seen, DONE)
      invariant statusNew == Count(seen, NEW)
    {
      if ids[i] !in subtasks {
        assert !AllStored(ids, subtasks);
        return None;
      }
      var s := subtasks[ids[i]];
      AllStoredSnoc(subtasks, ids, i);
      SubtasksOfSnoc(subtasks, ids, i);
      CountSnoc(seen, s, DONE);
      CountSnoc(seen, s, NEW);
      if s.base.status == DONE {
        statusDone := statusDone + 1;
      } else if s.base.status == NEW {
        statusNew := statusNew + 1;
      }
      seen := seen + [s];
      i := i + 1;
    }
    assert ids[..i] == ids;
    assert |seen| == |ids|;
    if |ids| == statusDone || |ids| == 0 {
      r := Some(DONE);
    } else if |ids| == statusNew {
      r := Some(NEW);
    } else {
      r := Some(IN_PROGRESS);
    }
  }

  /** `updateStatus(id)` on the manager: throws for an unknown epic or a
      listed id that is not stored; otherwise only that epic's status
      changes. */
  function UpdateStatus(m: LegacyManager, id: int): (r: Attempt)
    ensures r.Ok? <==> id in m.epics && AllStored(m.epics[id].subtaskIds, m.subtasks)
    ensures r.Thrown? ==> r.state == m
    ensures r.Ok? ==>
      && r.state.epics.Keys == m.epics.Keys
      && r.state.epics[id].base.status == LegacyRollUp(SubtasksOf(m.subtasks, m.epics[id].subtaskIds))
      && r.state.epics[id] == m.epics[id].(base := m.epics[id].base.(status := r.state.epics[id].base.status))
      && (forall k :: k in m.epics && k != id ==> r.state.epics[k] == m.epics[k])
    ensures r.state.tasks == m.tasks && r.state.subtasks == m.subtasks && r.state.id == m.id
  {
    if id !in m.epics then Thrown(m)
    else
      match LegacyStatus(m.epics[id].subtaskIds, m.subtasks)
      case None => Thrown(m)
      case Some(st) => Ok(m.(epics := m.epics[id := m.epics[id].(base := SetStatus(m.epics[id].base, st))]))
  }

  /** Under the invariant every epic's list is stored, so the status update
      of an existing epic never throws, and it keeps the invariant. */
  lemma UpdateStatusKeepsInv(m: LegacyManager, id: int)
    requires LegacyInv(m) && id in m.epics
    ensures UpdateStatus(m, id).Ok? && LegacyInv(UpdateStatus(m, id).state)
  {
    var r := UpdateStatus(m, id).state;
    LinkedSameLists(m.epics, r.epics, m.subtasks);
  }

  // ---------------------------------------------------------------------
  // Creating, reading and updating.

  /** `createTask`: the task gets the next id and is stored. */
  function CreateTask(m: LegacyManager, t: Task): (r: LegacyManager)
    ensures r.id == m.id + 1 && r.tasks == m.tasks[r.id := t.(id := r.id)]
    ensures r.epics == m.epics && r.subtasks == m.subtasks
    ensures LegacyInv(m) ==> LegacyInv(r)
  {
    var (m1, id) := GenerateId(m);
    m1.(tasks := m1.tasks[id := t.(id := id)])
  }

  /** `createEpic`: the epic gets the next id and is stored with the list it
      came with. */
  function CreateEpic(m: LegacyManager, e: Epic): (r: LegacyManager)
    ensures r.id == m.id + 1 && r.epics == m.epics[r.id := e.(base := e.base.(id := r.id))]
    ensures r.tasks == m.tasks && r.subtasks == m.subtasks
    ensures LegacyInv(m) && e.subtaskIds == [] ==> LegacyInv(r)
  {
    var (m1, id) := GenerateId(m);
    var r := m1.(epics := m1.epics[id := e.(base := e.base.(id := id))]);
    assert LegacyInv(m) && e.subtaskIds == [] ==> Linked(r.epics, r.subtasks) by {
      if LegacyInv(m) && e.subtaskIds == [] {
        forall k | k in r.subtasks
          ensures r.subtasks[k].epicId in r.epics && k in r.epics[r.subtasks[k].epicId].subtaskIds
        {
          assert r.subtasks[k].epicId in m.epics;
        }
      }
    }
    r
  }

  /** `createSubtask`: the id is taken first, and an unknown epic then
      throws. Otherwise the id is appended to the epic's list, the subtask
      stored, and the epic's status updated. */
  function CreateSubtask(m: LegacyManager, s: Subtask): (r: Attempt)
    ensures r.state.id == m.id + 1 && r.state.tasks == m.tasks
    ensures s.epicId !in m.epics ==> r == Thrown(m.(id := m.id + 1))
    ensures s.epicId in m.epics ==>
      var id := m.id + 1;
      && r.state.subtasks == m.subtasks[id := s.(base := s.base.(id := id))]
      && r.state.epics.Keys == m.epics.Keys
      && r.state.epics[s.epicId].subtaskIds == m.epics[s.epicId].subtaskIds + [id]
      && r.state.epics[s.epicId].base == m.epics[s.epicId].base.(status := r.state.epics[s.epicId].base.status)
      && r.state.epics[s.epicId].endTime == m.epics[s.epicId].endTime
      && (r.Thrown? ==> r.state.epics[s.epicId].base == m.epics[s.epicId].base)
      && (forall k :: k in m.epics && k != s.epicId ==> r.state.epics[k] == m.epics[k])
      && (r.Ok? ==> && AllStored(r.state.epics[s.epicId].subtaskIds, r.state.subtasks)
                    && r.state.epics[s.epicId].base.status
                         == LegacyRollUp(SubtasksOf(r.state.subtasks, r.state.epics[s.epicId].subtaskIds)))
  {
    var m1 := GenerateId(m).0;
    if s.epicId !in m1.epics then Thrown(m1)
    else UpdateStatus(Attached(m1, s.(base := s.base.(id := m1.id))), s.epicId)
  }

  /** The manager once subtask `s` is listed by its epic and stored. */
  function Attached(m: LegacyManager, s: Subtask): LegacyManager
    requires s.epicId in m.epics
  {
    m.(epics := m.epics[s.epicId := AddSubtaskId(m.epics[s.epicId], s.base.id)],
       subtasks := m.subtasks[s.base.id := s])
  }

  lemma AttachedKeepsInv(m: LegacyManager, s: Subtask)
    requires LegacyInv(m) && s.epicId in m.epics && s.base.id == m.id + 1
    ensures LegacyInv(Attached(m.(id := m.id + 1), s))
  {
    CreateOps.AttachLinked(m.epics, m.subtasks, s);
  }

  /** Under the invariant creating a subtask throws only for an unknown
      epic, and the invariant survives either way. */
  lemma CreateSubtaskKeepsInv(m: LegacyManager, s: Subtask)
    requires LegacyInv(m)
    ensures CreateSubtask(m, s).Ok? <==> s.epicId in m.epics
    ensures LegacyInv(CreateSubtask(m, s).state)
  {
    var m1 := m.(id := m.id + 1);
    if s.epicId in m.epics {
      var stored := s.(base := s.base.(id := m1.id));
      AttachedKeepsInv(m, stored);
      UpdateStatusKeepsInv(Attached(m1, stored), s.epicId);
      assert CreateSubtask(m, s) == UpdateStatus(Attached(m1, stored), s.epicId);
    } else {
      assert CreateSubtask(m, s) == Thrown(m1);
    }
  }

  /** `getTaskById`, `getEpicById`, `getSubtaskById`: a plain map read; the
      earlier manager keeps no history. */
  function GetById<V>(values: map<int, V>, id: int): (r: Option<V>)
    ensures r.Some? <==> id in values
    ensures r.Some? ==> r.value == values[id]
  {
    if id in values then Some(values[id]) else None
  }

  /** `getSubtasksByEpicId`: throws for an unknown epic; otherwise the map's
      answer for each listed id, `null` (here `None`) included. */
  function GetSubtasksByEpicId(m: LegacyManager, id: int): (r: Option<seq<Option<Subtask>>>)
    ensures r.Some? <==> id in m.epics
    ensures r.Some? ==> |r.value| == |m.epics[id].subtaskIds|
    ensures r.Some? ==> forall i :: 0 <= i < |r.value| ==> r.value[i] == GetById(m.subtasks, m.epics[id].subtaskIds[i])
  {
    if id !in m.epics then None
    else
      var ids := m.epics[id].subtaskIds;
      Some(seq(|ids|, i requires 0 <= i < |ids| => GetById(m.subtasks, ids[i])))
  }

  /** Under the invariant an epic's answer holds no `null` and is exactly
      its stored subtasks in list order. */
  lemma GetSubtasksByEpicIdComplete(m: LegacyManager, id: int)
    requires LegacyInv(m) && id in m.epics
    ensures forall i :: 0 <= i < |m.epics[id].subtaskIds| ==>
              GetSubtasksByEpicId(m, id).value[i] == Some(SubtasksOf(m.subtasks, m.epics[id].subtaskIds)[i])
  {
  }

  /** `updateTask`: stores the task under its id, known or not. */
  function UpdateTask(m: LegacyManager, t: Task): (r: LegacyManager)
    ensures r.tasks == m.tasks[t.id := t] && r.epics == m.epics && r.subtasks == m.subtasks && r.id == m.id
  {
    m.(tasks := m.tasks[t.id := t])
  }

  /** `updateEpic`: throws for an unknown id; otherwise the given epic
      replaces the stored one but takes over its list and status. */
  function UpdateEpic(m: LegacyManager, e: Epic): (r: Attempt)
    ensures r.Ok? <==> e.base.id in m.epics
    ensures r.Thrown? ==> r.state == m
    ensures r.Ok? ==>
      var stored := m.epics[e.base.id];
      && r.state.epics.Keys == m.epics.Keys
      && r.state.epics[e.base.id].subtaskIds == stored.subtaskIds
      && r.state.epics[e.base.id].base.status == stored.base.status
      && r.state.epics[e.base.id].base.title == e.base.title
      && r.state.epics[e.base.id].base.description == e.base.description
      && r.state.epics[e.base.id].endTime == e.endTime
      && (forall k :: k in m.epics && k != e.base.id ==> r.state.epics[k] == m.epics[k])
    ensures r.state.tasks == m.tasks && r.state.subtasks == m.subtasks && r.state.id == m.id
    ensures LegacyInv(m) ==> LegacyInv(r.state)
  {
    var id := e.base.id;
    if id !in m.epics then Thrown(m)
    else
      var stored := m.epics[id];
      var r := m.(epics := m.epics[id := e.(subtaskIds := stored.subtaskIds, base := SetStatus(e.base, stored.base.status))]);
      LinkedSameListsIf(m.epics, r.epics, m.subtasks);
      Ok(r)
  }

  lemma LinkedSameListsIf(epics: map<int, Epic>, epics': map<int, Epic>, subtasks: map<int, Subtask>)
    requires epics'.Keys == epics.Keys
    requires forall k :: k in epics ==> epics'[k].subtaskIds == epics[k].subtaskIds
    ensures Linked(epics, subtasks) ==> Linked(epics', subtasks)
  {
    if Linked(epics, subtasks) {
      LinkedSameLists(epics, epics', subtasks);
    }
  }

  /** `updateSubtask`: stores the subtask under its id, then updates the
      status of the epic it names, which throws if that epic is unknown. */
  function UpdateSubtask(m: LegacyManager, s: Subtask): (r: Attempt)
    ensures r.state.subtasks == m.subtasks[s.base.id := s]
    ensures r.Ok? <==> s.epicId in m.epics && AllStored(m.epics[s.epicId].subtaskIds, m.subtasks[s.base.id := s])
    ensures r.Ok? ==>
      s.epicId in r.state.epics &&
      r.state.epics[s.epicId].base.status
        == LegacyRollUp(SubtasksOf(r.state.subtasks, m.epics[s.epicId].subtaskIds))
    ensures r.Ok? ==>
      && r.state.epics.Keys == m.epics.Keys
      && r.state.epics[s.epicId] == m.epics[s.epicId].(base := m.epics[s.epicId].base.(status := r.state.epics[s.epicId].base.status))
      && (forall k :: k in m.epics && k != s.epicId ==> r.state.epics[k] == m.epics[k])
    ensures r.Thrown? ==> r.state.epics == m.epics
    ensures r.state.tasks == m.tasks && r.state.id == m.id
  {
    UpdateStatus(m.(subtasks := m.subtasks[s.base.id := s]), s.epicId)
  }

  // ---------------------------------------------------------------------
  // Deleting.

  /** `deleteTaskById`. */
  function DeleteTaskById(m: LegacyManager, id: int): (r: LegacyManager)
    ensures r.tasks == m.tasks - {id} && r.epics == m.epics && r.subtasks == m.subtasks && r.id == m.id
  {
    if id in m.tasks then m.(tasks := m.tasks - {id}) else m
  }

  /** `deleteEpicById`: the listed subtasks and then the epic are removed;
      an unknown id changes nothing. */
  function DeleteEpicById(m: LegacyManager, id: int): (r: LegacyManager)
    ensures id !in m.epics ==> r == m
    ensures id in m.epics ==>
      && r.epics == m.epics - {id}
      && (forall k :: k in r.subtasks <==> k in m.subtasks && k !in m.epics[id].subtaskIds)
      && (forall k :: k in r.subtasks ==> r.subtasks[k] == m.subtasks[k])
    ensures r.tasks == m.tasks && r.id == m.id
  {
    if id in m.epics then
      var listed := m.epics[id].subtaskIds;
      m.(subtasks := map k | k in m.subtasks && k !in listed :: m.subtasks[k], epics := m.epics - {id})
    else m
  }

  /** Deleting an epic takes exactly its subtasks and keeps the invariant. */
  lemma DeleteEpicByIdKeepsInv(m: LegacyManager, id: int)
    requires LegacyInv(m) && id in m.epics
    ensures LegacyInv(DeleteEpicById(m, id))
    ensures forall k :: k in DeleteEpicById(m, id).subtasks <==> k in m.subtasks && m.subtasks[k].epicId != id
  {
    var r := DeleteEpicById(m, id);
    var listed := m.epics[id].subtaskIds;
    forall k | k in m.subtasks ensures k in listed <==> m.subtasks[k].epicId == id {
      if k in listed {
        var j := IndexOf(listed, k);
        assert m.subtasks[listed[j]].epicId == id;
      }
    }
    forall k, i | k in r.epics && 0 <= i < |r.epics[k].subtaskIds|
      ensures r.epics[k].subtaskIds[i] in r.subtasks && r.subtasks[r.epics[k].subtaskIds[i]].epicId == k
    {
      var sid := r.epics[k].subtaskIds[i];
      assert sid in m.subtasks && m.subtasks[sid].epicId == k;
    }
  }

  /** `deleteSubtaskById` as written: `getSubtaskIds().remove(id)` with an
      `int` argument selects `List.remove(int index)`, so it removes the
      element at POSITION `id`, throwing when the list is shorter. A
      missing subtask or epic throws too. */
  function DeleteSubtaskByIdAsWritten(m: LegacyManager, id: int): (r: Attempt)
    ensures id !in m.subtasks ==> r == Thrown(m)
    ensures id in m.subtasks && m.subtasks[id].epicId in m.epics ==>
      var e := m.subtasks[id].epicId;
      var ids := m.epics[e].subtaskIds;
      && (!(0 <= id < |ids|) ==> r == Thrown(m))
      && (0 <= id < |ids| ==>
            && r.state.subtasks == m.subtasks - {id}
            && e in r.state.epics
            && |r.state.epics[e].subtaskIds| == |ids| - 1
            && r.state.epics[e].subtaskIds == ids[..id] + ids[id + 1..])
  {
    if id !in m.subtasks then Thrown(m)
    else
      var e := m.subtasks[id].epicId;
      if e !in m.epics then Thrown(m)
      else
        var ids := m.epics[e].subtaskIds;
        if !(0 <= id < |ids|) then Thrown(m)
        else
          var m1 := m.(epics := m.epics[e := m.epics[e].(subtaskIds := ids[..id] + ids[id + 1..])],
                       subtasks := m.subtasks - {id});
          UpdateStatus(m1, e)
  }

  /** `deleteSubtaskById` as intended: the id is removed from the list by
      value, as `Epic.deleteSubtaskId` does in the later manager. A missing
      subtask or epic still throws. */
  function DeleteSubtaskById(m: LegacyManager, id: int): (r: Attempt)
    ensures id !in m.subtasks ==> r == Thrown(m)
    ensures id in m.subtasks && m.subtasks[id].epicId in m.epics ==>
      var e := m.subtasks[id].epicId;
      && r.state.subtasks == m.subtasks - {id}
      && r.state.epics.Keys == m.epics.Keys
      && r.state.epics[e].subtaskIds == RemoveFirst(m.epics[e].subtaskIds, id)
      && (forall k :: k in m.epics && k != e ==> r.state.epics[k] == m.epics[k])
      && (r.Ok? ==> && AllStored(r.state.epics[e].subtaskIds, r.state.subtasks)
                    && r.state.epics[e].base.status
                         == LegacyRollUp(SubtasksOf(r.state.subtasks, r.state.epics[e].subtaskIds)))
  {
    if id !in m.subtasks then Thrown(m)
    else
      var e := m.subtasks[id].epicId;
      if e !in m.epics then Thrown(m)
      else UpdateStatus(Detached(m, id), e)
  }

  /** The manager once stored subtask `id` is unlisted by value and dropped. */
  function Detached(m: LegacyManager, id: int): LegacyManager
    requires id in m.subtasks && m.subtasks[id].epicId in m.epics
  {
    var e := m.subtasks[id].epicId;
    m.(epics := m.epics[e := DeleteSubtaskId(m.epics[e], id)], subtasks := m.subtasks - {id})
  }

  lemma DetachedKeepsInv(m: LegacyManager, id: int)
    requires LegacyInv(m) && id in m.subtasks
    ensures LegacyInv(Detached(m, id))
  {
    LinkedWithoutSubtask(m.epics, m.subtasks, id);
  }

  /** Under the invariant the intended removal throws only for an unknown
      id, unlists exactly that id, and keeps the invariant. */
  lemma DeleteSubtaskByIdKeepsInv(m: LegacyManager, id: int)
    requires LegacyInv(m)
    ensures DeleteSubtaskById(m, id).Ok? <==> id in m.subtasks
    ensures LegacyInv(DeleteSubtaskById(m, id).state)
    ensures id in m.subtasks ==>
      var e := m.subtasks[id].epicId;
      e in m.epics && DeleteSubtaskById(m, id).state.epics[e].subtaskIds == Without(m.epics[e].subtaskIds, id)
  {
    if id in m.subtasks {
      var e := m.subtasks[id].epicId;
      RemoveFirstNoDup(m.epics[e].subtaskIds, id);
      DetachedKeepsInv(m, id);
      UpdateStatusKeepsInv(Detached(m, id), e);
    }
  }

  /** Epic 1 listing subtasks 2 and 3. */
  function TwoSubtasks(): LegacyManager
  {
    LegacyManager(
      map[],
      map[1 := Epic(NewTaskWithId("e", "", 1, NEW), [2, 3], None)],
      map[2 := Subtask(NewTaskWithId("a", "", 2, NEW), 1), 3 := Subtask(NewTaskWithId("b", "", 3, NEW), 1)],
      3)
  }

  /** Epic 1 listing subtasks 2, 3 and 4. */
  function ThreeSubtasks(): LegacyManager
  {
    LegacyManager(
      map[],
      map[1 := Epic(NewTaskWithId("e", "", 1, NEW), [2, 3, 4], None)],
      map[2 := Subtask(NewTaskWithId("a", "", 2, NEW), 1), 3 := Subtask(NewTaskWithId("b", "", 3, NEW), 1),
          4 := Subtask(NewTaskWithId("c", "", 4, NEW), 1)],
      4)
  }

  /** Deleting subtask 2 of an epic listing two subtasks throws as written
      (position 2 is past the end), where the intended removal succeeds. */
  lemma AsWrittenThrowsOnShortList()
    ensures LegacyInv(TwoSubtasks())
    ensures DeleteSubtaskByIdAsWritten(TwoSubtasks(), 2).Thrown?
    ensures DeleteSubtaskById(TwoSubtasks(), 2).Ok?
  {
    var m := TwoSubtasks();
    assert m.epics[1].subtaskIds == [2, 3];
  }

  lemma ThreeSubtasksInv()
    ensures LegacyInv(ThreeSubtasks())
  {
    var m := ThreeSubtasks();
    assert m.epics[1].subtaskIds == [2, 3, 4];
  }

  /** With three subtasks listed, deleting subtask 2 as written unlists
      subtask 4 instead and then throws in the status update, leaving 2
      listed but no longer stored. */
  lemma AsWrittenUnlistsWrongSubtask()
    ensures var r := DeleteSubtaskByIdAsWritten(ThreeSubtasks(), 2);
            r.Thrown? && r.state.epics[1].subtaskIds == [2, 3] && 2 !in r.state.subtasks
            && !LegacyInv(r.state)
  {
    var m := ThreeSubtasks();
    var ids := m.epics[1].subtaskIds;
    assert ids == [2, 3, 4];
    assert ids[..2] + ids[3..] == [2, 3];
    var m1 := m.(epics := m.epics[1 := m.epics[1].(subtaskIds := [2, 3])], subtasks := m.subtasks - {2});
    assert !AllStored([2, 3], m1.subtasks) by {
      assert [2, 3][0] !in m1.subtasks;
    }
  }

  /** The intended removal of subtask 2 from the same epic unlists 2. */
  lemma IntendedUnlistsRightSubtask()
    ensures LegacyInv(ThreeSubtasks())
    ensures DeleteSubtaskById(ThreeSubtasks(), 2).Ok?
    ensures DeleteSubtaskById(ThreeSubtasks(), 2).state.epics[1].subtaskIds == [3, 4]
  {
    ThreeSubtasksInv();
    DeleteSubtaskByIdKeepsInv(ThreeSubtasks(), 2);
    assert Without([2, 3, 4], 2) == [3, 4];
  }

  /** `deleteAllTasks`. */
  function DeleteAllTasks(m: LegacyManager): (r: LegacyManager)
    ensures r.tasks == map[] && r.epics == m.epics && r.subtasks == m.subtasks && r.id == m.id
  {
    if m.tasks != map[] then m.(tasks := map[]) else m
  }

  /** `deleteAllEpics`: the subtasks go with the epics. */
  function DeleteAllEpics(m: LegacyManager): (r: LegacyManager)
    ensures r.epics == map[] && r.subtasks == (if m.epics == map[] then m.subtasks else map[])
    ensures r.tasks == m.tasks && r.id == m.id
    ensures LegacyInv(m) ==> LegacyInv(r)
  {
    if m.epics != map[] then m.(subtasks := map[], epics := map[]) else m
  }

  /** `deleteAllSubtasks`: every epic's list is cleared and its status
      updated, which for an empty list is DONE; then the subtasks go. */
  function DeleteAllSubtasks(m: LegacyManager): (r: LegacyManager)
    ensures r.subtasks == map[] && r.epics.Keys == m.epics.Keys
    ensures forall k :: k in r.epics ==>
              r.epics[k] == m.epics[k].(subtaskIds := [], base := m.epics[k].base.(status := DONE))
    ensures r.tasks == m.tasks && r.id == m.id
  {
    m.(epics := map k | k in m.epics :: Emptied(m.epics[k]), subtasks := map[])
  }

  /** An epic after its list is cleared and its status updated. */
  function Emptied(e: Epic): Epic
  {
    var cleared := ClearSubtaskIds(e);
    cleared.(base := SetStatus(cleared.base, LegacyRollUp([])))
  }

  /** Clearing every list leaves no dangling links. */
  lemma DeleteAllSubtasksKeepsInv(m: LegacyManager)
    requires LegacyInv(m)
    ensures LegacyInv(DeleteAllSubtasks(m))
  {
    var r := DeleteAllSubtasks(m);
    assert forall k :: k in r.epics ==> r.epics[k].subtaskIds == [] && r.epics[k].base.id == k;
  }

  // ---------------------------------------------------------------------
  // The capped history.

  const MaxHistory: nat := 10

  /** `addTask`: when the history is full its oldest entry is dropped, then
      the task is appended; repeats are kept. */
  function AddTask(h: seq<Item>, x: Item): (r: seq<Item>)
    ensures |r| == (if |h| >= MaxHistory then |h| else |h| + 1)
    ensures |h| <= MaxHistory ==> |r| <= MaxHistory
    ensures |r| > 0 && r[|r| - 1] == x
    ensures |h| < MaxHistory ==> r[..|h|] == h
    ensures |h| >= MaxHistory ==> r[..|r| - 1] == h[1..]
  {
    if |h| >= MaxHistory then h[1..] + [x] else h + [x]
  }

  /** Viewing `xs` one after another, oldest first. */
  function AddAll(h: seq<Item>, xs: seq<Item>): seq<Item>
    decreases |xs|
  {
    if |xs| == 0 then h else AddAll(AddTask(h, xs[0]), xs[1..])
  }

  function Min(a: int, b: int): int { if a < b then a else b }

  /** From an empty history, any run of views leaves exactly the last ten
      of them (or all, if fewer), in order. */
  lemma {:induction false} AddAllKeepsLastTen(xs: seq<Item>)
    ensures AddAll([], xs) == xs[|xs| - Min(|xs|, MaxHistory)..]
  {
    AddAllSuffix([], xs);
  }

  lemma {:induction false} AddAllSuffix(h: seq<Item>, xs: seq<Item>)
    requires |h| <= MaxHistory
    ensures var all := h + xs;
            AddAll(h, xs) == all[|all| - Min(|all|, MaxHistory)..]
    decreases |xs|
  {
    var all := h + xs;
    if |xs| == 0 {
      assert all == h;
    } else {
      var h1 := AddTask(h, xs[0]);
      var all1 := h1 + xs[1..];
      if |h| >= MaxHistory {
        assert h1 == h[1..] + [xs[0]];
        assert all1 == all[1..];
      } else {
        assert h1 == h + [xs[0]];
        assert all1 == all;
      }
      AddAllSuffix(h1, xs[1..]);
    }
  }

  /** There is no deduplication: viewing a task twice records it twice. */
  lemma RepeatsAreKept(h: seq<Item>, x: Item)
    ensures var r := AddTask(AddTask(h, x), x);
            |r| >= 2 && r[|r| - 1] == x && r[|r| - 2] == x
  {
    var r1 := AddTask(h, x);
    assert r1[|r1| - 1] == x;
  }
}

=== FILE: model.dfy ===
/** The entity classes: `Task`, its subclasses `Epic` and `Subtask`, their
    constructors, setters, derived end time, type tag and equality.
    Timestamps are whole minutes since an arbitrary epoch and durations are
    whole minutes; `None` is a `null` start or end time. */
module Model {
  import opened Optional
  import opened Seqs

  /** The range of a Java `int`. */
  const IntMin: int := -0x8000_0000
  const IntMax: int := 0x7fff_ffff

  predicate InInt(i: int) { IntMin <= i <= IntMax }

  /** Java's `++` on an `int`: the one value in range that is congruent to
      `x + 1` modulo 2^32, so `Integer.MAX_VALUE` wraps around. */
  function JavaIncrement(x: int): (r: int)
    requires InInt(x)
    ensures InInt(r) && (r - (x + 1)) % 0x1_0000_0000 == 0
  {
    if x == IntMax then IntMin else x + 1
  }

  /** Only `Integer.MAX_VALUE` is not followed by one more; it is followed by
      the most negative `int`. */
  lemma JavaIncrementWraps(x: int)
    requires InInt(x)
    ensures JavaIncrement(x) == x + 1 <==> x < IntMax
    ensures JavaIncrement(x) < 0 <==> x == IntMax || x < -1
  {
  }

  datatype Status = NEW | IN_PROGRESS | DONE
  datatype TaskType = TASK | EPIC | SUBTASK

  /** The fields declared in `Task`. */
  datatype Task = Task(
    id: int,
    title: string,
    description: string,
    status: Status,
    start: Option<int>,
    duration: int)

  /** `Epic extends Task`: its own ordered subtask-id list and a STORED end
      time (it overrides `getEndTime`). */
  datatype Epic = Epic(base: Task, subtaskIds: seq<int>, endTime: Option<int>)

  /** `Subtask extends Task`: the owning epic's id, which has no setter. */
  datatype Subtask = Subtask(base: Task, epicId: int)

  /** An object of any of the three classes, as held by the history and the
      prioritized set. */
  datatype Item = PlainItem(task: Task) | EpicItem(epic: Epic) | SubtaskItem(subtask: Subtask)
  {
    function Base(): Task
    {
      match this
      case PlainItem(t) => t
      case EpicItem(e) => e.base
      case SubtaskItem(s) => s.base
    }

    function Id(): int { Base().id }

    function Start(): Option<int> { Base().start }

    /** `getType()`, dispatched on the runtime class. */
    function Type(): (r: TaskType)
      ensures r == TASK <==> PlainItem?
      ensures r == EPIC <==> EpicItem?
      ensures r == SUBTASK <==> SubtaskItem?
    {
      match this
      case PlainItem(_) => TASK
      case EpicItem(_) => EPIC
      case SubtaskItem(_) => SUBTASK
    }

    /** `getEndTime()`, dispatched on the runtime class: an epic answers its
        stored field, every other object derives it from start and duration. */
    function EndTime(): Option<int>
    {
      match this
      case EpicItem(e) => e.endTime
      case _ => TaskEndTime(Base())
    }
  }

  /** `Task.getEndTime`: the start shifted by the duration in whole minutes. */
  function TaskEndTime(t: Task): (r: Option<int>)
    ensures r.None? <==> t.start.None?
    ensures r.Some? ==> r.value - t.start.value == t.duration
  {
    match t.start
    case None => None
    case Some(s) => Some(s + t.duration)
  }

  // ---------------------------------------------------------------------
  // Constructors. Java overloads them; here each gets its own name.

  /** `Task(title, description)`: id 0, status NEW, no start, zero duration. */
  function NewTask(title: string, description: string): Task
  {
    Task(0, title, description, NEW, None, 0)
  }

  /** `Task(title, description, status)`. */
  function NewTaskWithStatus(title: string, description: string, status: Status): Task
  {
    NewTask(title, description).(status := status)
  }

  /** `Task(title, description, id, status)`. */
  function NewTaskWithId(title: string, description: string, id: int, status: Status): Task
  {
    NewTask(title, description).(id := id, status := status)
  }

  /** `Task(title, description, startTime, duration)`. */
  function NewScheduledTask(title: string, description: string, start: Option<int>, duration: int): Task
  {
    NewTask(title, description).(start := start, duration := duration)
  }

  /** `Task(title, description, id, status, startTime, duration)`. */
  function NewFullTask(title: string, description: string, id: int, status: Status,
                       start: Option<int>, duration: int): Task
  {
    Task(id, title, description, status, start, duration)
  }

  /** `Epic(title, description)`. */
  function NewEpic(title: string, description: string): Epic
  {
    Epic(NewTask(title, description), [], None)
  }

  /** `Epic(title, description, id, status)`. */
  function NewEpicWithId(title: string, description: string, id: int, status: Status): Epic
  {
    Epic(NewTaskWithId(title, description, id, status), [], None)
  }

  /** `Epic(title, description, id, status, subtaskIds, startTime, endTime, duration)`. */
  function NewFullEpic(title: string, description: string, id: int, status: Status,
                       subtaskIds: seq<int>, start: Option<int>, endTime: Option<int>, duration: int): Epic
  {
    Epic(NewFullTask(title, description, id, status, start, duration), subtaskIds, endTime)
  }

  /** `Epic(name, description, status, id)`: hands the description to the
      title slot and the name to the description slot, and drops `id`. */
  function NewEpicSwapped(name: string, description: string, status: Status, id: int): Epic
  {
    Epic(NewTaskWithStatus(description, name, status), [], None)
  }

  /** `Subtask(title, description, epicId, startTime, duration)`: keeps the
      epic id but drops the start time and the duration. */
  function NewSubtaskDroppingSchedule(title: string, description: string, epicId: int,
                                      start: Option<int>, duration: int): Subtask
  {
    Subtask(NewTask(title, description), epicId)
  }

  /** `Subtask(title, description, epicId)`. */
  function NewSubtask(title: string, description: string, epicId: int): Subtask
  {
    Subtask(NewTask(title, description), epicId)
  }

  /** `Subtask(title, description, epicId, status)`. */
  function NewSubtaskWithStatus(title: string, description: string, epicId: int, status: Status): Subtask
  {
    Subtask(NewTaskWithStatus(title, description, status), epicId)
  }

  /** `Subtask(title, description, id, status, epicId)`: drops `id`. */
  function NewSubtaskDroppingId(title: string, description: string, id: int, status: Status,
                                epicId: int): Subtask
  {
    Subtask(NewTaskWithStatus(title, description, status), epicId)
  }

  /** `Subtask(title, description, startTime, duration)`: no epic id, so 0. */
  function NewUnlinkedSubtask(title: string, description: string, start: Option<int>, duration: int): Subtask
  {
    Subtask(NewScheduledTask(title, description, start, duration), 0)
  }

  /** `Subtask(title, description, id, status, epicId, startTime, duration)`. */
  function NewFullSubtask(title: string, description: string, id: int, status: Status, epicId: int,
                          start: Option<int>, duration: int): Subtask
  {
    Subtask(NewFullTask(title, description, id, status, start, duration), epicId)
  }

  /** Every shorter constructor is the full one with the omitted fields at
      their declared defaults: id 0, status NEW, no start, zero duration. */
  lemma TaskConstructorDefaults(title: string, description: string, id: int, status: Status,
                                start: Option<int>, duration: int)
    ensures NewTask(title, description) == NewFullTask(title, description, 0, NEW, None, 0)
    ensures NewTaskWithStatus(title, description, status) == NewFullTask(title, description, 0, status, None, 0)
    ensures NewTaskWithId(title, description, id, status) == NewFullTask(title, description, id, status, None, 0)
    ensures NewScheduledTask(title, description, start, duration)
         == NewFullTask(title, description, 0, NEW, start, duration)
  {
  }

  /** The subtask constructors that silently ignore some of their arguments:
      the schedule, the id, or (by never setting it) the epic id. */
  lemma SubtaskConstructorsDropArguments(title: string, description: string, id: int, status: Status,
                                         epicId: int, start: Option<int>, duration: int)
    ensures NewSubtaskDroppingSchedule(title, description, epicId, start, duration)
         == NewSubtask(title, description, epicId)
    ensures NewSubtaskDroppingId(title, description, id, status, epicId)
         == NewSubtaskWithStatus(title, description, epicId, status)
    ensures NewSubtaskDroppingId(title, description, id, status, epicId).base.id == 0
    ensures NewUnlinkedSubtask(title, description, start, duration).epicId == 0
  {
  }

  /** The four-argument epic constructor that takes the status before the id
      swaps title and description and drops the id. */
  lemma EpicConstructorSwapsArguments(title: string, description: string, id: int, status: Status)
    ensures NewEpicSwapped(title, description, status, id).base
         == NewFullTask(description, title, 0, status, None, 0)
  {
  }

  // ---------------------------------------------------------------------
  // Setters. Each replaces one field.

  function SetId(t: Task, id: int): Task { t.(id := id) }
  function SetTitle(t: Task, title: string): Task { t.(title := title) }
  function SetDescription(t: Task, description: string): Task { t.(description := description) }
  function SetStatus(t: Task, status: Status): Task { t.(status := status) }
  function SetStartTime(t: Task, start: Option<int>): Task { t.(start := start) }
  function SetDuration(t: Task, duration: int): Task { t.(duration := duration) }

  /** Each setter is read back by its getter and changes no other field. */
  lemma SettersAreLocal(t: Task, id: int, title: string, description: string, status: Status,
                        start: Option<int>, duration: int)
    ensures SetId(t, id).id == id && SetId(t, id).(id := t.id) == t
    ensures SetTitle(t, title).title == title && SetTitle(t, title).(title := t.title) == t
    ensures SetDescription(t, description).description == description
         && SetDescription(t, description).(description := t.description) == t
    ensures SetStatus(t, status).status == status && SetStatus(t, status).(status := t.status) == t
    ensures SetStartTime(t, start).start == start && SetStartTime(t, start).(start := t.start) == t
    ensures SetDuration(t, duration).duration == duration
         && SetDuration(t, duration).(duration := t.duration) == t
  {
  }

  /** `Epic.setEndTime`. */
  function SetEndTime(e: Epic, endTime: Option<int>): Epic { e.(endTime := endTime) }

  /** An epic's end time is the stored field, whatever its start and duration. */
  lemma EpicEndTimeIsStored(e: Epic, start: Option<int>, duration: int, endTime: Option<int>)
    ensures EpicItem(SetEndTime(e, endTime)).EndTime() == endTime
    ensures EpicItem(e.(base := SetDuration(SetStartTime(e.base, start), duration))).EndTime() == e.endTime
  {
  }

  // ---------------------------------------------------------------------
  // The epic's subtask-id list.

  /** `Epic.getSubtaskIds`: a copy; with value semantics, the list itself. */
  function SubtaskIds(e: Epic): seq<int> { e.subtaskIds }

  /** `Epic.addSubtaskId`: appends. */
  function AddSubtaskId(e: Epic, id: int): (r: Epic)
    ensures r.base == e.base && r.endTime == e.endTime
    ensures |r.subtaskIds| == |e.subtaskIds| + 1 && r.subtaskIds[..|e.subtaskIds|] == e.subtaskIds
    ensures r.subtaskIds[|e.subtaskIds|] == id
  {
    e.(subtaskIds := e.subtaskIds + [id])
  }

  /** `Epic.deleteSubtaskId`: removes the first element equal to `id`, by
      value (the `Integer.valueOf` boxing selects `remove(Object)`). */
  function DeleteSubtaskId(e: Epic, id: int): (r: Epic)
    ensures r.base == e.base && r.endTime == e.endTime
    ensures id !in e.subtaskIds ==> r == e
    ensures id in e.subtaskIds ==>
      var i := IndexOf(e.subtaskIds, id);
      e.subtaskIds[i] == id && id !in e.subtaskIds[..i]
      && r.subtaskIds == e.subtaskIds[..i] + e.subtaskIds[i+1..]
  {
    e.(subtaskIds := RemoveFirst(e.subtaskIds, id))
  }

  /** `Epic.clearSubtaskIds`. */
  function ClearSubtaskIds(e: Epic): (r: Epic)
    ensures r.base == e.base && r.endTime == e.endTime && |r.subtaskIds| == 0
  {
    e.(subtaskIds := [])
  }

  /** Deleting an id just appended to a list that did not hold it restores the epic. */
  lemma DeleteUndoesAdd(e: Epic, id: int)
    requires id !in e.subtaskIds
    ensures DeleteSubtaskId(AddSubtaskId(e, id), id) == e
  {
    var s := e.subtaskIds + [id];
    assert s[|e.subtaskIds|] == id;
    var i := IndexOf(s, id);
    assert i == |e.subtaskIds|;
    assert s[..i] == e.subtaskIds;
  }

  // ---------------------------------------------------------------------
  // Equality.

  /** `Task.equals`: id, title, description and status; the schedule is ignored. */
  predicate TaskEquals(a: Task, b: Task)
  {
    a.id == b.id && a.title == b.title && a.description == b.description && a.status == b.status
  }

  /** `Epic.equals`: task equality plus equal subtask-id lists. */
  predicate EpicEquals(a: Epic, b: Epic)
  {
    TaskEquals(a.base, b.base) && a.subtaskIds == b.subtaskIds
  }

  /** `Subtask.equals`: task equality plus equal epic ids. */
  predicate SubtaskEquals(a: Subtask, b: Subtask)
  {
    TaskEquals(a.base, b.base) && a.epicId == b.epicId
  }

  /** `equals` on objects: `getClass()` must match before the fields are compared. */
  predicate ItemEquals(a: Item, b: Item)
  {
    match (a, b)
    case (PlainItem(x), PlainItem(y)) => TaskEquals(x, y)
    case (EpicItem(x), EpicItem(y)) => EpicEquals(x, y)
    case (SubtaskItem(x), SubtaskItem(y)) => SubtaskEquals(x, y)
    case _ => false
  }

  /** Equality is reflexive, symmetric and transitive, and objects of
      different classes are never equal. */
  lemma ItemEqualsIsEquivalence(a: Item, b: Item, c: Item)
    ensures ItemEquals(a, a)
    ensures ItemEquals(a, b) ==> ItemEquals(b, a)
    ensures ItemEquals(a, b) && ItemEquals(b, c) ==> ItemEquals(a, c)
    ensures ItemEquals(a, b) ==> a.Type() == b.Type()
  {
  }

  /** `getType()` answers the class of the object: `Task`, `Epic` and
      `Subtask` each report their own constant. */
  lemma TypeMatchesClass(t: Task, e: Epic, s: Subtask)
    ensures PlainItem(t).Type() == TASK
    ensures EpicItem(e).Type() == EPIC
    ensures SubtaskItem(s).Type() == SUBTASK
  {
  }

  /** Start time, duration and an epic's stored end time never take part in equality. */
  lemma EqualityIgnoresSchedule(t: Task, e: Epic, s: Subtask, start: Option<int>, duration: int,
                                endTime: Option<int>)
    ensures TaskEquals(t, t.(start := start, duration := duration))
    ensures EpicEquals(e, e.(base := e.base.(start := start, duration := duration), endTime := endTime))
    ensures SubtaskEquals(s, s.(base := s.base.(start := start, duration := duration)))
  {
  }

  /** Equality tells two objects apart exactly when one of the compared fields differs. */
  lemma TaskEqualsExactly(a: Task, b: Task)
    ensures TaskEquals(a, b) <==> a.(start := b.start, duration := b.duration) == b
  {
  }
}

=== FILE: optional.dfy ===
/** A nullable value: `None` stands for Java's `null`. */
module Optional {

  datatype Option<+T> = None | Some(value: T) {

    /** The value, or `default` when absent. */
    function GetOr(default: T): T
    {
      match this
      case Some(v) => v
      case None => default
    }
  }
}

=== FILE: priority.dfy ===
/** The prioritized set: a `TreeSet` ordered by start time (nulls last), then
    id, kept here as a strictly sorted sequence, and the schedule-overlap
    check that scans it. */
module Priority {
  import opened Optional
  import opened Model

  /** The comparator `comparing(getStartTime, nullsLast(naturalOrder())).thenComparing(getId)`,
      as a strict "sorts before". */
  predicate Before(a: Item, b: Item)
  {
    match (a.Start(), b.Start())
    case (Some(x), Some(y)) => x < y || (x == y && a.Id() < b.Id())
    case (Some(_), None) => true
    case (None, Some(_)) => false
    case (None, None) => a.Id() < b.Id()
  }

  /** The comparator answers 0: the `TreeSet` treats the two as the same element. */
  predicate SameKey(a: Item, b: Item)
  {
    a.Start() == b.Start() && a.Id() == b.Id()
  }

  /** The comparator is a strict total order on (start, id) keys. */
  lemma BeforeIsStrictTotalOrder(a: Item, b: Item, c: Item)
    ensures !Before(a, a)
    ensures Before(a, b) ==> !Before(b, a)
    ensures Before(a, b) && Before(b, c) ==> Before(a, c)
    ensures Before(a, b) || Before(b, a) || SameKey(a, b)
    ensures SameKey(a, b) ==> !Before(a, b) && !Before(b, a)
  {
  }

  /** An unscheduled item sorts after every scheduled one. */
  lemma NullsLast(a: Item, b: Item)
    requires a.Start().Some? && b.Start().None?
    ensures Before(a, b) && !Before(b, a)
  {
  }

  predicate Sorted(s: seq<Item>)
  {
    forall i, j :: 0 <= i < j < |s| ==> Before(s[i], s[j])
  }

  /** Some element shares `x`'s key. */
  predicate HasKey(s: seq<Item>, x: Item)
  {
    exists i :: 0 <= i < |s| && SameKey(s[i], x)
  }

  /** `TreeSet.add`: places `x` at its sorted position, or changes nothing when
      an element with the same key is already present. */
  function Insert(s: seq<Item>, x: Item): (r: seq<Item>)
    requires Sorted(s)
    ensures Sorted(r)
    ensures HasKey(s, x) ==> r == s
    ensures !HasKey(s, x) ==> |r| == |s| + 1 && forall y :: y in r <==> y in s || y == x
  {
    if |s| == 0 then [x]
    else if SameKey(s[0], x) then s
    else if Before(x, s[0]) then
      BeforeHeadNoKey(s, x);
      [x] + s
    else
      var rest := Insert(s[1..], x);
      HasKeyTail(s, x);
      InsertAfterHead(s, x, rest);
      [s[0]] + rest
  }

  /** An item sorting before the least element shares no key with any. */
  lemma BeforeHeadNoKey(s: seq<Item>, x: Item)
    requires Sorted(s) && |s| > 0 && Before(x, s[0])
    ensures !HasKey(s, x)
  {
    forall i | 0 <= i < |s| ensures !SameKey(s[i], x) {
      if i > 0 { BeforeIsStrictTotalOrder(x, s[0], s[i]); }
    }
  }

  /** When the head does not share `x`'s key, only the tail can. */
  lemma HasKeyTail(s: seq<Item>, x: Item)
    requires |s| > 0 && !SameKey(s[0], x)
    ensures HasKey(s, x) <==> HasKey(s[1..], x)
  {
    if HasKey(s, x) {
      var i :| 0 <= i < |s| && SameKey(s[i], x);
      assert i > 0 && s[1..][i - 1] == s[i];
    }
    if HasKey(s[1..], x) {
      var i :| 0 <= i < |s[1..]| && SameKey(s[1..][i], x);
      assert s[i + 1] == s[1..][i];
    }
  }

  /** Inserting behind the head keeps the head least. */
  lemma InsertAfterHead(s: seq<Item>, x: Item, rest: seq<Item>)
    requires Sorted(s) && |s| > 0 && Before(s[0], x)
    requires forall y :: y in rest ==> y in s[1..] || y == x
    requires Sorted(rest)
    ensures Sorted([s[0]] + rest)
  {
    BeforeIsStrictTotalOrder(s[0], x, x);
    forall y | y in rest ensures Before(s[0], y) {
      if y != x {
        var k :| 0 <= k < |s[1..]| && s[1..][k] == y;
        assert s[k + 1] == y;
      }
    }
    var r := [s[0]] + rest;
    forall i, j | 0 <= i < j < |r| ensures Before(r[i], r[j]) {
      if i == 0 {
        assert r[j] == rest[j - 1] && rest[j - 1] in rest;
      } else {
        assert r[i] == rest[i - 1] && r[j] == rest[j - 1];
      }
    }
  }

  /** After `add` the set holds `x`'s key, and every element of another key
      is there exactly when it was before. */
  lemma InsertKeyed(s: seq<Item>, x: Item)
    requires Sorted(s)
    ensures HasKey(Insert(s, x), x)
    ensures forall y :: !SameKey(y, x) ==> (y in Insert(s, x) <==> y in s)
  {
    var r := Insert(s, x);
    if !HasKey(s, x) {
      assert x in r;
      var i :| 0 <= i < |r| && r[i] == x;
      assert SameKey(r[i], x);
    }
  }

  /** `TreeSet.remove(o)`: drops the element whose key is `o`'s, if any. */
  function RemoveKey(s: seq<Item>, x: Item): (r: seq<Item>)
    requires Sorted(s)
    ensures Sorted(r)
    ensures forall y :: y in r <==> y in s && !SameKey(y, x)
    ensures |r| <= |s|
  {
    if |s| == 0 then []
    else
      var rest := RemoveKey(s[1..], x);
      assert forall y :: y in rest ==> Before(s[0], y);
      if SameKey(s[0], x) then rest else [s[0]] + rest
  }

  /** `TreeSet.removeIf(e -> e.getId() == id)`. */
  function RemoveId(s: seq<Item>, id: int): (r: seq<Item>)
    requires Sorted(s)
    ensures Sorted(r)
    ensures forall y :: y in r <==> y in s && y.Id() != id
  {
    if |s| == 0 then []
    else
      var rest := RemoveId(s[1..], id);
      assert forall y :: y in rest ==> Before(s[0], y);
      if s[0].Id() == id then rest else [s[0]] + rest
  }

  // ---------------------------------------------------------------------
  // Overlap.

  /** Objects whose end time is derived from start and duration; epics,
      whose end time is a separately stored field, never enter the set. */
  predicate Schedulable(x: Item) { !x.EpicItem? }

  predicate AllSchedulable(s: seq<Item>)
  {
    forall i :: 0 <= i < |s| ==> Schedulable(s[i])
  }

  /** `isOverlapping`: both have a start and the half-open intervals
      `[start, end)` meet: `s1 < e2 && e1 > s2`. */
  predicate Overlapping(a: Item, b: Item)
    requires Schedulable(a) && Schedulable(b)
  {
    a.Start().Some? && b.Start().Some?
    && a.Start().value < b.EndTime().value && a.EndTime().value > b.Start().value
  }

  /** Minute `t` lies in the half-open interval `[lo, hi)`. */
  predicate Within(t: int, lo: int, hi: int) { lo <= t < hi }

  /** For positive durations the overlap test agrees with the reference
      notion: some minute lies in both `[start, end)` intervals. */
  lemma OverlapMeansSharedMinute(a: Item, b: Item)
    requires Schedulable(a) && Schedulable(b)
    requires a.Start().Some? && b.Start().Some?
    requires a.Base().duration > 0 && b.Base().duration > 0
    ensures Overlapping(a, b) <==>
      exists t :: Within(t, a.Start().value, a.EndTime().value) && Within(t, b.Start().value, b.EndTime().value)
  {
    var s1, s2 := a.Start().value, b.Start().value;
    var e1, e2 := a.EndTime().value, b.EndTime().value;
    assert e1 == s1 + a.Base().duration && e2 == s2 + b.Base().duration;
    if Overlapping(a, b) {
      var t := if s1 < s2 then s2 else s1;
      assert Within(t, s1, e1) && Within(t, s2, e2);
    }
  }

  /** Without positive durations the two notions part: a zero-length item
      strictly inside another is reported as overlapping it, although its
      interval holds no minute. */
  lemma ZeroDurationOverlap()
    ensures var a := PlainItem(Task(1, "", "", NEW, Some(0), 10));
            var b := PlainItem(Task(2, "", "", NEW, Some(5), 0));
            Overlapping(a, b) && !exists t :: Within(t, 5, 5)
  {
  }

  /** Overlap is symmetric; items that meet end-to-start do not overlap, and
      neither does an unscheduled item. */
  lemma OverlapFacts(a: Item, b: Item)
    requires Schedulable(a) && Schedulable(b)
    ensures Overlapping(a, b) <==> Overlapping(b, a)
    ensures a.Start().Some? && b.Start().Some? && a.EndTime().value == b.Start().value ==> !Overlapping(a, b)
    ensures a.Start().None? || b.Start().None? ==> !Overlapping(a, b)
  {
  }

  /** The filters of `checkTimeIntersection` for one existing element: both
      scheduled, a different id, and overlapping. */
  predicate Clashes(candidate: Item, existing: Item)
    requires Schedulable(candidate) && Schedulable(existing)
  {
    candidate.Start().Some? && existing.Start().Some?
    && candidate.Id() != existing.Id()
    && Overlapping(candidate, existing)
  }

  /** `checkTimeIntersection`: the first element of the set, in its order, that
      clashes with `candidate`. */
  function FirstClash(s: seq<Item>, candidate: Item): (r: Option<Item>)
    requires AllSchedulable(s) && Schedulable(candidate)
    ensures r.None? <==> forall i :: 0 <= i < |s| ==> !Clashes(candidate, s[i])
    ensures r.Some? ==> exists i :: 0 <= i < |s| && s[i] == r.value && Clashes(candidate, s[i])
                                    && forall j :: 0 <= j < i ==> !Clashes(candidate, s[j])
  {
    if |s| == 0 then None
    else if Clashes(candidate, s[0]) then Some(s[0])
    else
      var r := FirstClash(s[1..], candidate);
      assert forall i :: 1 <= i < |s| ==> s[i] == s[1..][i - 1];
      if r.Some? then
        var i :| 0 <= i < |s[1..]| && s[1..][i] == r.value && Clashes(candidate, s[1..][i])
                 && forall j :: 0 <= j < i ==> !Clashes(candidate, s[1..][j]);
        assert s[i + 1] == r.value;
        assert forall j :: 0 <= j < i + 1 ==> !Clashes(candidate, s[j]) by {
          forall j | 0 <= j < i + 1 ensures !Clashes(candidate, s[j]) {
            if j > 0 { assert s[j] == s[1..][j - 1]; }
          }
        }
        r
      else r
  }

  /** An unscheduled candidate never clashes with anything. */
  lemma UnscheduledNeverClashes(s: seq<Item>, candidate: Item)
    requires AllSchedulable(s) && Schedulable(candidate) && candidate.Start().None?
    ensures FirstClash(s, candidate).None?
  {
  }

  /** A candidate that clashes with nothing in `s` clashes with nothing in a
      set holding only elements of `s` and elements with its own id. */
  lemma NoClashAmong(s: seq<Item>, s2: seq<Item>, x: Item)
    requires AllSchedulable(s) && AllSchedulable(s2) && Schedulable(x)
    requires FirstClash(s, x).None?
    requires forall y :: y in s2 ==> y in s || y.Id() == x.Id()
    ensures FirstClash(s2, x).None?
  {
    forall i | 0 <= i < |s2| ensures !Clashes(x, s2[i]) {
      var y := s2[i];
      assert y in s2;
      if y.Id() != x.Id() {
        var j :| 0 <= j < |s| && s[j] == y;
      }
    }
  }
}

=== FILE: read.dfy ===
/** The id lookups, which record a hit in the history, and the history and
    prioritized listings. */
module ReadOps {
  import opened Optional
  import opened Model
  import opened History
  import opened ManagerState
  import CreateOps

  /** Only the history changes, and only by moving `item` to its recent end. */
  predicate Viewed(m: Manager, r: Manager, item: Item)
    requires Valid(m.history) && Valid(r.history)
  {
    && Items(r.history) == WithoutId(Items(m.history), item.Id()) + [item]
    && r.tasks == m.tasks && r.epics == m.epics && r.subtasks == m.subtasks
    && r.lastId == m.lastId && r.prioritized == m.prioritized
  }

  /** `getTaskById`: the stored task or `null`; a hit is recorded in the
      history, a miss changes nothing. */
  function GetTaskById(m: Manager, id: int): (r: Fetched<Task>)
    requires Inv(m)
    ensures Inv(r.state)
    ensures r.value.Some? <==> id in m.tasks
    ensures id in m.tasks ==> r.value.value == m.tasks[id] && Viewed(m, r.state, PlainItem(m.tasks[id]))
    ensures id !in m.tasks ==> r.state == m
  {
    if id in m.tasks then
      var h := AddInHistory(m.history, PlainItem(m.tasks[id]));
      InvNewHistory(m, h);
      Fetched(m.(history := h), Some(m.tasks[id]))
    else
      Fetched(m, None)
  }

  /** `getEpicById`. */
  function GetEpicById(m: Manager, id: int): (r: Fetched<Epic>)
    requires Inv(m)
    ensures Inv(r.state)
    ensures r.value.Some? <==> id in m.epics
    ensures id in m.epics ==> r.value.value == m.epics[id] && Viewed(m, r.state, EpicItem(m.epics[id]))
    ensures id !in m.epics ==> r.state == m
  {
    if id in m.epics then
      var h := AddInHistory(m.history, EpicItem(m.epics[id]));
      InvNewHistory(m, h);
      Fetched(m.(history := h), Some(m.epics[id]))
    else
      Fetched(m, None)
  }

  /** `getSubtaskById`. */
  function GetSubtaskById(m: Manager, id: int): (r: Fetched<Subtask>)
    requires Inv(m)
    ensures Inv(r.state)
    ensures r.value.Some? <==> id in m.subtasks
    ensures id in m.subtasks ==> r.value.value == m.subtasks[id] && Viewed(m, r.state, SubtaskItem(m.subtasks[id]))
    ensures id !in m.subtasks ==> r.state == m
  {
    if id in m.subtasks then
      var h := AddInHistory(m.history, SubtaskItem(m.subtasks[id]));
      InvNewHistory(m, h);
      Fetched(m.(history := h), Some(m.subtasks[id]))
    else
      Fetched(m, None)
  }

  /** `getHistory`: the viewed objects, least recently viewed first. */
  method GetHistory(m: Manager) returns (r: seq<Item>)
    requires Inv(m)
    ensures r == Items(m.history)
    ensures forall i, j :: 0 <= i < j < |r| ==> r[i].Id() != r[j].Id()
  {
    r := History.GetHistory(m.history);
    ItemsDistinct(m.history);
  }

  /** A task just created is found under the counter's new value, and looking
      it up puts it at the recent end of the history. */
  lemma CreatedTaskIsFound(m: Manager, t: Task)
    requires Inv(m) && CreateOps.CreateTask(m, t).Done?
    ensures var m1 := CreateOps.CreateTask(m, t).state;
            var f := GetTaskById(m1, m1.lastId);
            f.value == Some(t.(id := m1.lastId))
            && Items(f.state.history) == WithoutId(Items(m.history), m1.lastId) + [PlainItem(t.(id := m1.lastId))]
  {
  }

  /** Looking the same task up twice leaves it once in the history, at the end. */
  lemma RepeatedViewKeepsOneEntry(m: Manager, id: int)
    requires Inv(m) && id in m.tasks
    ensures var m2 := GetTaskById(GetTaskById(m, id).state, id).state;
            Items(m2.history) == WithoutId(Items(m.history), id) + [PlainItem(m.tasks[id])]
  {
    var item := PlainItem(m.tasks[id]);
    var h := Items(m.history);
    var m1 := GetTaskById(m, id).state;
    WithoutIdAppend(WithoutId(h, id), [item], id);
    WithoutIdTwice(h, id);
    assert WithoutId([item], id) == [];
  }

  /** Dropping an id distributes over concatenation. */
  lemma {:induction false} WithoutIdAppend(a: seq<Item>, b: seq<Item>, id: int)
    ensures WithoutId(a + b, id) == WithoutId(a, id) + WithoutId(b, id)
  {
    if |a| == 0 {
      assert a + b == b;
    } else {
      assert (a + b)[1..] == a[1..] + b;
      WithoutIdAppend(a[1..], b, id);
    }
  }

  /** Dropping an id twice is dropping it once. */
  lemma {:induction false} WithoutIdTwice(items: seq<Item>, id: int)
    ensures WithoutId(WithoutId(items, id), id) == WithoutId(items, id)
  {
    if |items| > 0 {
      WithoutIdTwice(items[1..], id);
      if items[0].Id() != id {
        assert WithoutId(items, id) == [items[0]] + WithoutId(items[1..], id);
        assert ([items[0]] + WithoutId(items[1..], id))[1..] == WithoutId(items[1..], id);
      }
    }
  }
}

=== FILE: rollup.dfy ===
/** How an epic's status and schedule are derived from its subtasks. The
    manager holds two different derivations: `updateEpicStatus`, run after a
    subtask is created, an epic is updated or all subtasks are dropped, and
    `recalculateEpicStatus`, run after a subtask is updated or deleted. */
module RollUp {
  import opened Optional
  import opened Model

  /** Every subtask in `subs` has status `st`. */
  predicate AllHave(subs: seq<Subtask>, st: Status)
  {
    forall i :: 0 <= i < |subs| ==> subs[i].base.status == st
  }

  /** No subtask in `subs` has status `st`. */
  predicate NoneHave(subs: seq<Subtask>, st: Status)
  {
    forall i :: 0 <= i < |subs| ==> subs[i].base.status != st
  }

  /** All subtasks share one status. */
  predicate Uniform(subs: seq<Subtask>)
  {
    forall i, j :: 0 <= i < |subs| && 0 <= j < |subs| ==> subs[i].base.status == subs[j].base.status
  }

  /** The number of subtasks with status `st`: the `groupingBy` count, or the
      `filter(...).count()`. */
  function Count(subs: seq<Subtask>, st: Status): (n: nat)
    ensures n <= |subs|
    ensures n == |subs| <==> AllHave(subs, st)
    ensures n == 0 <==> NoneHave(subs, st)
  {
    if |subs| == 0 then 0
    else
      var rest := Count(subs[1..], st);
      assert forall i :: 1 <= i < |subs| ==> subs[i] == subs[1..][i - 1];
      assert AllHave(subs, st) <==> subs[0].base.status == st && AllHave(subs[1..], st);
      assert NoneHave(subs, st) <==> subs[0].base.status != st && NoneHave(subs[1..], st);
      (if subs[0].base.status == st then 1 else 0) + rest
  }

  /** The status rule of `updateEpicStatus`: all NEW (or none at all) gives
      NEW, otherwise all DONE gives DONE, anything else IN_PROGRESS. */
  function MixedRollUp(subs: seq<Subtask>): (r: Status)
    ensures r == NEW <==> AllHave(subs, NEW)
    ensures r == DONE <==> |subs| > 0 && AllHave(subs, DONE)
    ensures r == IN_PROGRESS <==> !AllHave(subs, NEW) && !AllHave(subs, DONE)
  {
    var total := |subs|;
    if total == Count(subs, NEW) || total == 0 then NEW
    else if total == Count(subs, DONE) then DONE
    else IN_PROGRESS
  }

  /** The status rule of `recalculateEpicStatus`: none at all gives NEW, all
      IN_PROGRESS gives IN_PROGRESS, all DONE gives DONE, and anything else,
      a mix included, falls back to NEW. */
  function StrictRollUp(subs: seq<Subtask>): (r: Status)
    ensures r == IN_PROGRESS <==> |subs| > 0 && AllHave(subs, IN_PROGRESS)
    ensures r == DONE <==> |subs| > 0 && AllHave(subs, DONE)
    ensures r == NEW <==> |subs| == 0 || (!AllHave(subs, IN_PROGRESS) && !AllHave(subs, DONE))
  {
    if |subs| == 0 then NEW
    else if Count(subs, IN_PROGRESS) == |subs| then IN_PROGRESS
    else if Count(subs, DONE) == |subs| then DONE
    else NEW
  }

  lemma UniformHasOne(subs: seq<Subtask>)
    requires |subs| > 0 && Uniform(subs)
    ensures AllHave(subs, subs[0].base.status)
  {
  }

  /** The two rules agree exactly when the subtasks share one status (or there
      are none); on a mix the first says IN_PROGRESS and the second NEW. */
  lemma RollUpsAgreeIffUniform(subs: seq<Subtask>)
    ensures MixedRollUp(subs) == StrictRollUp(subs) <==> Uniform(subs)
    ensures !Uniform(subs) ==> MixedRollUp(subs) == IN_PROGRESS && StrictRollUp(subs) == NEW
  {
    if Uniform(subs) && |subs| > 0 {
      UniformHasOne(subs);
    }
    if !Uniform(subs) {
      var i, j :| 0 <= i < |subs| && 0 <= j < |subs| && subs[i].base.status != subs[j].base.status;
      assert !AllHave(subs, NEW) && !AllHave(subs, DONE) && !AllHave(subs, IN_PROGRESS) by {
        assert subs[i].base.status != subs[j].base.status;
      }
    }
  }

  /** One NEW and one DONE subtask: the creation path reports IN_PROGRESS, the
      update path reports NEW. */
  lemma RollUpsDivergeOnMix()
    ensures var subs := [Subtask(Task(2, "", "", NEW, None, 0), 1), Subtask(Task(3, "", "", DONE, None, 0), 1)];
            MixedRollUp(subs) == IN_PROGRESS && StrictRollUp(subs) == NEW
  {
    var subs := [Subtask(Task(2, "", "", NEW, None, 0), 1), Subtask(Task(3, "", "", DONE, None, 0), 1)];
    assert subs[0].base.status != subs[1].base.status;
    RollUpsAgreeIffUniform(subs);
  }

  // ---------------------------------------------------------------------
  // The epic's schedule.

  /** The earliest start among the subtasks that have one, or none. */
  function MinStart(subs: seq<Subtask>): (r: Option<int>)
    ensures r.None? <==> forall i :: 0 <= i < |subs| ==> subs[i].base.start.None?
    ensures r.Some? ==> exists i :: 0 <= i < |subs| && subs[i].base.start == r
    ensures r.Some? ==> forall i :: 0 <= i < |subs| && subs[i].base.start.Some? ==> r.value <= subs[i].base.start.value
  {
    if |subs| == 0 then None
    else
      var rest := MinStart(subs[1..]);
      assert forall i :: 1 <= i < |subs| ==> subs[i] == subs[1..][i - 1];
      var here := subs[0].base.start;
      if here.None? then
        (if rest.Some? then
           var k :| 0 <= k < |subs[1..]| && subs[1..][k].base.start == rest;
           assert subs[k + 1].base.start == rest;
           rest
         else rest)
      else if rest.None? || here.value <= rest.value then here
      else
        var k :| 0 <= k < |subs[1..]| && subs[1..][k].base.start == rest;
        assert subs[k + 1].base.start == rest;
        rest
  }

  /** The latest end among the subtasks that have one, or none. */
  function MaxEnd(subs: seq<Subtask>): (r: Option<int>)
    ensures r.None? <==> forall i :: 0 <= i < |subs| ==> subs[i].base.start.None?
    ensures r.Some? ==> exists i :: 0 <= i < |subs| && TaskEndTime(subs[i].base) == r
    ensures r.Some? ==> forall i :: 0 <= i < |subs| && subs[i].base.start.Some? ==> TaskEndTime(subs[i].base).value <= r.value
  {
    if |subs| == 0 then None
    else
      var rest := MaxEnd(subs[1..]);
      assert forall i :: 1 <= i < |subs| ==> subs[i] == subs[1..][i - 1];
      var here := TaskEndTime(subs[0].base);
      if here.None? then
        (if rest.Some? then
           var k :| 0 <= k < |subs[1..]| && TaskEndTime(subs[1..][k].base) == rest;
           assert TaskEndTime(subs[k + 1].base) == rest;
           rest
         else rest)
      else if rest.None? || here.value >= rest.value then here
      else
        var k :| 0 <= k < |subs[1..]| && TaskEndTime(subs[1..][k].base) == rest;
        assert TaskEndTime(subs[k + 1].base) == rest;
        rest
  }

  /** The durations summed from zero, scheduled or not. */
  function TotalDuration(subs: seq<Subtask>): int
  {
    if |subs| == 0 then 0 else subs[0].base.duration + TotalDuration(subs[1..])
  }

  /** The total splits over concatenation, so it does not depend on how the
      list is cut. */
  lemma {:induction false} TotalDurationAppend(a: seq<Subtask>, b: seq<Subtask>)
    ensures TotalDuration(a + b) == TotalDuration(a) + TotalDuration(b)
  {
    if |a| == 0 {
      assert a + b == b;
    } else {
      assert (a + b)[1..] == a[1..] + b;
      TotalDurationAppend(a[1..], b);
    }
  }

  /** Durations that are never negative sum to at least each of them. */
  lemma {:induction false} TotalDurationBounds(subs: seq<Subtask>)
    requires forall i :: 0 <= i < |subs| ==> subs[i].base.duration >= 0
    ensures TotalDuration(subs) >= 0
    ensures forall i :: 0 <= i < |subs| ==> subs[i].base.duration <= TotalDuration(subs)
  {
    if |subs| > 0 {
      assert forall i :: 1 <= i < |subs| ==> subs[i] == subs[1..][i - 1];
      TotalDurationBounds(subs[1..]);
    }
  }

  /** The fields an epic roll-up may change: status, start, duration and the
      stored end time. Everything else is kept. */
  predicate KeepsIdentity(e: Epic, r: Epic)
  {
    r.base.id == e.base.id && r.base.title == e.base.title
    && r.base.description == e.base.description && r.subtaskIds == e.subtaskIds
  }

  /** `updateEpicStatus` on an existing epic, given the subtasks its ids name
      (in list order). An empty list resets status and schedule; otherwise only
      the status is recomputed and the schedule is left as it was. */
  function UpdateEpicStatus(e: Epic, subs: seq<Subtask>): (r: Epic)
    requires |subs| == |e.subtaskIds|
    ensures KeepsIdentity(e, r)
    ensures r.base.status == MixedRollUp(subs)
    ensures |subs| == 0 ==> r.base.start.None? && r.endTime.None? && r.base.duration == 0
    ensures |subs| > 0 ==> r.base.start == e.base.start && r.endTime == e.endTime && r.base.duration == e.base.duration
  {
    if |e.subtaskIds| == 0 then
      SetEndTime(e.(base := SetDuration(SetStartTime(SetStatus(e.base, NEW), None), 0)), None)
    else
      var total := |e.subtaskIds|;
      if total == Count(subs, NEW) || total == 0 then e.(base := SetStatus(e.base, NEW))
      else if total == Count(subs, DONE) then e.(base := SetStatus(e.base, DONE))
      else e.(base := SetStatus(e.base, IN_PROGRESS))
  }

  /** `recalculateEpicStatus`, given the subtasks `getSubtasksByEpicId` finds.
      No subtasks: status NEW and no schedule. Otherwise the strict status
      rule, the earliest start, the latest end and the summed duration. */
  function RecalculateEpicStatus(e: Epic, subs: seq<Subtask>): (r: Epic)
    ensures KeepsIdentity(e, r)
    ensures r.base.status == StrictRollUp(subs)
    ensures r.base.start == MinStart(subs) && r.endTime == MaxEnd(subs)
    ensures r.base.duration == TotalDuration(subs)
  {
    if |subs| == 0 then
      SetEndTime(e.(base := SetDuration(SetStartTime(SetStatus(e.base, NEW), None), 0)), None)
    else
      var status :=
        if Count(subs, IN_PROGRESS) == |subs| then IN_PROGRESS
        else if Count(subs, DONE) == |subs| then DONE
        else NEW;
      var base := SetDuration(SetStartTime(SetStatus(e.base, status), MinStart(subs)), TotalDuration(subs));
      SetEndTime(e.(base := base), MaxEnd(subs))
  }

  /** After a recalculation every scheduled subtask lies inside the epic's
      span, and the epic is scheduled exactly when some subtask is. */
  lemma RecalculatedSpanCovers(e: Epic, subs: seq<Subtask>)
    ensures var r := RecalculateEpicStatus(e, subs);
      && (r.base.start.Some? <==> exists i :: 0 <= i < |subs| && subs[i].base.start.Some?)
      && (r.base.start.Some? <==> r.endTime.Some?)
      && forall i :: 0 <= i < |subs| && subs[i].base.start.Some? ==>
           r.base.start.value <= subs[i].base.start.value && TaskEndTime(subs[i].base).value <= r.endTime.value
  {
  }

  /** The stored end time of a recalculated epic is the latest subtask end,
      which is in general not its start plus its summed duration: two
      ten-minute subtasks an hour apart give a 70-minute span but a
      20-minute duration. */
  lemma SpanIsNotDuration()
    ensures var subs := [Subtask(Task(2, "", "", NEW, Some(0), 10), 1), Subtask(Task(3, "", "", NEW, Some(60), 10), 1)];
      var r := RecalculateEpicStatus(Epic(Task(1, "", "", NEW, None, 0), [2, 3], None), subs);
      r.base.start == Some(0) && r.endTime == Some(70) && r.base.duration == 20
  {
    var subs := [Subtask(Task(2, "", "", NEW, Some(0), 10), 1), Subtask(Task(3, "", "", NEW, Some(60), 10), 1)];
    assert subs[1..] == [subs[1]];
    assert subs[1..][1..] == [];
  }
}

=== FILE: seqs.dfy ===
/** Small facts about integer id sequences, and about maps keyed by id,
    shared by the epic lists, the history arena and the legacy manager. */
module Seqs {

  /** No id occurs twice. */
  predicate NoDup(s: seq<int>)
  {
    forall i, j :: 0 <= i < j < |s| ==> s[i] != s[j]
  }

  /** `s` with every occurrence of `x` dropped, the rest in order. */
  function Without(s: seq<int>, x: int): (r: seq<int>)
    ensures forall y :: y in r <==> y in s && y != x
    ensures |r| <= |s|
    ensures x !in s ==> r == s
  {
    if |s| == 0 then []
    else if s[0] == x then Without(s[1..], x)
    else [s[0]] + Without(s[1..], x)
  }

  lemma {:induction false} WithoutNoDup(s: seq<int>, x: int)
    requires NoDup(s)
    ensures NoDup(Without(s, x))
  {
    if |s| > 0 {
      assert NoDup(s[1..]) by {
        forall i, j | 0 <= i < j < |s[1..]| ensures s[1..][i] != s[1..][j] {
          assert s[1..][i] == s[i+1] && s[1..][j] == s[j+1];
        }
      }
      WithoutNoDup(s[1..], x);
      assert s[0] !in s[1..] by {
        forall j | 0 <= j < |s[1..]| ensures s[1..][j] != s[0] {
          assert s[1..][j] == s[j+1];
        }
      }
    }
  }

  /** An element of a non-empty sequence is its head or lies in its tail; a
      duplicate-free sequence keeps its head out of its tail. */
  lemma HeadTail(s: seq<int>)
    requires |s| > 0
    ensures forall k :: k in s <==> k == s[0] || k in s[1..]
    ensures NoDup(s) ==> NoDup(s[1..]) && s[0] !in s[1..]
  {
    assert s == [s[0]] + s[1..];
    if NoDup(s) {
      forall i, j | 0 <= i < j < |s[1..]| ensures s[1..][i] != s[1..][j] {
        assert s[1..][i] == s[i + 1] && s[1..][j] == s[j + 1];
      }
      forall j | 0 <= j < |s[1..]| ensures s[1..][j] != s[0] {
        assert s[1..][j] == s[j + 1];
      }
    }
  }

  /** The position of the first `x` in `s`. */
  function IndexOf(s: seq<int>, x: int): (i: nat)
    requires x in s
    ensures i < |s| && s[i] == x && x !in s[..i]
  {
    if s[0] == x then 0
    else
      var j := IndexOf(s[1..], x);
      assert s[..j+1] == [s[0]] + s[1..][..j];
      j + 1
  }

  /** Java's `List.remove(Object)`: drops the FIRST element equal to `x`. */
  function RemoveFirst(s: seq<int>, x: int): (r: seq<int>)
  {
    if x in s then s[..IndexOf(s, x)] + s[IndexOf(s, x) + 1..] else s
  }

  /** Removing the first `x` from a duplicate-free list is removing every `x`. */
  lemma {:induction false} RemoveFirstNoDup(s: seq<int>, x: int)
    requires NoDup(s)
    ensures RemoveFirst(s, x) == Without(s, x)
  {
    if x in s {
      var i := IndexOf(s, x);
      var pre, post := s[..i], s[i+1..];
      assert x !in post by {
        forall j | 0 <= j < |post| ensures post[j] != x {
          assert post[j] == s[i+1+j];
        }
      }
      assert x !in pre;
      assert s == pre + ([x] + post);
      assert RemoveFirst(s, x) == pre + post;
      WithoutAppend(pre, [x] + post, x);
      WithoutAppend([x], post, x);
      assert Without([x], x) == [] by {
        assert [x][0] == x && [x][1..] == [];
      }
      assert Without(pre, x) == pre && Without(post, x) == post;
    }
  }

  lemma {:induction false} WithoutAppend(a: seq<int>, b: seq<int>, x: int)
    ensures Without(a + b, x) == Without(a, x) + Without(b, x)
  {
    if |a| == 0 {
      assert a + b == b;
    } else {
      assert (a + b)[1..] == a[1..] + b;
      WithoutAppend(a[1..], b, x);
    }
  }

  /** The members of `keys` in `1..n`, ascending. Ids come from a counter
      starting at 1, so this enumerates a map's keys in the order Java's
      `HashMap` yields small positive `Integer` keys. */
  function KeysUpTo(keys: set<int>, n: int): (r: seq<int>)
    ensures forall y :: y in r <==> y in keys && 1 <= y <= n
    ensures forall i, j :: 0 <= i < j < |r| ==> r[i] < r[j]
    decreases n
  {
    if n <= 0 then []
    else
      var p := KeysUpTo(keys, n - 1);
      forall i | 0 <= i < |p| ensures p[i] < n {
        assert p[i] in p;
      }
      p + (if n in keys then [n] else [])
  }

  /** A second update of the same key overrides the first. */
  lemma UpdateTwice<V>(a: map<int, V>, k: int, v1: V, v2: V)
    ensures a[k := v1][k := v2] == a[k := v2]
  {
  }

  /** Storing back the value a key already has changes nothing. */
  lemma UpdateSame<V>(a: map<int, V>, k: int)
    requires k in a
    ensures a[k := a[k]] == a
  {
  }
}

=== FILE: store.dfy ===
/** The state of `InMemoryTaskManager`: three id-keyed maps, the history,
    the id counter and the prioritized set, with the invariant every public
    operation keeps. */
module ManagerState {
  import opened Optional
  import opened Seqs
  import opened Model
  import opened Priority
  import opened History
  import opened RollUp

  datatype Manager = Manager(
    tasks: map<int, Task>,
    epics: map<int, Epic>,
    subtasks: map<int, Subtask>,
    history: LinkedList,
    lastId: int,
    prioritized: seq<Item>)

  /** The end of an operation that may throw `ManagerSaveException` on a
      schedule clash: `Clash` carries the state left behind and the element
      `checkTimeIntersection` found. */
  datatype Outcome = Done(state: Manager) | Clash(state: Manager, other: Item)

  /** A getter's answer (`None` for Java's `null`) and the state after it. */
  datatype Fetched<T> = Fetched(state: Manager, value: Option<T>)

  /** A fresh manager: empty maps, empty history, counter at 0. */
  function NewManager(): (m: Manager)
    ensures Inv(m)
    ensures m.tasks == map[] && m.epics == map[] && m.subtasks == map[]
    ensures Items(m.history) == [] && m.prioritized == [] && m.lastId == 0
  {
    Manager(map[], map[], map[], Empty(), 0, [])
  }

  /** Every id in use came from the counter, is stored under itself and
      lives in exactly one of the three maps. */
  ghost predicate KeysOk(m: Manager)
  {
    && m.lastId >= 0
    && (forall k :: k in m.tasks ==> 0 < k <= m.lastId && m.tasks[k].id == k)
    && (forall k :: k in m.epics ==> 0 < k <= m.lastId && m.epics[k].base.id == k)
    && (forall k :: k in m.subtasks ==> 0 < k <= m.lastId && m.subtasks[k].base.id == k)
    && (forall k :: k in m.tasks ==> k !in m.epics && k !in m.subtasks)
    && (forall k :: k in m.epics ==> k !in m.subtasks)
  }

  /** The prioritized set is ordered by its comparator, holds no epic and
      only ids the counter has issued. */
  ghost predicate PriorityOk(prioritized: seq<Item>, lastId: int)
  {
    && Sorted(prioritized)
    && AllSchedulable(prioritized)
    && (forall i :: 0 <= i < |prioritized| ==> 0 < prioritized[i].Id() <= lastId)
  }

  /** Adding an element with an issued id keeps the set well formed. */
  lemma PriorityOkInsert(p: seq<Item>, x: Item, lastId: int)
    requires PriorityOk(p, lastId) && Schedulable(x) && 0 < x.Id() <= lastId
    ensures PriorityOk(Insert(p, x), lastId)
  {
    var r := Insert(p, x);
    forall i | 0 <= i < |r| ensures Schedulable(r[i]) && 0 < r[i].Id() <= lastId {
      assert r[i] in r;
      if r[i] != x {
        assert r[i] in p;
        var j :| 0 <= j < |p| && p[j] == r[i];
      }
    }
  }

  /** Epics and subtasks point at each other: an epic's list names stored
      subtasks of that epic, each once, and every stored subtask's epic
      exists and lists it. */
  ghost predicate Linked(epics: map<int, Epic>, subtasks: map<int, Subtask>)
  {
    && (forall k :: k in epics ==> NoDup(epics[k].subtaskIds))
    && (forall k, i :: k in epics && 0 <= i < |epics[k].subtaskIds| ==>
          epics[k].subtaskIds[i] in subtasks && subtasks[epics[k].subtaskIds[i]].epicId == k)
    && (forall k :: k in subtasks ==> subtasks[k].epicId in epics && k in epics[subtasks[k].epicId].subtaskIds)
  }

  /** The links left when subtask `id` is unlisted by its epic and dropped. */
  lemma LinkedWithoutSubtask(epics: map<int, Epic>, subtasks: map<int, Subtask>, id: int)
    requires Linked(epics, subtasks) && id in subtasks
    ensures var e := subtasks[id].epicId;
            Linked(epics[e := DeleteSubtaskId(epics[e], id)], subtasks - {id})
  {
    var e := subtasks[id].epicId;
    var ids := epics[e].subtaskIds;
    var epics' := epics[e := DeleteSubtaskId(epics[e], id)];
    var subtasks' := subtasks - {id};
    RemoveFirstNoDup(ids, id);
    WithoutNoDup(ids, id);
    assert epics'[e].subtaskIds == Without(ids, id);
    forall k, i | k in epics' && 0 <= i < |epics'[k].subtaskIds|
      ensures epics'[k].subtaskIds[i] in subtasks' && subtasks'[epics'[k].subtaskIds[i]].epicId == k
    {
      var sid := epics'[k].subtaskIds[i];
      if k == e {
        assert sid in Without(ids, id);
        var j := IndexOf(ids, sid);
        assert ids[j] in subtasks;
      } else {
        assert sid == epics[k].subtaskIds[i];
        assert subtasks[sid].epicId == k;
      }
    }
    forall k | k in subtasks' ensures subtasks'[k].epicId in epics' && k in epics'[subtasks'[k].epicId].subtaskIds {
      var p := subtasks[k].epicId;
      assert k in epics[p].subtaskIds;
      if p == e {
        assert k in Without(ids, id);
      }
    }
  }

  ghost predicate Inv(m: Manager)
  {
    && Valid(m.history)
    && PriorityOk(m.prioritized, m.lastId)
    && KeysOk(m)
    && Linked(m.epics, m.subtasks)
  }

  /** Any well-formed history may replace the current one. */
  lemma InvNewHistory(m: Manager, h: LinkedList)
    requires Inv(m) && Valid(h)
    ensures Inv(m.(history := h))
  {
    var r := m.(history := h);
    assert KeysOk(r);
    assert Linked(r.epics, r.subtasks);
  }

  /** A sorted selection from a well-formed prioritized set is well formed. */
  lemma PriorityOkSubset(p: seq<Item>, q: seq<Item>, lastId: int)
    requires PriorityOk(p, lastId) && Sorted(q)
    requires forall y :: y in q ==> y in p
    ensures PriorityOk(q, lastId)
  {
    forall i | 0 <= i < |q| ensures Schedulable(q[i]) && 0 < q[i].Id() <= lastId {
      assert q[i] in q;
      var j :| 0 <= j < |p| && p[j] == q[i];
    }
  }

  /** Replacing epics by ones with the same lists keeps the linkage. */
  lemma LinkedSameLists(epics: map<int, Epic>, epics': map<int, Epic>, subtasks: map<int, Subtask>)
    requires Linked(epics, subtasks)
    requires epics'.Keys == epics.Keys
    requires forall k :: k in epics ==> epics'[k].subtaskIds == epics[k].subtaskIds
    ensures Linked(epics', subtasks)
  {
  }

  /** Replacing subtasks by ones with the same epic keeps the linkage. */
  lemma LinkedSameParents(epics: map<int, Epic>, subtasks: map<int, Subtask>, subtasks': map<int, Subtask>)
    requires Linked(epics, subtasks)
    requires subtasks'.Keys == subtasks.Keys
    requires forall k :: k in subtasks ==> subtasks'[k].epicId == subtasks[k].epicId
    ensures Linked(epics, subtasks')
  {
    forall k, i | k in epics && 0 <= i < |epics[k].subtaskIds|
      ensures epics[k].subtaskIds[i] in subtasks' && subtasks'[epics[k].subtaskIds[i]].epicId == k
    {
      var sid := epics[k].subtaskIds[i];
      assert sid in subtasks && subtasks[sid].epicId == k;
      assert subtasks'[sid].epicId == subtasks[sid].epicId;
    }
  }

  /** Some key of `values` holds `v`. */
  predicate StoredIn<V(==)>(values: map<int, V>, v: V)
  {
    exists k :: k in values && values[k] == v
  }

  /** The subtasks named by `ids`, in list order; every id must be stored,
      as the `subtasks::get` mapping of `updateEpicStatus` dereferences each. */
  function SubtasksOf(subtasks: map<int, Subtask>, ids: seq<int>): (r: seq<Subtask>)
    requires forall i :: 0 <= i < |ids| ==> ids[i] in subtasks
    ensures |r| == |ids|
    ensures forall i :: 0 <= i < |ids| ==> r[i] == subtasks[ids[i]]
  {
    if |ids| == 0 then [] else [subtasks[ids[0]]] + SubtasksOf(subtasks, ids[1..])
  }

  /** Some id of `ids` is stored and holds `s`. */
  predicate ListedIn(subtasks: map<int, Subtask>, ids: seq<int>, s: Subtask)
  {
    exists i :: 0 <= i < |ids| && ids[i] in subtasks && subtasks[ids[i]] == s
  }

  /** The subtasks named by `ids` that are stored, in list order: the
      `map(subtasks::get).filter(Objects::nonNull)` of `getSubtasksByEpicId`. */
  function Present(subtasks: map<int, Subtask>, ids: seq<int>): (r: seq<Subtask>)
    ensures |r| <= |ids|
    ensures forall s :: s in r <==> ListedIn(subtasks, ids, s)
  {
    if |ids| == 0 then []
    else
      var rest := Present(subtasks, ids[1..]);
      assert forall i :: 1 <= i < |ids| ==> ids[i] == ids[1..][i - 1];
      if ids[0] in subtasks then [subtasks[ids[0]]] + rest else rest
  }

  /** When every id is stored the filter drops nothing. */
  lemma {:induction false} PresentAll(subtasks: map<int, Subtask>, ids: seq<int>)
    requires forall i :: 0 <= i < |ids| ==> ids[i] in subtasks
    ensures Present(subtasks, ids) == SubtasksOf(subtasks, ids)
  {
    if |ids| > 0 {
      PresentAll(subtasks, ids[1..]);
    }
  }

  /** `getSubtasksByEpicId`: the stored subtasks the epic lists, in list
      order; an empty list for an unknown epic. */
  function SubtasksByEpic(m: Manager, id: int): (r: seq<Subtask>)
    ensures id !in m.epics ==> r == []
    ensures forall s :: s in r ==> StoredIn(m.subtasks, s)
  {
    if id !in m.epics then []
    else
      var ids := m.epics[id].subtaskIds;
      var r := Present(m.subtasks, ids);
      assert forall s :: s in r ==> StoredIn(m.subtasks, s) by {
        forall s | s in r ensures StoredIn(m.subtasks, s) {
          var i :| 0 <= i < |ids| && ids[i] in m.subtasks && m.subtasks[ids[i]] == s;
          var k := ids[i];
          assert k in m.subtasks && m.subtasks[k] == s;
        }
      }
      r
  }

  /** Under the invariant the epic's list finds exactly the stored subtasks
      that name it as their epic. */
  lemma SubtasksByEpicComplete(m: Manager, id: int)
    requires Inv(m) && id in m.epics
    ensures SubtasksByEpic(m, id) == SubtasksOf(m.subtasks, m.epics[id].subtaskIds)
    ensures forall k :: k in m.subtasks && m.subtasks[k].epicId == id ==> m.subtasks[k] in SubtasksByEpic(m, id)
    ensures forall s :: s in SubtasksByEpic(m, id) ==> s.epicId == id
  {
    var ids := m.epics[id].subtaskIds;
    PresentAll(m.subtasks, ids);
    var r := SubtasksByEpic(m, id);
    forall k | k in m.subtasks && m.subtasks[k].epicId == id ensures m.subtasks[k] in r {
      var i := IndexOf(ids, k);
      assert r[i] == m.subtasks[k];
    }
  }

  /** `updateEpicStatus(id)` inside the manager: the epic's status is rolled
      up from its subtasks (its schedule reset when it has none); an unknown
      id changes nothing. */
  function RefreshEpic(m: Manager, id: int): (r: Manager)
    requires Inv(m)
    ensures Inv(r)
    ensures id !in m.epics ==> r == m
    ensures id in m.epics ==>
      && r.epics.Keys == m.epics.Keys
      && KeepsIdentity(m.epics[id], r.epics[id])
      && r.epics[id].base.status == MixedRollUp(SubtasksByEpic(m, id))
      && (|m.epics[id].subtaskIds| == 0 ==>
            r.epics[id].base.start.None? && r.epics[id].endTime.None? && r.epics[id].base.duration == 0)
      && (|m.epics[id].subtaskIds| > 0 ==>
            && r.epics[id].base.start == m.epics[id].base.start && r.epics[id].endTime == m.epics[id].endTime
            && r.epics[id].base.duration == m.epics[id].base.duration)
      && (forall k :: k in m.epics && k != id ==> r.epics[k] == m.epics[k])
      && r.epics == m.epics[id := r.epics[id]]
    ensures forall k :: k in m.epics ==> r.epics[k].subtaskIds == m.epics[k].subtaskIds
    ensures forall k :: SubtasksByEpic(r, k) == SubtasksByEpic(m, k)
    ensures r.tasks == m.tasks && r.subtasks == m.subtasks && r.history == m.history
    ensures r.lastId == m.lastId && r.prioritized == m.prioritized
  {
    if id !in m.epics then m
    else
      var e := m.epics[id];
      SubtasksByEpicComplete(m, id);
      var e' := UpdateEpicStatus(e, SubtasksOf(m.subtasks, e.subtaskIds));
      var r := m.(epics := m.epics[id := e']);
      LinkedSameLists(m.epics, r.epics, m.subtasks);
      r
  }

  /** `recalculateEpicStatus(epics.get(id))` inside the manager: status,
      start, end and duration all recomputed from the subtasks the epic
      lists. */
  function RecalculateEpic(m: Manager, id: int): (r: Manager)
    requires Inv(m) && id in m.epics
    ensures Inv(r)
    ensures r.epics.Keys == m.epics.Keys
    ensures KeepsIdentity(m.epics[id], r.epics[id])
    ensures r.epics[id].base.status == StrictRollUp(SubtasksByEpic(m, id))
    ensures r.epics[id].base.start == MinStart(SubtasksByEpic(m, id))
    ensures r.epics[id].endTime == MaxEnd(SubtasksByEpic(m, id))
    ensures r.epics[id].base.duration == TotalDuration(SubtasksByEpic(m, id))
    ensures forall k :: k in m.epics && k != id ==> r.epics[k] == m.epics[k]
    ensures r.epics == m.epics[id := r.epics[id]]
    ensures forall k :: k in m.epics ==> r.epics[k].subtaskIds == m.epics[k].subtaskIds
    ensures forall k :: SubtasksByEpic(r, k) == SubtasksByEpic(m, k)
    ensures r.tasks == m.tasks && r.subtasks == m.subtasks && r.history == m.history
    ensures r.lastId == m.lastId && r.prioritized == m.prioritized
  {
    var e' := RecalculateEpicStatus(m.epics[id], SubtasksByEpic(m, id));
    var r := m.(epics := m.epics[id := e']);
    LinkedSameLists(m.epics, r.epics, m.subtasks);
    r
  }

  /** `getPrioritizedTasks`: the set in comparator order. */
  function Prioritized(m: Manager): (r: seq<Item>)
    requires Inv(m)
    ensures Sorted(r) && AllSchedulable(r)
    ensures forall i, j :: 0 <= i < j < |r| ==> !SameKey(r[i], r[j])
  {
    forall i, j | 0 <= i < j < |m.prioritized|
      ensures !SameKey(m.prioritized[i], m.prioritized[j])
    {
      BeforeIsStrictTotalOrder(m.prioritized[i], m.prioritized[j], m.prioritized[j]);
    }
    m.prioritized
  }

  /** The values of an id-keyed map in ascending id order, the order a
      `HashMap` with small positive keys iterates in. */
  function ValuesOf<V(==)>(values: map<int, V>, lastId: int): (r: seq<V>)
    requires forall k :: k in values ==> 0 < k <= lastId
    ensures forall k :: k in values ==> values[k] in r
    ensures forall i :: 0 <= i < |r| ==> StoredIn(values, r[i])
  {
    var keys := KeysUpTo(values.Keys, lastId);
    var r := seq(|keys|, i requires 0 <= i < |keys| => values[keys[i]]);
    assert forall k :: k in values ==> values[k] in r by {
      forall k | k in values ensures values[k] in r {
        var i :| 0 <= i < |keys| && keys[i] == k;
        assert r[i] == values[k];
      }
    }
    assert forall i :: 0 <= i < |r| ==> StoredIn(values, r[i]) by {
      forall i | 0 <= i < |r| ensures StoredIn(values, r[i]) {
        assert keys[i] in values && values[keys[i]] == r[i];
      }
    }
    r
  }

  /** `getTasks`, `getEpics`, `getSubtasks`: every stored object exactly
      once, nothing else; ids strictly ascend, the iteration order assumed
      for the `HashMap`. */
  function TaskList(m: Manager): (r: seq<Task>)
    requires Inv(m)
    ensures forall k :: k in m.tasks ==> m.tasks[k] in r
    ensures forall i :: 0 <= i < |r| ==> r[i].id in m.tasks && m.tasks[r[i].id] == r[i]
    ensures forall i, j :: 0 <= i < j < |r| ==> r[i].id < r[j].id
  {
    ValuesOf(m.tasks, m.lastId)
  }

  function EpicList(m: Manager): (r: seq<Epic>)
    requires Inv(m)
    ensures forall k :: k in m.epics ==> m.epics[k] in r
    ensures forall i :: 0 <= i < |r| ==> r[i].base.id in m.epics && m.epics[r[i].base.id] == r[i]
    ensures forall i, j :: 0 <= i < j < |r| ==> r[i].base.id < r[j].base.id
  {
    ValuesOf(m.epics, m.lastId)
  }

  function SubtaskList(m: Manager): (r: seq<Subtask>)
    requires Inv(m)
    ensures forall k :: k in m.subtasks ==> m.subtasks[k] in r
    ensures forall i :: 0 <= i < |r| ==> r[i].base.id in m.subtasks && m.subtasks[r[i].base.id] == r[i]
    ensures forall i, j :: 0 <= i < j < |r| ==> r[i].base.id < r[j].base.id
  {
    ValuesOf(m.subtasks, m.lastId)
  }
}

=== FILE: update.dfy ===
/** `updateTask`, `updateEpic` and `updateSubtask`: an unknown id changes
    nothing, and a scheduled replacement is checked against the prioritized
    set before anything is stored. */
module UpdateOps {
  import opened Optional
  import opened Seqs
  import opened Model
  import opened Priority
  import opened History
  import opened RollUp
  import opened ManagerState
  import DeleteOps

  /** `updateTask`. An unknown id changes nothing. An overlap with another
      element is refused before any change. Otherwise the task replaces the
      stored one; only when it has a start is its old entry removed from the
      prioritized set (by id) and the new one added, so a task that loses its
      start keeps its old entry there. */
  function UpdateTask(m: Manager, t: Task): (r: Outcome)
    requires Inv(m)
    ensures Inv(r.state)
    ensures t.id !in m.tasks ==> r == Done(m)
    ensures t.id in m.tasks ==>
      && (r.Clash? <==> FirstClash(m.prioritized, PlainItem(t)).Some?)
      && (r.Clash? ==> r.state == m && r.other in m.prioritized && Clashes(PlainItem(t), r.other))
      && (r.Done? ==>
            && r.state.tasks == m.tasks[t.id := t]
            && r.state.epics == m.epics && r.state.subtasks == m.subtasks
            && r.state.history == m.history && r.state.lastId == m.lastId
            && (t.start.None? ==> r.state.prioritized == m.prioritized)
            && (t.start.Some? ==> forall y :: y in r.state.prioritized <==>
                                    (y in m.prioritized && y.Id() != t.id) || y == PlainItem(t)))
  {
    if t.id !in m.tasks then Done(m)
    else
      match FirstClash(m.prioritized, PlainItem(t))
      case Some(other) =>
        assert other in m.prioritized;
        Clash(m, other)
      case None =>
        var m1 := m.(tasks := m.tasks[t.id := t]);
        assert KeysOk(m1);
        if t.start.None? then Done(m1)
        else
          var p := RemoveId(m.prioritized, t.id);
          PriorityOkSubset(m.prioritized, p, m.lastId);
          PriorityOkInsert(p, PlainItem(t), m.lastId);
          assert !HasKey(p, PlainItem(t)) by {
            forall i | 0 <= i < |p| ensures p[i].Id() != t.id {
              assert p[i] in p;
            }
          }
          Done(m1.(prioritized := Insert(p, PlainItem(t))))
  }

  /** `updateEpic`. An unknown id changes nothing. Otherwise only the title
      and description are copied onto the stored epic, whose status is then
      rolled up again by `updateEpicStatus`; its list, id and (while it has
      subtasks) schedule stay. */
  function UpdateEpic(m: Manager, e: Epic): (r: Manager)
    requires Inv(m)
    ensures Inv(r)
    ensures e.base.id !in m.epics ==> r == m
    ensures e.base.id in m.epics ==>
      var id := e.base.id;
      var stored := m.epics[id];
      && r.epics.Keys == m.epics.Keys
      && r.epics[id].base.id == id
      && r.epics[id].base.title == e.base.title && r.epics[id].base.description == e.base.description
      && r.epics[id].subtaskIds == stored.subtaskIds
      && r.epics[id].base.status == MixedRollUp(SubtasksByEpic(m, id))
      && (|stored.subtaskIds| == 0 ==>
            r.epics[id].base.start.None? && r.epics[id].endTime.None? && r.epics[id].base.duration == 0)
      && (|stored.subtaskIds| > 0 ==>
            && r.epics[id].base.start == stored.base.start && r.epics[id].endTime == stored.endTime
            && r.epics[id].base.duration == stored.base.duration)
      && (forall k :: k in m.epics && k != id ==> r.epics[k] == m.epics[k])
      && r.epics == m.epics[id := r.epics[id]]
    ensures r.tasks == m.tasks && r.subtasks == m.subtasks && r.history == m.history
    ensures r.lastId == m.lastId && r.prioritized == m.prioritized
  {
    var id := e.base.id;
    if id !in m.epics then m
    else
      var stored := m.epics[id];
      var renamed := stored.(base := SetDescription(SetTitle(stored.base, e.base.title), e.base.description));
      var m1 := m.(epics := m.epics[id := renamed]);
      LinkedSameLists(m.epics, m1.epics, m.subtasks);
      assert KeysOk(m1);
      assert SubtasksByEpic(m1, id) == SubtasksByEpic(m, id);
      var r := RefreshEpic(m1, id);
      UpdateTwice(m.epics, id, renamed, r.epics[id]);
      r
  }

  /** `updateSubtask`. Nothing changes for an unknown id, for an overlap with
      another element, or when the replacement names a different epic than
      the stored subtask. Otherwise the stored subtask's key leaves the
      prioritized set and the replacement's enters it, the replacement is
      stored, and its epic is recalculated. */
  function UpdateSubtask(m: Manager, s: Subtask): (r: Manager)
    requires Inv(m)
    ensures Inv(r)
    ensures var id := s.base.id;
      (id !in m.subtasks || FirstClash(m.prioritized, SubtaskItem(s)).Some? || m.subtasks[id].epicId != s.epicId)
      ==> r == m
    ensures var id := s.base.id;
      id in m.subtasks && FirstClash(m.prioritized, SubtaskItem(s)).None? && m.subtasks[id].epicId == s.epicId ==>
      var e := s.epicId;
      var x := SubtaskItem(s);
      && r.subtasks == m.subtasks[id := s]
      && r.epics.Keys == m.epics.Keys
      && KeepsIdentity(m.epics[e], r.epics[e])
      && r.epics[e].base.status == StrictRollUp(SubtasksByEpic(r, e))
      && r.epics[e].base.start == MinStart(SubtasksByEpic(r, e))
      && r.epics[e].endTime == MaxEnd(SubtasksByEpic(r, e))
      && r.epics[e].base.duration == TotalDuration(SubtasksByEpic(r, e))
      && (forall k :: k in m.epics && k != e ==> r.epics[k] == m.epics[k])
      && HasKey(r.prioritized, x)
      && (forall y :: !SameKey(y, x) ==>
            (y in r.prioritized <==> y in m.prioritized && !SameKey(y, SubtaskItem(m.subtasks[id]))))
      && r.tasks == m.tasks && r.history == m.history && r.lastId == m.lastId
  {
    var id := s.base.id;
    if id !in m.subtasks || FirstClash(m.prioritized, SubtaskItem(s)).Some? || m.subtasks[id].epicId != s.epicId then m
    else
      var m1 := Replace(m, s);
      var r := RecalculateEpic(m1, s.epicId);
      assert SubtasksByEpic(r, s.epicId) == SubtasksByEpic(m1, s.epicId);
      r
  }

  /** The part of `updateSubtask` before the epic is recalculated. */
  function Replace(m: Manager, s: Subtask): (r: Manager)
    requires Inv(m) && s.base.id in m.subtasks && m.subtasks[s.base.id].epicId == s.epicId
    ensures Inv(r)
    ensures r.subtasks == m.subtasks[s.base.id := s]
    ensures r.epics == m.epics && s.epicId in r.epics
    ensures HasKey(r.prioritized, SubtaskItem(s))
    ensures forall y :: !SameKey(y, SubtaskItem(s)) ==>
              (y in r.prioritized <==> y in m.prioritized && !SameKey(y, SubtaskItem(m.subtasks[s.base.id])))
    ensures r.tasks == m.tasks && r.history == m.history && r.lastId == m.lastId
  {
    var id := s.base.id;
    var p := RemoveKey(m.prioritized, SubtaskItem(m.subtasks[id]));
    PriorityOkSubset(m.prioritized, p, m.lastId);
    PriorityOkInsert(p, SubtaskItem(s), m.lastId);
    InsertKeyed(p, SubtaskItem(s));
    var subtasks := m.subtasks[id := s];
    LinkedSameParents(m.epics, m.subtasks, subtasks);
    var r := m.(prioritized := Insert(p, SubtaskItem(s)), subtasks := subtasks);
    assert KeysOk(r);
    r
  }

  /** Repeating an epic update changes nothing more: the copied fields are
      already in place and the roll-up reads the same subtasks. */
  lemma UpdateEpicIdempotent(m: Manager, e: Epic)
    requires Inv(m)
    ensures UpdateEpic(UpdateEpic(m, e), e) == UpdateEpic(m, e)
  {
    var id := e.base.id;
    var r1 := UpdateEpic(m, e);
    var r2 := UpdateEpic(r1, e);
    if id in m.epics {
      assert SubtasksByEpic(r1, id) == SubtasksByEpic(m, id);
      assert r2.epics[id].base == r1.epics[id].base;
      assert r2.epics[id] == r1.epics[id];
      UpdateSame(r1.epics, id);
    }
  }

  /** Repeating a task update that went through is accepted again and leaves
      the same tasks and the same prioritized elements. */
  lemma UpdateTaskTwice(m: Manager, t: Task)
    requires Inv(m) && t.id in m.tasks && UpdateTask(m, t).Done?
    ensures var r1 := UpdateTask(m, t).state;
            var r2 := UpdateTask(r1, t);
            && r2.Done? && r2.state.tasks == r1.tasks
            && forall y :: y in r2.state.prioritized <==> y in r1.prioritized
  {
    var r1 := UpdateTask(m, t).state;
    var x := PlainItem(t);
    NoClashAmong(m.prioritized, r1.prioritized, x);
    UpdateSame(r1.tasks, t.id);
  }

  /** A task updated to have no start keeps its old entry in the prioritized
      set; `deleteTaskById` then looks for the new key, so the old entry
      outlives the task. */
  lemma UnscheduledUpdateLeavesStaleEntry(m: Manager, t: Task)
    requires Inv(m) && t.id in m.tasks && t.start.None?
    requires m.tasks[t.id].start.Some? && PlainItem(m.tasks[t.id]) in m.prioritized
    ensures var r1 := UpdateTask(m, t);
            var r2 := DeleteOps.DeleteTaskById(r1.state, t.id);
            && r1.Done? && PlainItem(m.tasks[t.id]) in r1.state.prioritized
            && t.id !in r2.tasks && PlainItem(m.tasks[t.id]) in r2.prioritized
  {
    UnscheduledNeverClashes(m.prioritized, PlainItem(t));
  }
}
